=== FILE: README.md ===
# lescode core, modelled in Dafny

A model of the core of `lescode` (and its two earlier generations, `quiver/`
and `build/lib/lescode/`), a small Python utility library:

- **Nested-data views.** `asclass` wraps a dict into an ordered, attribute-style
  view: nested dicts become views and lists become tuples. `asdict` flattens a
  view back into a dict. `read` walks a key path with a `shallow_search` /
  `default` fallback. The lescode namespace carries a `frozen` flag; the quiver
  layer defines no `__setitem__`, so item assignment on it raises `TypeError`,
  and for reading it is a view with `frozen` set.
- **Configuration cells.** `Config` holds a detail view. `__update` replaces it
  outright or, for a partial update, flattens it, deep-merges the new data in
  (`partial_update`) and wraps the result again. The `watch`/`watch_async`
  refresh loops are modelled per tick: the first call lets a failure escape,
  every later tick swallows it and keeps the detail. The registries
  (`ConfigPool`, `get_config`) create a configuration on first access, and
  loading dispatches on the file suffix.
- **Type-directed record codec.** `asclass(cls, data)` builds a dataclass
  instance from a map keyed by external field names (the `property` metadata);
  `_asdict_inner`/`asdict` flatten it back. `serialize`/`deserialize` add a
  datetime tag/untag hook; msgpack hands tuples back as lists, which only a
  declared `Tuple` type turns back into tuples. quiver's `deserialize` can
  defer until it gets a payload.
- **Small state machines.** A bounded object pool with FIFO eviction, a
  singleton holder, and the `chain` decorator whose `step(start, end)`
  composes a slice of the predecessor functions.
- **Case conversion.** `camel2snake` (two regular-expression substitutions,
  then lowercase) and `snake2camel`, over ASCII.

Files: `wrappers.dfy` (Option, Result, the error kinds), `assoc.dfy` (ordered
association lists: the model of an insertion-ordered Python dict),
`value.dfy` (nested values), `namespace.dfy`, `reader.dfy`, `merge.dfy`,
`config.dfy`, `registry.dfy`, `codec.dfy`, `envelope.dfy`, `object_pool.dfy`,
`singleton.dfy`, `chain.dfy`, `case_conversion.dfy`.

Python objects that are mutated in place (a namespace, a `Config`, a pool) are
values here: every operation returns the new state. A metadata dict shared
between `field` calls is copied, not shared (see Left out). Exceptions are `Err`
results naming the Python exception class. Where the generations differ,
the model follows the code:

- The quiver `read` answers the layer itself for an empty path. The other two
  answer a curried reader.
- Only the lescode namespace takes item assignment (and refuses it when
  frozen); on a quiver layer it raises `TypeError`.
- A key looked up in a layer resolves to its first occurrence.

## Model

| member | source | states |
|---|---|---|
| Assoc.Lookup | lescode/namespace/namespace.py:19-21 | a key is found exactly when it is among the table's keys |
| Assoc.LookupFirst | quiver/config/layer.py:16-19 | the value found is that of the first pair carrying the key, the position `keys.index` gives |
| Assoc.LookupAppend | build/lib/lescode/config/pool.py:56 | assigning a fresh key at the end makes it map to the new value and leaves every other key's lookup unchanged |
| Assoc.AssignLookup | build/lib/lescode/config/pool.py:54-56 | `d[k] = v` maps k to v and leaves every other key's lookup unchanged |
| Assoc.AssignKeys | build/lib/lescode/config/pool.py:54-56 | `d[k] = v` keeps the key order when k is present and appends k otherwise |
| Assoc.UpdateFromSpec | lescode/types/base.py:26 | `dict.update`: keys of the argument take its values, all others keep theirs |
| Namespace.ItemsOf | lescode/namespace/namespace.py:52-54 | only dicts and views have items, and each key maps to the value a lookup finds |
| Namespace.AsClass | lescode/namespace/namespace.py:81-105 | falsy data gives an empty view; a dict is wrapped; any other truthy value raises `AttributeError`; the result carries the requested `frozen` flag |
| Namespace.LookupParse | lescode/namespace/namespace.py:99-101 | every key of the wrapped table holds the treated value of the input key |
| Namespace.WrapShape | lescode/namespace/namespace.py:25-47 | the view keeps the dict's keys in order: `len`, `in` and iteration agree with the dict |
| Namespace.ParseWraps | lescode/namespace/namespace.py:81-97 | every nested dict at every depth (inside lists too) becomes a view with the same `frozen`; every list becomes a tuple |
| Namespace.WrapWraps | quiver/config/layer.py:75-103 | the wrap of a plain dict leaves no dict and no list behind |
| Namespace.AsDict | lescode/namespace/namespace.py:67-78 | the flattened dict has unique keys, exactly the view's keys |
| Namespace.AsDictLookup | quiver/config/layer.py:57-72 | every key of the flattened dict holds the first value of that key in the view, flattened |
| Namespace.GetItem | quiver/config/layer.py:16-21 | a view answers a data key iff it holds it, with the value at its first position; any other name raises `AttributeError` (class attributes aside, see Left out) |
| Namespace.SetItem | lescode/namespace/namespace.py:31-37 | on a quiver layer item assignment raises `TypeError`; a frozen namespace refuses; otherwise the key is bound to the value, other keys keep their values, and a new key is appended to the iteration order |
| Namespace.RoundTrip | lescode/namespace/namespace.py:67-105 | `asdict(asclass(d))` is `d` with lists turned into tuples, when no dict hides in a list nested inside a list |
| Namespace.ParseDictFree | lescode/namespace/namespace.py:82-91 | on data without dicts, wrapping only turns lists into tuples |
| Namespace.FlatParse | quiver/config/layer.py:57-103 | flattening a wrapped value restores it (lists as tuples) under the same condition |
| Namespace.NestedListKeepsView | lescode/namespace/namespace.py:67-70 | without that condition the round trip fails: `{"a": [[{}]]}` keeps a view inside nested tuples |
| Reader.SeqIndex | lescode/namespace/namespace.py:115-116 | Python list indexing: in range exactly for -n <= i < n, negative indices count from the end |
| Reader.StepInto | lescode/namespace/namespace.py:114-122 | a step stops with the fallback exactly on a name that a view lacks or on a scalar; sequences and dicts raise on bad keys |
| Reader.Walk | quiver/config/pool.py:22-35 | an empty path answers the layer itself; a miss answers the fallback; a bad index or key raises the matching error |
| Reader.Read | lescode/namespace/namespace.py:108-125 | an empty path answers a reader bound to the layer and flags; otherwise the walk's result |
| Reader.CurriedRead | build/lib/lescode/config/pool.py:46 | the reader for an empty path answers every later path exactly as a direct read |
| Reader.PlainAtPlain | lescode/namespace/namespace.py:113-116 | a path into plain data leads to plain data |
| Reader.WalkWrappedPrefix | lescode/namespace/namespace.py:113-118 | walking an existing path through wrapped data arrives at the wrapped value found in the plain data |
| Reader.ReadThroughWrap | lescode/namespace/namespace.py:113-124 | reading an existing path from wrapped data gives the wrapped value at that path |
| Reader.MissingNameFallsBack | lescode/namespace/namespace.py:119-122 | a name missing from a wrapped dict ends the read with the fallback whatever keys follow |
| Reader.ShallowSearchExample | build/lib/lescode/config/pool.py:40-43 | a missing name gives `default` under `shallow_search` and `None` without it |
| Merge.PartialUpdate | build/lib/lescode/config/pool.py:49-57 | the merged keys are those of origin and patch; keys not in the patch keep the origin's value; unique keys stay unique |
| Merge.AppendNewCovered | build/lib/lescode/config/pool.py:52-56 | a patch whose keys are all present keeps the origin's key order |
| Merge.AppendNewMembers | build/lib/lescode/config/pool.py:51-56 | the result's key order contains exactly the origin's and the patch's keys |
| Merge.UpdateKeyOrder | build/lib/lescode/config/pool.py:50-56 | the origin's keys come first in their order, then the patch's new keys in patch order |
| Merge.UpdateLookup | build/lib/lescode/config/pool.py:51-56 | a patch key takes the patch value unless both sides hold dicts, in which case it holds their merge; other keys are untouched |
| Merge.UpdateKeys | build/lib/lescode/config/pool.py:49-57 | the result's keys are exactly keys(origin) ∪ keys(patch), in assignment order |
| Merge.UpdateValues | build/lib/lescode/config/pool.py:52-56 | case by case: untouched, replaced wholesale (lists and tuples are never merged element-wise), or merged recursively |
| Merge.LastWriteWins | build/lib/lescode/config/pool.py:56 | of two patches setting a key to a non-dict, the second wins |
| Merge.EmptyPatch | build/lib/lescode/config/pool.py:50-57 | an empty patch gives the origin back |
| Merge.SelfMerge | build/lib/lescode/config/pool.py:49-57 | merging a table into itself gives it back |
| Merge.MergedIdempotent | build/lib/lescode/config/pool.py:52-55 | merging the same value into a key twice is merging it once |
| Merge.Idempotent | build/lib/lescode/config/pool.py:49-57 | applying the same patch twice equals applying it once |
| ConfigStore.SetDetail | lescode/config/pool.py:36-38 | the detail setter succeeds exactly when `asclass(params)` does, and stores that view |
| ConfigStore.GetAgreesWithReadLayer | quiver/config/pool.py:51-52 | for a non-empty path the layer generation's `Config.read` and the later `Config.get` reach the same value, and fail with the same error |
| ConfigStore.FreshConfigReadsFallback | lescode/config/pool.py:29-30 | a new configuration answers any name read with the fallback, and the layer read of an empty path with `None` |
| ConfigStore.SetDetailRestores | quiver/config/pool.py:47-49 | setting a dict stores its wrap, whose flattening is the dict with lists as tuples |
| ConfigStore.Update | build/lib/lescode/config/pool.py:79-83 | a full update is the detail setter; a partial one fails with `TypeError` before any detail and with `AttributeError` on data without items |
| ConfigStore.MergedDetail | build/lib/lescode/config/pool.py:81 | key by key: patch non-dicts are wrapped as given, dict-on-view keys hold the wrapped merge, other keys hold their flattened-and-rewrapped value |
| ConfigStore.PartialUpdateDetail | lescode/config/pool.py:44 | the same per-key outcome, stated for the configuration cell |
| ConfigStore.Observe | lescode/config/pool.py:60-69 | with `ignore_exception` the observer never fails and keeps the detail on failure; without it a producer or update failure escapes |
| ConfigStore.Tick | build/lib/lescode/config/pool.py:108-115 | a later tick never fails; a failed tick keeps the configuration |
| ConfigStore.RefreshAppend | build/lib/lescode/config/pool.py:109-115 | the loop is a fold: one more tick acts on the state the earlier ticks left |
| ConfigStore.RefreshSplit | lescode/config/pool.py:85-91 | running two stretches of ticks is running the first, then the second |
| ConfigStore.FailedTicksKeepDetail | build/lib/lescode/config/pool.py:111-115 | ticks that all fail leave the configuration unchanged |
| ConfigStore.RefreshKeepsGeneration | lescode/config/pool.py:84-91 | ticks never change which kind of view the cell builds |
| ConfigStore.LastGoodFullReplace | lescode/config/pool.py:87-88 | with full updates, the detail is the wrap of the last produced dict, whatever failures follow |
| ConfigStore.SteadyStateResilience | build/lib/lescode/config/pool.py:108-115 | produce, fail, produce: the detail is the wrap of the last produced dict |
| ConfigStore.WatchSetupFailure | build/lib/lescode/config/pool.py:117 | a failure of the first producer call escapes `watch` |
| ConfigStore.PartialWatchNeedsDetail | lescode/config/pool.py:93 | a partial watch on a fresh configuration fails at once: `asdict(None)` raises |
| ConfigStore.ServiceExample | build/lib/lescode/config/pool.py:79-83 | updating one nested key keeps its sibling: after `{"service": {"port": 9090}}` the tags still read back |
| ConfigStore.ServiceMerge | build/lib/lescode/config/pool.py:49-57 | the merge of that example replaces the port and keeps the tags |
| ConfigStore.ItemsLoad | quiver/config/pool.py:47-49 | a dict inside a list is stored as a view inside a tuple |
| ConfigStore.ItemsUpdate | build/lib/lescode/config/pool.py:81 | after a partial update that dict is a plain dict inside a tuple |
| ConfigStore.PartialUpdateUnwrapsListDicts | lescode/config/pool.py:43-44 | a missing name under a dict in a list reads as the default before any partial update and raises `KeyError` after one |
| Registry.LoaderFor | quiver/config/pool.py:15-19 | only `.json`, `.yaml` and `.yml` have loaders, JSON exactly for `.json` |
| Registry.LoadedParams | build/lib/lescode/config/pool.py:20-21 | the YAML loader turns an empty document into `{}`; a non-empty document is kept |
| Registry.LoadedParamsWrap | lescode/config/pool.py:21-22 | any mapping or empty document from a loader wraps into a view |
| Registry.Fetch | build/lib/lescode/config/pool.py:143-147 | the name ends up in the table with the returned configuration; a present name changes nothing; an absent one gets a new configuration |
| Registry.FetchIdempotent | quiver/config/pool.py:75-79 | a second fetch returns the same configuration and leaves the table as it was |
| Registry.Load | build/lib/lescode/config/pool.py:128-140 | an unsupported suffix raises and leaves the table; otherwise the named configuration holds the wrap of the document and no other name changes |
| Registry.LoadThenGet | quiver/config/pool.py:60-79 | after a successful load, `get(name)` returns the loaded configuration |
| Registry.LoadTwice | quiver/config/pool.py:69-71 | loading the same document twice is loading it once |
| Registry.FailedLoadKeepsFetched | build/lib/lescode/config/pool.py:137-139 | a document that is not a mapping fails after the configuration was already created |
| Registry.LoadConfig | lescode/config/pool.py:99-120 | without a path the detail is an empty view; an unsupported suffix fails before the cache is touched; a supported file sets the cached configuration's detail to what the loader produced, and a failing setter still leaves the fetched configuration cached; every other argument's configuration is kept and namespaces stay namespaces |
| Registry.LoadConfigIsLoad | lescode/config/pool.py:104-120 | for a supported file `load_config` has the same outcome and leaves the same table as `ConfigPool.load` does for a namespace configuration |
| Codec.FieldMetadata | lescode/types/base.py:25-26 | keyword arguments override the metadata; other metadata keys keep their values; falsy metadata starts empty |
| Codec.UpdateFromAll | lescode/types/base.py:26 | `metadata.update(kwargs)`, key by key |
| Codec.PropertyKeyword | lescode/types/base.py:14-35 | `field(property=x)` gives the field external name x |
| Codec.Properties | lescode/types/base.py:60-63 | every field's external name maps to a field with that external name |
| Codec.PropertiesDistinct | quiver/types/base.py:36-38 | with distinct external names each name stands for its own field |
| Codec.Iterate | lescode/types/base.py:77-80 | lists and tuples iterate their items, dicts their keys, strings their characters, anything else raises `TypeError` |
| Codec.AsClass | lescode/types/base.py:56-85 | an undeclared type passes data through; records and dicts need a map; lists and tuples keep their length; dicts keep their keys; records get one value per field |
| Codec.Construct | lescode/types/base.py:66-72 | construction succeeds iff every field is given or has a default, taking the given value first |
| Codec.ConvertAll | quiver/types/base.py:50-54 | element conversion succeeds iff every element converts, and keeps order |
| Codec.ConvertValues | lescode/types/base.py:82-83 | dict conversion keeps the keys and converts each value |
| Codec.AsClassRecord | lescode/types/base.py:59-72 | a record is built from the converted keyword arguments |
| Codec.KwStep | quiver/types/base.py:43-46 | each input key that is an external name binds that field's internal name to its converted value |
| Codec.UnknownKeyIgnored | quiver/types/base.py:45 | input keys that are no field's external name are ignored |
| Codec.RecordPairs | lescode/types/base.py:90-94 | a record flattens to one pair per field, keyed by external name |
| Codec.AsDict | lescode/types/base.py:106-109 | `asdict` raises `TypeError` on anything but a record, and gives a map keyed by external names |
| Codec.FlattenWellDeclared | quiver/types/base.py:64-68 | with distinct external names the dict built from the pairs keeps them all |
| Codec.FlattenRecordFree | lescode/types/base.py:95-103 | data without records flattens to itself, list and tuple kept apart |
| Codec.RoundTrip | lescode/types/base.py:56-109 | `asclass(T, asdict(r)) == r` for every value conforming to its declared type |
| Codec.RoundTripItems | quiver/types/base.py:50-54 | element by element for lists and tuples |
| Codec.RoundTripEntries | quiver/types/base.py:56-57 | value by value for dicts |
| Codec.RoundTripRecord | quiver/types/base.py:35-46 | field by field for records |
| Codec.KwArgsRoundTrip | lescode/types/base.py:66-72 | the keyword arguments rebuilt from a flattened record name each field's original value |
| Envelope.EncodeDatetime | lescode/types/base.py:47-53 | only datetimes are tagged, into a map holding the tag |
| Envelope.DecodeDatetime | quiver/types/base.py:12-19 | an untagged map is kept; a tagged map without `as_str` raises `KeyError`; a decoded tag is a datetime |
| Envelope.HookInverse | lescode/types/base.py:38-53 | the decoder undoes the encoder when parse inverts format |
| Envelope.EncodeEntries | quiver/types/base.py:84-85 | packing keeps a map's keys and encodes each value |
| Envelope.DecodeItems | lescode/types/base.py:125-127 | unpacking a sequence succeeds iff every element decodes, keeping order |
| Envelope.TreeRoundTrip | lescode/types/base.py:112-128 | unpacking undoes packing on data without records or stray tags, datetimes included, except that every tuple comes back as a list; tuple-free data comes back unchanged |
| Envelope.ListedTupleFree | quiver/types/base.py:91 | what `unpackb` hands back holds no tuple, and tuple-free data is unchanged by the array-to-list reading |
| Envelope.Serialize | lescode/types/base.py:112-118 | `serialize` raises on anything but a record and packs every record (integer width aside, see Left out) |
| Envelope.SerializeRoundTrip | quiver/types/base.py:84-91 | `deserialize(cls, serialize(r)) == r` with the same format, for conforming records whose tuples sit only where `Tuple` is declared |
| Envelope.UndeclaredTupleComesBackAsList | quiver/types/base.py:59 | a record `R(x=(1,))` with `x: Any` conforms but comes back from `deserialize(R, serialize(...))` as `R(x=[1])` |
| Envelope.LooseTupleFlatten | lescode/types/base.py:88-103 | flattening a conforming value whose tuples sit only at declared `Tuple` positions keeps every tuple at a position `asclass` converts with a declared `List` or `Tuple` |
| Envelope.ListedAsClass | lescode/types/base.py:74-85 | on such data, `asclass` of the unpacked lists gives what `asclass` of the sent tuples would: a declared `Tuple` rebuilds the tuple from the list |
| Envelope.DeserializeLayer | quiver/types/base.py:88-91 | no payload and no `accept_none` defers; an accepted missing payload raises; otherwise it is `deserialize` |
| Envelope.DeferredDecode | quiver/types/base.py:89-90 | the deferred decoder decodes a later payload as a direct call with the default format would |
| ObjectPool.Subclass | lescode/design_pattern/creational/object_pool.py:39-42 | a subclass starts with its own empty pool and the same settings |
| ObjectPool.Get | lescode/design_pattern/creational/object_pool.py:23-37 | default key when no name; a present name returns its object and changes nothing; a full pool without overwrite raises; otherwise the oldest entry of a full pool is evicted and then the constructor runs: its object is stored last and returned, or its exception propagates with the eviction kept |
| ObjectPool.GetKeepsValid | lescode/design_pattern/creational/object_pool.py:30-35 | whether the get returns or raises, names stay distinct and a positive `max_size` is never exceeded |
| ObjectPool.GetKeepsOthers | lescode/design_pattern/creational/object_pool.py:29-37 | every name but the requested and the evicted one keeps its object, whether the get returns or raises |
| ObjectPool.FailedConstructionEvicts | lescode/design_pattern/creational/object_pool.py:30-35 | a constructor that raises on a full pool still costs it its oldest entry |
| ObjectPool.UnboundedNeverEvicts | lescode/design_pattern/creational/object_pool.py:30 | with `max_size` 0 a get never overflows: it appends a new name, or changes nothing when the constructor raises |
| ObjectPool.GetTwice | lescode/design_pattern/design_pattern.py:31-39 | a second get of the same name returns the same object and changes nothing, whatever the constructor would do |
| ObjectPool.FifoEviction | lescode/design_pattern/design_pattern.py:31-37 | filling a pool of bound m with distinct names keeps exactly the last m, oldest first |
| ObjectPool.FillKeys | lescode/design_pattern/creational/object_pool.py:33-35 | the invariant behind it: the pool holds the last m names seen |
| ObjectPool.LastOf | lescode/design_pattern/creational/object_pool.py:30 | the kept names are at most m of the names seen |
| Singleton.NewHolder | lescode/design_pattern/design_pattern.py:58-63 | `get` answers `None` before any `set`, and `set` constructs the decorated class |
| Singleton.Set | lescode/design_pattern/creational/singleton.py:15-17 | `set` succeeds exactly when the constructor returns, after which `get` answers the constructed instance and the class it constructs is unchanged; a raising constructor's exception propagates |
| Singleton.NewType | lescode/design_pattern/design_pattern.py:70 | three-argument `type` builds a class exactly when its name argument is a `str`, and raises `TypeError` otherwise |
| Singleton.SubclassAsWritten | lescode/design_pattern/design_pattern.py:69-71 | as written, defining any subclass raises `TypeError`, because `type` receives the class object as its name |
| Singleton.Subclass | lescode/design_pattern/creational/singleton.py:19-21 | with the class name passed to `type`, a subclass constructs its own class named after it and starts with no instance |
| Singleton.SubclassRaises | lescode/design_pattern/design_pattern.py:69-71 | for a subclass `Sub` of a class holding an instance, the code as written raises while the corrected one gives a subclass whose `get` answers `None` until its own `set` |
| Singleton.SetReplaces | lescode/design_pattern/design_pattern.py:65-67 | a later successful `set` replaces the earlier instance; one whose constructor raises leaves it in place |
| Singleton.ReplayGet | lescode/design_pattern/creational/singleton.py:9-17 | after any run of calls, `get` answers the latest successful `set` |
| Singleton.LatestSetCons | lescode/design_pattern/creational/singleton.py:16-17 | the latest successful set of a run is found by replaying it from the front |
| Chain.Decorate | lescode/design_pattern/behavioral/chain.py:10-19 | the wrapper computes `func`; no `prev` gives no predecessors; a chained `prev` gives exactly the steps of its own full pipeline, one more than it had; a plain `prev` gives only itself |
| Chain.PySlice | lescode/design_pattern/behavioral/chain.py:22 | Python step-1 slicing: in-range bounds of either sign select the matching slice, crossed bounds give nothing, an end at or past the length means no end, a start at or past the length gives nothing, and a start at or before minus the length means 0 |
| Chain.Clamp | lescode/design_pattern/design_pattern.py:100 | a slice bound normalised as Python does: in range it is kept, negative counts from the end, below minus the length it is 0, past the length it is the length |
| Chain.Steps | lescode/design_pattern/behavioral/chain.py:21-24 | without `end` the steps are the slice `prevs[start:]` followed by the wrapper; with `end` they are exactly the slice `prevs[start:end]` |
| Chain.RunEmpty | lescode/design_pattern/behavioral/chain.py:26-27 | an empty step list returns the argument |
| Chain.RunAppend | lescode/design_pattern/design_pattern.py:104-105 | running two step lists in turn is running their concatenation |
| Chain.FullPipeline | lescode/design_pattern/behavioral/chain.py:11-29 | the full pipeline of a chained wrapper is `func` after the predecessor's full pipeline |
| Chain.ShortPipelines | lescode/design_pattern/design_pattern.py:90-107 | with a plain predecessor g the pipeline is `func(g(x))`; with none it is `func(x)` |
| Chain.StepSplit | lescode/design_pattern/behavioral/chain.py:21-29 | `step(mid)` after `step(start, mid)` is `step(start)`: the stored chain is never changed |
| Chain.EmptyStep | lescode/design_pattern/design_pattern.py:99-105 | `step(s, s)` hands the argument back |
| CaseConversion.Lower | lescode/parser/basic.py:8 | lowercasing keeps the length, leaves no capital, keeps every other character, and turns each capital into the letter whose capital it is |
| CaseConversion.LowerFixed | lescode/parser/basic.py:8 | lowercasing leaves a string alone exactly when it has no capitals, so it is idempotent |
| CaseConversion.Camel2Snake | lescode/parser/basic.py:5-8 | the output has no uppercase letter and is no shorter than the input |
| CaseConversion.OnlyInsertsUnderscores | lescode/parser/basic.py:6-8 | deleting every `_` from the output gives the lowercased input with every `_` deleted |
| CaseConversion.Sub2Inserts | lescode/parser/basic.py:7 | the second substitution inserts `_` exactly before a capital that follows a lowercase letter or digit |
| CaseConversion.Camel2SnakeIdentity | lescode/parser/basic.py:6-8 | a string without capitals is unchanged |
| CaseConversion.Split | lescode/parser/basic.py:12 | `split("_")` gives at least one segment, none holding `_` |
| CaseConversion.JoinSplit | lescode/parser/basic.py:12 | joining the segments with `_` gives the string back |
| CaseConversion.Capitalize | lescode/parser/basic.py:13 | the first character is uppercased and the rest lowered |
| CaseConversion.Snake2Camel | lescode/parser/basic.py:11-14 | the output holds no `_` |
| CaseConversion.Snake2CamelIdentity | lescode/parser/basic.py:12-13 | a string without `_` is unchanged |
| CaseConversion.FirstSegmentVerbatim | lescode/parser/basic.py:13 | the first segment is kept verbatim |
| CaseConversion.AppendSegment | lescode/parser/basic.py:13 | each later segment is capitalised; an empty segment vanishes |
| CaseConversion.SnakeRoundTrip | lescode/parser/basic.py:5-14 | `camel2snake(snake2camel(s)) == s` for snake-case words of two or more characters |
| CaseConversion.SingleLetterWordsMerge | lescode/parser/basic.py:6-13 | one-letter words do not survive: `a_b_c` becomes `aBC` and then `a_bc` |

## Left out

- File `open`, the JSON and YAML parsers: a loaded document is a parameter; parse errors and missing files are not modelled.
- Threads, `time.sleep`, the asyncio loop and the `call_after` scheduler behind `watch`/`watch_async`: only the first call and the per-tick step are modelled, with the producer's outcome as a parameter. Logging of swallowed errors is not modelled.
- `msgpack.packb`/`unpackb` are taken as the identity on the value tree, hooks aside, except that tuples come back as lists (`unpackb`'s default `use_list=True`); a caller passing `use_list=False` or other options through `**kwargs` is not modelled.
- `datetime.strftime`/`strptime` are a parameter (`Clock`); the round trips assume parse inverts format.
- `lru_cache` on `get_config`: its 128-entry bound and eviction are not modelled; the cache never forgets.
- The `functional` module (`curry`, `case`, `compose`, lescode's own `partial_update`) is not part of this model; lescode's partial update is taken to behave as the `partial_update` of `build/lib/lescode/config/pool.py`.
- Namespace.GetItem: a name the data lacks falls through to attribute lookup on the class, so names of `Mapping` methods and other class attributes (`keys`, `items`, `values`, `get`, dunder names) answer the attribute instead of raising `AttributeError`; only data keys are modelled.
- Namespace.SetItem: attribute assignment `layer.k = x` on a quiver layer stores an instance attribute outside the data, seen by a later `layer.k` only when k is no data key and never by `in`, iteration or `asdict`; instance attributes are not modelled.
- Envelope.Serialize: integers are unbounded here, while `msgpack.packb` raises `OverflowError` for an integer outside [-2^63, 2^64); records holding such integers are modelled as packing successfully.
- Reader.StepInto: only data keys are path keys; Python attributes found by `hasattr` (`keys`, `get`, `real`, ...) are not modelled, so an attribute name on a view or scalar falls back instead of answering the attribute.
- Dict keys and field metadata values are strings; the `deepcopy` of `build` is unnecessary on immutable values.
- Runtime class generation (`__new__`, `base`, `__instancecheck__`, the class object `type(...)` builds): a class is reduced to its name, and the object its constructor builds (or the exception it raises) is a parameter `made`.
- `singleton()` in `lescode/design_pattern/creational/singleton.py` never returns `wrap`, so the decorator itself answers `None`; only the inner state machine is modelled, as in `design_pattern.py`.
- Codec.AsClass: `Tuple[T, ...]` uses only its first type argument, as the code does; `init=False` fields and `default_factory` are not modelled (a field default is a value).
- Codec.RoundTrip: stated for conforming values, which excludes repeated external names, fields with equal names and records nested where no type is declared.
- Envelope.Deserialize: `deserialize` of lescode is curried through the unshown `curry`; only its full application is modelled.
- Envelope.TreeRoundTrip: data that already carries the datetime tag does not round-trip and is excluded.
- Envelope.TreeRoundTrip: a tuple comes back as a list, so the exact round trip is promised only for tuple-free data; otherwise the result is the tree with its tuples listed.
- Envelope.SerializeRoundTrip: a record holding a tuple where no `Tuple` is declared (under `Any`) does not round-trip, because the tuple comes back as a list; such records are excluded, and `Envelope.UndeclaredTupleComesBackAsList` shows one.
- Codec.FieldMetadata: `field` updates a non-empty caller-supplied metadata dict in place and the field keeps a live view of it, so fields declared with one shared dict share every later keyword (given one dict and `property="a"` then `property="b"`, both fields end up named "b"); the model copies the dict, so each field keeps its own keywords.
- `parse_json` in `lescode/parser/basic.py` only feeds `snake2camel` into `json.dumps`; it is not modelled.
- CaseConversion.Lower: ASCII only; Unicode case mapping is not modelled.
- Namespace.RoundTrip: `asdict` does not descend into tuples nested in tuples, so data with a dict inside a list inside a list is excluded (and `NestedListKeepsView` shows why).
- Logger, exporter and `setup.py` are outside the modelled core (I/O, clocks, stack inspection, packaging).
- Exception messages (`"pool overflowed"`, `"Namespace is frozen"`, the unsupported-format text) are reduced to error kinds.

## Findings

| source | as written | input that shows it | evidently intended | confidence | as-written member | corrected member |
|---|---|---|---|---|---|---|
| lescode/design_pattern/design_pattern.py:70 | `__init_subclass__` calls `type(cls, (_cls,), dict(cls.__dict__))`, handing the class object where `type` needs a `str` name | `class Sub(Decorated): pass` for any class decorated with `singleton`: `type` raises `TypeError`, so the subclass statement fails (`Singleton.SubclassRaises`) | `type(cls.__name__, (_cls,), dict(cls.__dict__))`, as the object pool's `__init_subclass__` writes it, giving the subclass its own empty slot | high; not executed | Singleton.SubclassAsWritten | Singleton.Subclass |
| lescode/design_pattern/creational/singleton.py:20 | the same `type(cls, ...)` call in the second copy of the decorator | the same subclass statement | the same `type(cls.__name__, ...)` call | high; not executed | Singleton.SubclassAsWritten | Singleton.Subclass |

=== FILE: assoc.dfy ===
/** Insertion-ordered, string-keyed tables.

    A Python `dict` (and an `OrderedDict`) remembers the order in which keys
    were first inserted; assigning to an existing key keeps its position.
    The model is a sequence of pairs; `Lookup` returns the FIRST pair with the
    key, which is also how the read-only layer resolves a repeated key. */
module Assoc {
  import opened Wrappers

  datatype Pair<V> = Pair(key: string, val: V)

  function Keys<V>(ps: seq<Pair<V>>): (ks: seq<string>)
    ensures |ks| == |ps|
    ensures forall i :: 0 <= i < |ps| ==> ks[i] == ps[i].key
  {
    if ps == [] then [] else [ps[0].key] + Keys(ps[1..])
  }

  /** No key occurs twice: the invariant of every Python dict. */
  predicate UniqueKeys<V>(ps: seq<Pair<V>>) {
    forall i, j :: 0 <= i < j < |ps| ==> ps[i].key != ps[j].key
  }

  /** Position of the first pair carrying `k`. */
  function IndexOf<V>(ps: seq<Pair<V>>, k: string): (i: nat)
    requires k in Keys(ps)
    ensures i < |ps| && ps[i].key == k
    ensures forall j :: 0 <= j < i ==> ps[j].key != k
  {
    if ps[0].key == k then 0 else 1 + IndexOf(ps[1..], k)
  }

  function Lookup<V>(ps: seq<Pair<V>>, k: string): (r: Option<V>)
    ensures r.Some? <==> k in Keys(ps)
  {
    if ps == [] then None
    else if ps[0].key == k then Some(ps[0].val)
    else Lookup(ps[1..], k)
  }

  /** `Lookup` answers with the first pair carrying the key, like `keys.index(name)`. */
  lemma {:induction false} LookupFirst<V>(ps: seq<Pair<V>>, k: string)
    requires k in Keys(ps)
    ensures Lookup(ps, k) == Some(ps[IndexOf(ps, k)].val)
  {
    if ps[0].key != k {
      LookupFirst(ps[1..], k);
    }
  }

  /** In a table without repeated keys every pair is the one `Lookup` finds. */
  lemma {:induction false} LookupUnique<V>(ps: seq<Pair<V>>, i: nat)
    requires UniqueKeys(ps) && i < |ps|
    ensures Lookup(ps, ps[i].key) == Some(ps[i].val)
  {
    if i > 0 {
      assert ps[0].key != ps[i].key;
      assert ps[1..][i - 1] == ps[i];
      LookupUnique(ps[1..], i - 1);
    }
  }

  lemma {:induction false} KeysAppend<V>(a: seq<Pair<V>>, b: seq<Pair<V>>)
    ensures Keys(a + b) == Keys(a) + Keys(b)
  {
  }

  lemma {:induction false} LookupAppend<V>(a: seq<Pair<V>>, p: Pair<V>, k: string)
    ensures Lookup(a + [p], k)
         == if k in Keys(a) then Lookup(a, k) else if p.key == k then Some(p.val) else None
  {
    if a == [] {
      assert a + [p] == [p];
    } else {
      assert (a + [p])[1..] == a[1..] + [p];
      assert Keys(a) == [a[0].key] + Keys(a[1..]);
      if a[0].key != k {
        LookupAppend(a[1..], p, k);
      }
    }
  }

  /** Two tables without repeated keys that list the same keys in the same
      order and agree on every lookup are the same table. */
  lemma {:induction false} Extensionality<V>(a: seq<Pair<V>>, b: seq<Pair<V>>)
    requires UniqueKeys(a) && UniqueKeys(b) && Keys(a) == Keys(b)
    requires forall k :: Lookup(a, k) == Lookup(b, k)
    ensures a == b
  {
    if a != [] {
      assert a[0].key == b[0].key by { assert Keys(a)[0] == Keys(b)[0]; }
      assert Lookup(a, a[0].key) == Some(a[0].val);
      assert Lookup(b, b[0].key) == Some(b[0].val);
      assert Keys(a[1..]) == Keys(b[1..]) by {
        assert Keys(a) == [a[0].key] + Keys(a[1..]);
        assert Keys(b) == [b[0].key] + Keys(b[1..]);
      }
      forall k ensures Lookup(a[1..], k) == Lookup(b[1..], k) {
        if k == a[0].key {
          assert k !in Keys(a[1..]) by {
            forall j | 0 <= j < |a[1..]| ensures Keys(a[1..])[j] != k {
              assert a[1..][j] == a[j + 1];
            }
          }
        } else {
          assert Lookup(a, k) == Lookup(a[1..], k);
          assert Lookup(b, k) == Lookup(b[1..], k);
        }
      }
      Extensionality(a[1..], b[1..]);
    }
  }

  /** A pair with a new key can be appended without repeating a key. */
  lemma UniqueAppend<V>(ps: seq<Pair<V>>, p: Pair<V>)
    requires UniqueKeys(ps) && p.key !in Keys(ps)
    ensures UniqueKeys(ps + [p])
  {
    var r := ps + [p];
    forall i, j | 0 <= i < j < |r| ensures r[i].key != r[j].key {
      if j == |r| - 1 {
        assert Keys(ps)[i] == ps[i].key;
      }
    }
  }

  /** Dropping the first pair keeps keys distinct and loses only that key. */
  lemma UniqueTail<V>(ps: seq<Pair<V>>, k: string)
    requires UniqueKeys(ps) && ps != [] && k !in Keys(ps)
    ensures UniqueKeys(ps[1..]) && k !in Keys(ps[1..])
  {
    var t := ps[1..];
    forall i, j | 0 <= i < j < |t| ensures t[i].key != t[j].key {
      assert t[i] == ps[i + 1] && t[j] == ps[j + 1];
    }
    forall j | 0 <= j < |t| ensures Keys(t)[j] != k {
      assert t[j] == ps[j + 1];
      assert Keys(ps)[j + 1] == ps[j + 1].key;
    }
  }

  /** Whether keys repeat depends on the key sequence alone. */
  lemma UniqueFromKeys<V>(a: seq<Pair<V>>, ks: seq<string>)
    requires Keys(a) == ks
    ensures UniqueKeys(a) <==> forall i, j :: 0 <= i < j < |ks| ==> ks[i] != ks[j]
  {
  }

  function Assign<V>(ps: seq<Pair<V>>, k: string, v: V): seq<Pair<V>>
  {
    if ps == [] then [Pair(k, v)]
    else if ps[0].key == k then [Pair(k, v)] + ps[1..]
    else [ps[0]] + Assign(ps[1..], k, v)
  }

  lemma {:induction false} AssignKeys<V>(ps: seq<Pair<V>>, k: string, v: V)
    ensures Keys(Assign(ps, k, v)) == if k in Keys(ps) then Keys(ps) else Keys(ps) + [k]
  {
    if ps != [] && ps[0].key != k {
      AssignKeys(ps[1..], k, v);
      assert Keys(ps) == [ps[0].key] + Keys(ps[1..]);
      var r := Assign(ps, k, v);
      assert r[1..] == Assign(ps[1..], k, v);
      assert Keys(r) == [ps[0].key] + Keys(r[1..]);
    } else if ps != [] {
      var r := Assign(ps, k, v);
      assert r[1..] == ps[1..];
      assert Keys(r) == [k] + Keys(ps[1..]);
    }
  }

  lemma {:induction false} AssignLookup<V>(ps: seq<Pair<V>>, k: string, v: V, k': string)
    ensures Lookup(Assign(ps, k, v), k') == if k' == k then Some(v) else Lookup(ps, k')
  {
    if ps != [] && ps[0].key != k {
      var r := Assign(ps, k, v);
      assert r[1..] == Assign(ps[1..], k, v);
      AssignLookup(ps[1..], k, v, k');
    } else if ps != [] {
      var r := Assign(ps, k, v);
      assert r[1..] == ps[1..];
    }
  }

  /** Dictionary assignment `d[k] = v`: replaces the value in place when `k`
      is present, appends the pair otherwise. */
  function Put<V>(ps: seq<Pair<V>>, k: string, v: V): (r: seq<Pair<V>>)
    ensures Keys(r) == if k in Keys(ps) then Keys(ps) else Keys(ps) + [k]
    ensures Lookup(r, k) == Some(v)
    ensures forall k' :: k' != k ==> Lookup(r, k') == Lookup(ps, k')
    ensures UniqueKeys(ps) ==> UniqueKeys(r)
  {
    AssignSpec(ps, k, v);
    Assign(ps, k, v)
  }

  lemma AssignSpec<V>(ps: seq<Pair<V>>, k: string, v: V)
    ensures var r := Assign(ps, k, v);
      && Keys(r) == (if k in Keys(ps) then Keys(ps) else Keys(ps) + [k])
      && Lookup(r, k) == Some(v)
      && (forall k' :: k' != k ==> Lookup(r, k') == Lookup(ps, k'))
      && (UniqueKeys(ps) ==> UniqueKeys(r))
  {
    var r := Assign(ps, k, v);
    AssignKeys(ps, k, v);
    forall k' ensures Lookup(r, k') == if k' == k then Some(v) else Lookup(ps, k') {
      AssignLookup(ps, k, v, k');
    }
    if UniqueKeys(ps) {
      UniqueFromKeys(r, Keys(r));
      UniqueFromKeys(ps, Keys(ps));
      if k !in Keys(ps) {
        UniqueAppendKey(Keys(ps), k);
      }
    }
  }

  /** A key sequence without repeats stays so when a new key is appended. */
  lemma UniqueAppendKey(ks: seq<string>, k: string)
    requires forall i, j :: 0 <= i < j < |ks| ==> ks[i] != ks[j]
    requires k !in ks
    ensures var ks' := ks + [k]; forall i, j :: 0 <= i < j < |ks'| ==> ks'[i] != ks'[j]
  {
  }

  function FirstOccurrences<V>(ps: seq<Pair<V>>): seq<Pair<V>>
  {
    if ps == [] then []
    else
      var rest := FirstOccurrences(ps[..|ps| - 1]);
      if ps[|ps| - 1].key in Keys(rest) then rest else rest + [ps[|ps| - 1]]
  }

  lemma FirstOccurrencesSpec<V>(ps: seq<Pair<V>>)
    ensures UniqueKeys(FirstOccurrences(ps))
    ensures forall k :: k in Keys(FirstOccurrences(ps)) <==> k in Keys(ps)
    ensures forall k :: Lookup(FirstOccurrences(ps), k) == Lookup(ps, k)
    ensures UniqueKeys(ps) ==> FirstOccurrences(ps) == ps
  {
    forall k ensures k in Keys(FirstOccurrences(ps)) <==> k in Keys(ps) {
      FirstOccurrencesAt(ps, k);
    }
    forall k ensures Lookup(FirstOccurrences(ps), k) == Lookup(ps, k) {
      FirstOccurrencesAt(ps, k);
    }
    FirstOccurrencesUnique(ps);
    FirstOccurrencesIdentity(ps);
  }

  /** Keeping first occurrences loses no key and changes no lookup. */
  lemma {:induction false} FirstOccurrencesAt<V>(ps: seq<Pair<V>>, k: string)
    ensures k in Keys(FirstOccurrences(ps)) <==> k in Keys(ps)
    ensures Lookup(FirstOccurrences(ps), k) == Lookup(ps, k)
    decreases |ps|
  {
    if ps != [] {
      var init := ps[..|ps| - 1];
      var last := ps[|ps| - 1];
      var rest := FirstOccurrences(init);
      assert ps == init + [last];
      FirstOccurrencesAt(init, k);
      FirstOccurrencesAt(init, last.key);
      KeysAppend(init, [last]);
      LookupAppend(init, last, k);
      if last.key !in Keys(rest) {
        KeysAppend(rest, [last]);
        LookupAppend(rest, last, k);
      }
    }
  }

  lemma {:induction false} FirstOccurrencesUnique<V>(ps: seq<Pair<V>>)
    ensures UniqueKeys(FirstOccurrences(ps))
    decreases |ps|
  {
    if ps != [] {
      var init := ps[..|ps| - 1];
      var last := ps[|ps| - 1];
      var rest := FirstOccurrences(init);
      FirstOccurrencesUnique(init);
      if last.key !in Keys(rest) {
        UniqueAppend(rest, last);
      }
    }
  }

  lemma {:induction false} FirstOccurrencesIdentity<V>(ps: seq<Pair<V>>)
    ensures UniqueKeys(ps) ==> FirstOccurrences(ps) == ps
    decreases |ps|
  {
    if ps != [] && UniqueKeys(ps) {
      var init := ps[..|ps| - 1];
      var last := ps[|ps| - 1];
      assert ps == init + [last];
      assert UniqueKeys(init) by {
        forall i, j | 0 <= i < j < |init| ensures init[i].key != init[j].key {
          assert init[i] == ps[i] && init[j] == ps[j];
        }
      }
      assert last.key !in Keys(init) by {
        forall i | 0 <= i < |init| ensures Keys(init)[i] != last.key {
          assert init[i] == ps[i];
        }
      }
      FirstOccurrencesIdentity(init);
      FirstOccurrencesAt(init, last.key);
    }
  }

  /** The table a dict comprehension builds from a key sequence that may repeat:
      each key keeps the position and the value of its first pair. */
  function Dedup<V>(ps: seq<Pair<V>>): (r: seq<Pair<V>>)
    ensures UniqueKeys(r)
    ensures forall k :: k in Keys(r) <==> k in Keys(ps)
    ensures forall k :: Lookup(r, k) == Lookup(ps, k)
    ensures UniqueKeys(ps) ==> r == ps
  {
    FirstOccurrencesSpec(ps);
    FirstOccurrences(ps)
  }

  /** `d.update(pairs)` (and `dict(pairs)` from an empty `d`): assignment of
      each pair in turn, so a later repeat of a key wins the value but keeps
      the first position. */
  function UpdateFrom<V>(ps: seq<Pair<V>>, qs: seq<Pair<V>>): seq<Pair<V>>
    decreases |qs|
  {
    if qs == [] then ps
    else UpdateFrom(Put(ps, qs[0].key, qs[0].val), qs[1..])
  }

  /** With distinct keys in `qs`: keys in `qs` take its values, other keys
      keep theirs, and no key is repeated if none was. */
  lemma {:induction false} UpdateFromSpec<V>(ps: seq<Pair<V>>, qs: seq<Pair<V>>, k: string)
    requires UniqueKeys(qs)
    ensures Lookup(UpdateFrom(ps, qs), k) == if k in Keys(qs) then Lookup(qs, k) else Lookup(ps, k)
    ensures UniqueKeys(ps) ==> UniqueKeys(UpdateFrom(ps, qs))
    decreases |qs|
  {
    if qs != [] {
      assert Keys(qs) == [qs[0].key] + Keys(qs[1..]);
      assert UniqueKeys(qs[1..]);
      UpdateFromSpec(Put(ps, qs[0].key, qs[0].val), qs[1..], k);
      if k == qs[0].key {
        assert k !in Keys(qs[1..]) by {
          forall j | 0 <= j < |qs[1..]| ensures Keys(qs[1..])[j] != k {
            assert qs[1..][j] == qs[j + 1];
          }
        }
      }
    }
  }

  /** Assigning a key the table does not hold appends the pair. */
  lemma {:induction false} AssignFresh<V>(ps: seq<Pair<V>>, k: string, v: V)
    requires k !in Keys(ps)
    ensures Assign(ps, k, v) == ps + [Pair(k, v)]
  {
    if ps != [] {
      assert Keys(ps) == [ps[0].key] + Keys(ps[1..]);
      AssignFresh(ps[1..], k, v);
      assert ps + [Pair(k, v)] == [ps[0]] + (ps[1..] + [Pair(k, v)]);
    }
  }

  /** Pairs with fresh, distinct keys are appended in order. */
  lemma {:induction false} UpdateFromFresh<V>(ps: seq<Pair<V>>, qs: seq<Pair<V>>)
    requires UniqueKeys(ps + qs)
    ensures UpdateFrom(ps, qs) == ps + qs
    decreases |qs|
  {
    if qs != [] {
      assert qs[0].key !in Keys(ps) by {
        forall j | 0 <= j < |ps| ensures Keys(ps)[j] != qs[0].key {
          assert (ps + qs)[j] == ps[j] && (ps + qs)[|ps|] == qs[0];
        }
      }
      AssignFresh(ps, qs[0].key, qs[0].val);
      var next := ps + [qs[0]];
      assert ps + qs == next + qs[1..];
      UpdateFromFresh(next, qs[1..]);
    }
  }
}

=== FILE: case_conversion.dfy ===
/** `camel2snake` and `snake2camel` of `parser/basic.py`, over ASCII.

    `camel2snake` applies two regular-expression substitutions and then
    lowercases: `(.)([A-Z][a-z]+)` becomes `\1_\2`, then `([a-z0-9])([A-Z])`
    becomes `\1_\2`. Each substitution scans left to right and resumes after
    the end of a match, so matches never overlap. `snake2camel` splits on
    `_`, keeps the first segment as it is and capitalises every later one
    (first letter upper, the rest lower). */
module CaseConversion {
  import opened Wrappers

  predicate IsUpper(c: char) { 'A' <= c <= 'Z' }
  predicate IsLower(c: char) { 'a' <= c <= 'z' }
  predicate IsDigit(c: char) { '0' <= c <= '9' }

  /** The class `[a-z0-9]`. */
  predicate IsLowerOrDigit(c: char) { IsLower(c) || IsDigit(c) }

  predicate NoUpper(s: string) { forall i :: 0 <= i < |s| ==> !IsUpper(s[i]) }
  predicate NoUnderscore(s: string) { forall i :: 0 <= i < |s| ==> s[i] != '_' }

  function ToLowerChar(c: char): (r: char)
    ensures !IsUpper(r)
    ensures !IsUpper(c) ==> r == c
    ensures (r == '_') == (c == '_')
  {
    if IsUpper(c) then (c as int + 32) as char else c
  }

  function ToUpperChar(c: char): (r: char)
    ensures IsLower(c) ==> IsUpper(r) && ToLowerChar(r) == c
    ensures !IsLower(c) ==> r == c
  {
    if IsLower(c) then (c as int - 32) as char else c
  }

  /** `str.lower`, restricted to ASCII letters. */
  function Lower(s: string): (r: string)
    ensures |r| == |s|
    ensures NoUpper(r)
    ensures forall i :: 0 <= i < |s| && !IsUpper(s[i]) ==> r[i] == s[i]
    ensures forall i :: 0 <= i < |s| && IsUpper(s[i]) ==> IsLower(r[i]) && ToUpperChar(r[i]) == s[i]
  {
    seq(|s|, i requires 0 <= i < |s| => ToLowerChar(s[i]))
  }

  /** Lowercasing leaves a string alone exactly when it has no capitals, so
      lowercasing twice is lowercasing once. */
  lemma LowerFixed(s: string)
    ensures Lower(s) == s <==> NoUpper(s)
    ensures Lower(Lower(s)) == Lower(s)
  {
  }

  lemma LowerAppend(a: string, b: string)
    ensures Lower(a + b) == Lower(a) + Lower(b)
  {
  }

  /** Length of the run of lowercase letters `s` starts with: how far the
      greedy `[a-z]+` reaches. */
  function LowerRun(s: string): (n: nat)
    ensures n <= |s|
    ensures forall i :: 0 <= i < n ==> IsLower(s[i])
    ensures n < |s| ==> !IsLower(s[n])
    decreases |s|
  {
    if s != [] && IsLower(s[0]) then 1 + LowerRun(s[1..]) else 0
  }

  /** `re.sub("(.)([A-Z][a-z]+)", r"\1_\2", s)`; `.` matches anything but a newline. */
  function Sub1(s: string): (r: string)
    ensures |r| >= |s|
    decreases |s|
  {
    if |s| >= 3 && s[0] != '\n' && IsUpper(s[1]) && IsLower(s[2]) then
      var j := 2 + LowerRun(s[2..]);
      [s[0], '_'] + s[1..j] + Sub1(s[j..])
    else if s == [] then []
    else [s[0]] + Sub1(s[1..])
  }

  /** `re.sub("([a-z0-9])([A-Z])", r"\1_\2", s)`. */
  function Sub2(s: string): (r: string)
    ensures |r| >= |s|
    decreases |s|
  {
    if |s| >= 2 && IsLowerOrDigit(s[0]) && IsUpper(s[1]) then [s[0], '_', s[1]] + Sub2(s[2..])
    else if s == [] then []
    else [s[0]] + Sub2(s[1..])
  }

  function Camel2Snake(s: string): (r: string)
    ensures NoUpper(r)
    ensures |r| >= |s|
  {
    Lower(Sub2(Sub1(s)))
  }

  // ----- camel2snake only inserts underscores -----

  /** `s` with every `_` deleted. */
  function Strip(s: string): (r: string)
    ensures NoUnderscore(r)
    decreases |s|
  {
    if s == [] then [] else Keep(s[0]) + Strip(s[1..])
  }

  /** What `Strip` keeps of one character. */
  function Keep(c: char): string {
    if c == '_' then [] else [c]
  }

  lemma StripUnfold(s: string)
    requires s != []
    ensures Strip(s) == Keep(s[0]) + Strip(s[1..])
  {
  }

  /** Deleting `_` from a tail piece by piece. */
  lemma StripSplit(s: string, j: nat)
    requires 1 <= j <= |s|
    ensures Strip(s[1..]) == Strip(s[1..j]) + Strip(s[j..])
  {
    assert s[1..] == s[1..j] + s[j..];
    StripAppend(s[1..j], s[j..]);
  }

  lemma StripUnderscore(t: string)
    ensures Strip(['_'] + t) == Strip(t)
  {
    StripCons('_', t);
    assert Keep('_') == [];
  }

  lemma StripCons(c: char, t: string)
    ensures Strip([c] + t) == Keep(c) + Strip(t)
  {
    assert ([c] + t)[0] == c && ([c] + t)[1..] == t;
  }

  lemma {:induction false} StripAppend(a: string, b: string)
    ensures Strip(a + b) == Strip(a) + Strip(b)
    decreases |a|
  {
    if a == [] {
      assert a + b == b;
    } else {
      var t := a[1..];
      assert a == [a[0]] + t;
      assert a + b == [a[0]] + (t + b);
      StripCons(a[0], t + b);
      StripCons(a[0], t);
      StripAppend(t, b);
      Concat3(Keep(a[0]), Strip(t), Strip(b));
    }
  }

  lemma {:induction false} StripLower(s: string)
    ensures Strip(Lower(s)) == Lower(Strip(s))
    decreases |s|
  {
    if s != [] {
      StripLower(s[1..]);
      assert Lower(s)[1..] == Lower(s[1..]);
      LowerAppend(Keep(s[0]), Strip(s[1..]));
    }
  }

  lemma {:induction false} Sub1Strip(s: string)
    ensures Strip(Sub1(s)) == Strip(s)
    decreases |s|
  {
    if |s| >= 3 && s[0] != '\n' && IsUpper(s[1]) && IsLower(s[2]) {
      var j := 2 + LowerRun(s[2..]);
      var m, t := s[1..j], s[j..];
      var y := Sub1(t);
      Sub1Strip(t);
      assert Sub1(s) == [s[0], '_'] + m + y;
      Nest2(s[0], '_', m, y);
      StripCons(s[0], ['_'] + (m + y));
      StripUnderscore(m + y);
      StripAppend(m, y);
      var k := Strip(m) + Strip(t);
      assert Strip(Sub1(s)) == Keep(s[0]) + k;
      StripUnfold(s);
      StripSplit(s, j);
      assert Strip(s) == Keep(s[0]) + k;
    } else if s != [] {
      var u := Sub1(s[1..]);
      Sub1Strip(s[1..]);
      assert Sub1(s) == [s[0]] + u;
      StripCons(s[0], u);
      assert Strip(Sub1(s)) == Keep(s[0]) + Strip(s[1..]);
      StripUnfold(s);
    }
  }

  lemma {:induction false} Sub2Strip(s: string)
    ensures Strip(Sub2(s)) == Strip(s)
    decreases |s|
  {
    if |s| >= 2 && IsLowerOrDigit(s[0]) && IsUpper(s[1]) {
      var t := s[2..];
      var y := Sub2(t);
      Sub2Strip(t);
      assert Sub2(s) == [s[0], '_', s[1]] + y;
      Nest3(s[0], '_', s[1], y);
      StripCons(s[0], ['_'] + ([s[1]] + y));
      StripUnderscore([s[1]] + y);
      StripCons(s[1], y);
      var k := Keep(s[1]) + Strip(t);
      assert Strip(Sub2(s)) == Keep(s[0]) + k;
      StripUnfold(s);
      assert s[1..][0] == s[1] && s[1..][1..] == t;
      StripUnfold(s[1..]);
      assert Strip(s) == Keep(s[0]) + k;
    } else if s != [] {
      var u := Sub2(s[1..]);
      Sub2Strip(s[1..]);
      assert Sub2(s) == [s[0]] + u;
      StripCons(s[0], u);
      assert Strip(Sub2(s)) == Keep(s[0]) + Strip(s[1..]);
      StripUnfold(s);
    }
  }

  /** Deleting every `_` from the result gives the lowercased input with its
      `_` deleted: the conversion inserts underscores and lowercases, nothing else. */
  lemma OnlyInsertsUnderscores(s: string)
    ensures Strip(Camel2Snake(s)) == Strip(Lower(s))
  {
    Sub1Strip(s);
    Sub2Strip(Sub1(s));
    StripLower(Sub2(Sub1(s)));
    StripLower(s);
  }

  lemma {:induction false} Sub1NoUpper(s: string)
    requires NoUpper(s)
    ensures Sub1(s) == s
    decreases |s|
  {
    if s != [] {
      Sub1NoUpper(s[1..]);
    }
  }

  lemma {:induction false} Sub2NoUpper(s: string)
    requires NoUpper(s)
    ensures Sub2(s) == s
    decreases |s|
  {
    if s != [] {
      Sub2NoUpper(s[1..]);
    }
  }

  /** A string without ASCII capitals comes back unchanged. */
  lemma Camel2SnakeIdentity(s: string)
    requires NoUpper(s)
    ensures Camel2Snake(s) == s
  {
    Sub1NoUpper(s);
    Sub2NoUpper(s);
  }

  // ----- snake2camel -----

  /** `s.split("_")`: always at least one segment, none holding `_`. */
  function Split(s: string): (r: seq<string>)
    ensures |r| >= 1
    ensures forall i :: 0 <= i < |r| ==> NoUnderscore(r[i])
    decreases |s|
  {
    if s == [] then [[]]
    else
      var rest := Split(s[1..]);
      if s[0] == '_' then [[]] + rest else [[s[0]] + rest[0]] + rest[1..]
  }

  /** `"_".join(segs)`. */
  function Join(segs: seq<string>): string
    requires |segs| >= 1
    decreases |segs|
  {
    if |segs| == 1 then segs[0] else segs[0] + ['_'] + Join(segs[1..])
  }

  lemma {:induction false} JoinSplit(s: string)
    ensures Join(Split(s)) == s
    decreases |s|
  {
    if s != [] {
      var rest := Split(s[1..]);
      JoinSplit(s[1..]);
      if s[0] == '_' {
        assert ([[]] + rest)[1..] == rest;
      } else {
        var segs := [[s[0]] + rest[0]] + rest[1..];
        if |rest| == 1 {
          assert [s[0]] + s[1..] == s;
          assert segs == [s];
        } else {
          assert segs[1..] == rest[1..];
          assert Join(rest) == rest[0] + ['_'] + Join(rest[1..]);
        }
      }
    }
  }

  /** `str.capitalize`, restricted to ASCII letters. */
  function Capitalize(w: string): (r: string)
    ensures |r| == |w|
    ensures NoUnderscore(w) ==> NoUnderscore(r)
    ensures w != [] ==> r[0] == ToUpperChar(w[0]) && r[1..] == Lower(w[1..])
  {
    if w == [] then [] else [ToUpperChar(w[0])] + Lower(w[1..])
  }

  /** `"".join(map(str.capitalize, ws))`. */
  function CapJoin(ws: seq<string>): (r: string)
    requires forall i :: 0 <= i < |ws| ==> NoUnderscore(ws[i])
    ensures NoUnderscore(r)
    decreases |ws|
  {
    if ws == [] then [] else Capitalize(ws[0]) + CapJoin(ws[1..])
  }

  function Snake2Camel(s: string): (r: string)
    ensures NoUnderscore(r)
  {
    var segs := Split(s);
    segs[0] + CapJoin(segs[1..])
  }

  lemma {:induction false} SplitNoUnderscore(s: string)
    requires NoUnderscore(s)
    ensures Split(s) == [s]
    decreases |s|
  {
    if s != [] {
      assert NoUnderscore(s[1..]) by {
        forall i | 0 <= i < |s[1..]| ensures s[1..][i] != '_' {
          assert s[1..][i] == s[i + 1];
        }
      }
      SplitNoUnderscore(s[1..]);
      assert [s[0]] + s[1..] == s;
    }
  }

  /** A string without `_` is its own camel case. */
  lemma Snake2CamelIdentity(s: string)
    requires NoUnderscore(s)
    ensures Snake2Camel(s) == s
  {
    SplitNoUnderscore(s);
  }

  /** The first segment is the input up to its first `_`, and the result
      starts with it unchanged. */
  lemma {:induction false} FirstSegmentVerbatim(s: string)
    ensures var w := Split(s)[0];
      && |w| <= |s| && s[..|w|] == w
      && (|w| < |s| ==> s[|w|] == '_')
      && Snake2Camel(s)[..|w|] == w
  {
    FirstSegmentPrefix(s);
    var segs := Split(s);
    PrefixOfAppend(segs[0], CapJoin(segs[1..]));
  }

  /** The first segment is the input up to its first `_`. */
  lemma {:induction false} FirstSegmentPrefix(s: string)
    ensures var w := Split(s)[0];
      && |w| <= |s| && s[..|w|] == w
      && (|w| < |s| ==> s[|w|] == '_')
    decreases |s|
  {
    if s != [] && s[0] != '_' {
      var t := s[1..];
      FirstSegmentPrefix(t);
      var v := Split(t)[0];
      var w := Split(s)[0];
      assert w == [s[0]] + v;
      assert t[..|v|] == v;
      SlicePrefix(s, |v|);
      assert |w| < |s| ==> s[|w|] == t[|v|];
    }
  }

  /** A prefix of `s` past its first character is that character followed by a prefix of `s[1..]`. */
  lemma SlicePrefix(s: string, n: nat)
    requires n < |s|
    ensures s[..n + 1] == [s[0]] + s[1..][..n]
  {
  }

  lemma PrefixOfAppend(a: string, b: string)
    ensures (a + b)[..|a|] == a
  {
  }

  lemma {:induction false} SplitAppend(a: string, w: string)
    requires NoUnderscore(w)
    ensures Split(a + ['_'] + w) == Split(a) + [w]
    decreases |a|
  {
    if a == [] {
      assert a + ['_'] + w == ['_'] + w;
      assert (['_'] + w)[1..] == w;
      SplitNoUnderscore(w);
    } else {
      assert (a + ['_'] + w)[0] == a[0];
      assert (a + ['_'] + w)[1..] == a[1..] + ['_'] + w;
      SplitAppend(a[1..], w);
    }
  }

  lemma {:induction false} CapJoinAppend(ws: seq<string>, w: string)
    requires forall i :: 0 <= i < |ws| ==> NoUnderscore(ws[i])
    requires NoUnderscore(w)
    ensures CapJoin(ws + [w]) == CapJoin(ws) + Capitalize(w)
    decreases |ws|
  {
    if ws == [] {
      assert ws + [w] == [w];
    } else {
      assert (ws + [w])[1..] == ws[1..] + [w];
      CapJoinAppend(ws[1..], w);
    }
  }

  /** A segment added after a `_` is capitalised and appended; an empty one
      adds nothing. */
  lemma AppendSegment(a: string, w: string)
    requires NoUnderscore(w)
    ensures Snake2Camel(a + ['_'] + w) == Snake2Camel(a) + Capitalize(w)
    ensures Snake2Camel(a + ['_']) == Snake2Camel(a)
  {
    AppendOne(a, w);
    AppendOne(a, []);
    assert a + ['_'] + [] == a + ['_'];
    assert Capitalize([]) == [];
    assert Snake2Camel(a) + [] == Snake2Camel(a);
  }

  lemma AppendOne(a: string, w: string)
    requires NoUnderscore(w)
    ensures Snake2Camel(a + ['_'] + w) == Snake2Camel(a) + Capitalize(w)
  {
    var segs := Split(a);
    SplitAppend(a, w);
    LastAppended(segs, w);
    CapJoinAppend(segs[1..], w);
    Concat3(segs[0], CapJoin(segs[1..]), Capitalize(w));
  }

  lemma LastAppended(segs: seq<string>, w: string)
    requires |segs| >= 1
    ensures (segs + [w])[0] == segs[0] && (segs + [w])[1..] == segs[1..] + [w]
  {
  }

  // ----- snake case survives a round trip through camel case -----

  /** Inserting `_` before every capital whose preceding character (`prev`
      before the first one) is in `[a-z0-9]`: what the second substitution does. */
  function InsAfter(prev: Option<char>, u: string): (r: string)
    decreases |u|
  {
    if u == [] then [] else Emit(prev, u[0]) + InsAfter(Some(u[0]), u[1..])
  }

  /** What `InsAfter` writes for one character `c` read after `prev`. */
  function Emit(prev: Option<char>, c: char): string {
    if prev.Some? && IsLowerOrDigit(prev.value) && IsUpper(c) then ['_', c] else [c]
  }

  lemma InsAfterCons(prev: Option<char>, c: char, t: string)
    ensures InsAfter(prev, [c] + t) == Emit(prev, c) + InsAfter(Some(c), t)
  {
    assert ([c] + t)[0] == c && ([c] + t)[1..] == t;
  }

  lemma Nest1(a: char, b: char, y: string)
    ensures [a, b] + y == [a] + ([b] + y)
  {
  }

  /** Two leading characters taken off one at a time. */
  lemma Nest2(a: char, b: char, m: string, y: string)
    ensures [a, b] + m + y == [a] + ([b] + (m + y))
  {
  }

  /** Three leading characters taken off one at a time. */
  lemma Nest3(a: char, b: char, c: char, y: string)
    ensures [a, b, c] + y == [a] + ([b] + ([c] + y))
  {
  }

  /** Concatenation regrouped to the left. */
  lemma Concat3(a: string, b: string, c: string)
    ensures a + (b + c) == (a + b) + c
  {
  }

  /** The last character seen after reading `a`, starting from `prev`. */
  function LastOf(prev: Option<char>, a: string): Option<char> {
    if a == [] then prev else Some(a[|a| - 1])
  }

  lemma {:induction false} InsAfterAppend(prev: Option<char>, a: string, b: string)
    ensures InsAfter(prev, a + b) == InsAfter(prev, a) + InsAfter(LastOf(prev, a), b)
    decreases |a|
  {
    if a == [] {
      assert a + b == b;
    } else {
      var t := a[1..];
      assert a == [a[0]] + t;
      assert a + b == [a[0]] + (t + b);
      InsAfterCons(prev, a[0], t + b);
      InsAfterCons(prev, a[0], t);
      InsAfterAppend(Some(a[0]), t, b);
      assert LastOf(Some(a[0]), t) == LastOf(prev, a);
      Concat3(Emit(prev, a[0]), InsAfter(Some(a[0]), t), InsAfter(LastOf(prev, a), b));
    }
  }

  /** A predecessor that cannot start a match is as good as none. */
  lemma InsAfterIdle(c: char, u: string)
    requires u == [] || !(IsLowerOrDigit(c) && IsUpper(u[0]))
    ensures InsAfter(Some(c), u) == InsAfter(None, u)
  {
  }

  lemma {:induction false} InsAfterNoUpper(prev: Option<char>, u: string)
    requires NoUpper(u)
    ensures InsAfter(prev, u) == u
    decreases |u|
  {
    if u != [] {
      InsAfterNoUpper(Some(u[0]), u[1..]);
    }
  }

  /** The second substitution inserts `_` before exactly the capitals that
      follow a character of `[a-z0-9]`: a consumed capital cannot start the
      next match, so no insertion is ever skipped. */
  lemma {:induction false} Sub2Inserts(u: string)
    ensures Sub2(u) == InsAfter(None, u)
    decreases |u|
  {
    if |u| >= 2 && IsLowerOrDigit(u[0]) && IsUpper(u[1]) {
      Sub2Inserts(u[2..]);
      InsAfterIdle(u[1], u[2..]);
      assert u[1..][1..] == u[2..];
    } else if u != [] {
      Sub2Inserts(u[1..]);
      InsAfterIdle(u[0], u[1..]);
    }
  }

  /** The character before position `i` of `v`, `prev` for the first one. */
  function Before(prev: Option<char>, v: string, i: nat): Option<char>
    requires i <= |v|
  {
    if i == 0 then prev else Some(v[i - 1])
  }

  predicate LowerOrDigitAt(c: Option<char>) {
    c.Some? && IsLowerOrDigit(c.value)
  }

  /** Every capital follows a character of `[a-z0-9]` (`prev` for the first one). */
  predicate Camelish(prev: Option<char>, v: string) {
    forall i :: 0 <= i < |v| && IsUpper(v[i]) ==> LowerOrDigitAt(Before(prev, v, i))
  }

  lemma CamelishTail(prev: Option<char>, v: string, k: nat)
    requires Camelish(prev, v) && 1 <= k <= |v|
    ensures Camelish(Some(v[k - 1]), v[k..])
  {
    var t := v[k..];
    forall i | 0 <= i < |t| && IsUpper(t[i])
      ensures LowerOrDigitAt(Before(Some(v[k - 1]), t, i))
    {
      assert t[i] == v[k + i];
      assert Before(Some(v[k - 1]), t, i) == Before(prev, v, k + i);
    }
  }

  lemma CamelishAppend(prev: Option<char>, a: string, b: string)
    requires Camelish(prev, a) && Camelish(LastOf(prev, a), b)
    ensures Camelish(prev, a + b)
  {
    var ab := a + b;
    forall i | 0 <= i < |ab| && IsUpper(ab[i])
      ensures LowerOrDigitAt(Before(prev, ab, i))
    {
      if i >= |a| {
        assert ab[i] == b[i - |a|];
        assert Before(prev, ab, i) == Before(LastOf(prev, a), b, i - |a|);
      } else {
        assert ab[i] == a[i];
        assert Before(prev, ab, i) == Before(prev, a, i);
      }
    }
  }

  /** Where the first substitution matched: its output, after the second
      substitution, ... */
  lemma RewrittenSide(prev: Option<char>, x: char, mid: string, y: string)
    requires |mid| >= 1 && NoUpper(mid[1..])
    ensures InsAfter(prev, [x] + (['_'] + (mid + y)))
         == Emit(prev, x) + (['_'] + (mid + InsAfter(Some(mid[|mid| - 1]), y)))
  {
    InsAfterCons(prev, x, ['_'] + (mid + y));
    InsAfterCons(Some(x), '_', mid + y);
    assert Emit(Some(x), '_') == ['_'];
    InsAfterAppend(Some('_'), mid, y);
    assert LastOf(Some('_'), mid) == Some(mid[|mid| - 1]);
    MidVerbatim('_', mid);
  }

  /** ... is what the second substitution makes of the original text there. */
  lemma OriginalSide(prev: Option<char>, x: char, mid: string, t: string)
    requires IsLowerOrDigit(x) && |mid| >= 1 && IsUpper(mid[0]) && NoUpper(mid[1..])
    ensures InsAfter(prev, [x] + (mid + t))
         == Emit(prev, x) + (['_'] + (mid + InsAfter(Some(mid[|mid| - 1]), t)))
  {
    InsAfterCons(prev, x, mid + t);
    InsAfterAppend(Some(x), mid, t);
    assert LastOf(Some(x), mid) == Some(mid[|mid| - 1]);
    CapitalAfterLower(x, mid);
    Concat3(['_'], mid, InsAfter(Some(mid[|mid| - 1]), t));
  }

  lemma InsAfterUnfold(prev: Option<char>, u: string)
    requires u != []
    ensures InsAfter(prev, u) == Emit(prev, u[0]) + InsAfter(Some(u[0]), u[1..])
  {
  }

  /** A word whose capital follows a lowercase letter or digit gets a `_`. */
  lemma CapitalAfterLower(x: char, mid: string)
    requires IsLowerOrDigit(x) && |mid| >= 1 && IsUpper(mid[0]) && NoUpper(mid[1..])
    ensures InsAfter(Some(x), mid) == ['_'] + mid
  {
    InsAfterUnfold(Some(x), mid);
    assert Emit(Some(x), mid[0]) == ['_', mid[0]];
    InsAfterNoUpper(Some(mid[0]), mid[1..]);
    Nest1('_', mid[0], mid[1..]);
    ConsSlice(mid);
  }

  /** A word after a character outside `[a-z0-9]` gets no `_`. */
  lemma MidVerbatim(c: char, mid: string)
    requires !IsLowerOrDigit(c) && |mid| >= 1 && NoUpper(mid[1..])
    ensures InsAfter(Some(c), mid) == mid
  {
    InsAfterUnfold(Some(c), mid);
    InsAfterNoUpper(Some(mid[0]), mid[1..]);
    ConsSlice(mid);
  }

  lemma ConsSlice(s: string)
    requires s != []
    ensures [s[0]] + s[1..] == s
  {
  }

  /** A split of `v` around its first character and position `j`. */
  lemma ThreeParts(v: string, j: nat)
    requires 1 <= j <= |v|
    ensures v == [v[0]] + (v[1..j] + v[j..])
  {
    assert v[1..] == v[1..j] + v[j..];
    ConsSlice(v);
  }

  /** On camel-ish text the first substitution changes nothing the second
      would not do anyway: every `_` it inserts stands where the second
      substitution would have put one. */
  lemma {:induction false} Sub1Absorbed(prev: Option<char>, v: string)
    requires Camelish(prev, v)
    ensures InsAfter(prev, Sub1(v)) == InsAfter(prev, v)
    decreases |v|
  {
    if |v| >= 3 && v[0] != '\n' && IsUpper(v[1]) && IsLower(v[2]) {
      var j := 2 + LowerRun(v[2..]);
      var mid, t := v[1..j], v[j..];
      var y := Sub1(t);
      assert NoUpper(mid[1..]) by {
        forall i | 0 <= i < |mid[1..]| ensures !IsUpper(mid[1..][i]) {
          assert mid[1..][i] == v[2..][i];
        }
      }
      assert IsLowerOrDigit(v[0]);
      CamelishTail(prev, v, j);
      Sub1Absorbed(Some(v[j - 1]), t);
      assert Sub1(v) == [v[0], '_'] + mid + y;
      Nest2(v[0], '_', mid, y);
      RewrittenSide(prev, v[0], mid, y);
      assert mid[|mid| - 1] == v[j - 1];
      ThreeParts(v, j);
      OriginalSide(prev, v[0], mid, t);
    } else if v != [] {
      CamelishTail(prev, v, 1);
      Sub1Absorbed(Some(v[0]), v[1..]);
      assert Sub1(v) == [v[0]] + Sub1(v[1..]);
      InsAfterCons(prev, v[0], Sub1(v[1..]));
      InsAfterUnfold(prev, v);
    }
  }

  /** The segments `snake2camel` turns back into snake case unchanged: the
      first is a non-empty run of `[a-z0-9]`, each later one a letter of
      `[a-z]` followed by at least one more character of `[a-z0-9]`. */
  predicate SnakeWord(w: string) {
    |w| >= 2 && IsLower(w[0]) && forall i :: 1 <= i < |w| ==> IsLowerOrDigit(w[i])
  }

  predicate LowerDigits(w: string) {
    forall i :: 0 <= i < |w| ==> IsLowerOrDigit(w[i])
  }

  predicate SnakeForm(s: string) {
    var segs := Split(s);
    |segs[0]| >= 1 && LowerDigits(segs[0])
    && forall i :: 1 <= i < |segs| ==> SnakeWord(segs[i])
  }

  /** `_` followed by each word. */
  function Underscored(ws: seq<string>): string
    decreases |ws|
  {
    if ws == [] then [] else ['_'] + ws[0] + Underscored(ws[1..])
  }

  lemma {:induction false} JoinUnderscored(segs: seq<string>)
    requires |segs| >= 1
    ensures Join(segs) == segs[0] + Underscored(segs[1..])
    decreases |segs|
  {
    if |segs| > 1 {
      JoinUnderscored(segs[1..]);
      assert segs[1..][1..] == segs[2..];
    } else {
      assert segs[0] + [] == segs[0];
    }
  }

  lemma LowerLowerDigits(w: string)
    requires LowerDigits(w)
    ensures Lower(w) == w
  {
  }

  /** A capitalised word after a character of `[a-z0-9]` gets its `_` back. */
  lemma WordInserts(c: char, w: string, rest: string)
    requires IsLowerOrDigit(c) && SnakeWord(w)
    ensures Capitalize(w) == [ToUpperChar(w[0])] + w[1..]
    ensures Camelish(Some(c), Capitalize(w))
    ensures InsAfter(Some(c), Capitalize(w) + rest)
         == ['_', ToUpperChar(w[0])] + w[1..] + InsAfter(Some(w[|w| - 1]), rest)
  {
    var u := ToUpperChar(w[0]);
    var tail := w[1..];
    assert LowerDigits(tail) by {
      forall i | 0 <= i < |tail| ensures IsLowerOrDigit(tail[i]) {
        assert tail[i] == w[i + 1];
      }
    }
    LowerLowerDigits(tail);
    var cap := Capitalize(w);
    assert cap == [u] + tail;
    CapitalisedCamelish(c, u, tail);
    Concat3([u], tail, rest);
    InsAfterCons(Some(c), u, tail + rest);
    assert Emit(Some(c), u) == ['_', u];
    InsAfterAppend(Some(u), tail, rest);
    assert LastOf(Some(u), tail) == Some(w[|w| - 1]);
    InsAfterNoUpper(Some(u), tail);
    Concat3(['_', u], tail, InsAfter(Some(w[|w| - 1]), rest));
  }

  /** One capital after a character of `[a-z0-9]`, then no capital. */
  lemma CapitalisedCamelish(c: char, u: char, tail: string)
    requires IsLowerOrDigit(c) && LowerDigits(tail)
    ensures Camelish(Some(c), [u] + tail)
  {
    var v := [u] + tail;
    forall i | 1 <= i < |v| ensures !IsUpper(v[i]) {
      assert v[i] == tail[i - 1];
    }
  }

  /** Lowercasing the restored word gives the word back. */
  lemma WordLowers(w: string, z: string)
    requires SnakeWord(w)
    ensures Lower(['_', ToUpperChar(w[0])] + w[1..] + z) == ['_'] + w + Lower(z)
  {
    assert LowerDigits(w[1..]) by {
      forall i | 0 <= i < |w[1..]| ensures IsLowerOrDigit(w[1..][i]) {
        assert w[1..][i] == w[i + 1];
      }
    }
    LowerLowerDigits(w[1..]);
    LowerAppend(['_', ToUpperChar(w[0])] + w[1..], z);
    LowerAppend(['_', ToUpperChar(w[0])], w[1..]);
    assert Lower(['_', ToUpperChar(w[0])]) == ['_', w[0]];
    assert ['_', w[0]] + w[1..] == ['_'] + w;
  }

  /** The capitalised later words are camel-ish after a character of
      `[a-z0-9]`, and inserting the underscores and lowercasing restores them. */
  lemma {:induction false} CapJoinRestores(c: char, ws: seq<string>)
    requires IsLowerOrDigit(c)
    requires forall i :: 0 <= i < |ws| ==> SnakeWord(ws[i])
    ensures forall i :: 0 <= i < |ws| ==> NoUnderscore(ws[i])
    ensures Camelish(Some(c), CapJoin(ws))
    ensures Lower(InsAfter(Some(c), CapJoin(ws))) == Underscored(ws)
    decreases |ws|
  {
    SnakeWordsPlain(ws);
    if ws != [] {
      var w := ws[0];
      var rest := ws[1..];
      var last := w[|w| - 1];
      CapJoinRestores(last, rest);
      var capRest := CapJoin(rest);
      var tailIns := InsAfter(Some(last), capRest);
      var cap := Capitalize(w);
      assert CapJoin(ws) == cap + capRest;
      WordInserts(c, w, capRest);
      assert LastOf(Some(c), cap) == Some(last);
      CamelishAppend(Some(c), cap, capRest);
      WordLowers(w, tailIns);
      assert Underscored(ws) == ['_'] + w + Underscored(rest);
    }
  }

  lemma SnakeWordsPlain(ws: seq<string>)
    requires forall i :: 0 <= i < |ws| ==> SnakeWord(ws[i])
    ensures forall i :: 0 <= i < |ws| ==> NoUnderscore(ws[i])
  {
    forall i | 0 <= i < |ws| ensures NoUnderscore(ws[i]) {
      assert SnakeWord(ws[i]);
    }
  }

  /** Snake case made of `[a-z0-9]` words, each later word starting with a
      letter and at least two characters long, survives `snake2camel`
      followed by `camel2snake`. */
  lemma SnakeRoundTrip(s: string)
    requires SnakeForm(s)
    ensures Camel2Snake(Snake2Camel(s)) == s
  {
    var segs := Split(s);
    var w0 := segs[0];
    var c := w0[|w0| - 1];
    var t := Snake2Camel(s);
    CapJoinRestores(c, segs[1..]);
    assert NoUpper(w0);
    assert Camelish(None, w0);
    assert LastOf(None, w0) == Some(c);
    CamelishAppend(None, w0, CapJoin(segs[1..]));
    Sub1Absorbed(None, t);
    Sub2Inserts(Sub1(t));
    InsAfterAppend(None, w0, CapJoin(segs[1..]));
    InsAfterNoUpper(None, w0);
    LowerAppend(w0, InsAfter(Some(c), CapJoin(segs[1..])));
    LowerLowerDigits(w0);
    JoinUnderscored(segs);
    JoinSplit(s);
  }

  /** Single-letter words are not restored: `snake2camel("a_b_c")` is `"aBC"`,
      and `camel2snake` of that is `"a_bc"`. */
  lemma SingleLetterWordsMerge()
    ensures Snake2Camel("a_b_c") == "aBC"
    ensures Camel2Snake(Snake2Camel("a_b_c")) == "a_bc"
  {
    SnakeExample();
    CamelExample();
  }

  lemma SnakeExample()
    ensures Snake2Camel("a_b_c") == "aBC"
  {
    CapitalizeLetter('b');
    CapitalizeLetter('c');
    Snake2CamelIdentity("a");
    assert "a" + ['_'] + "b" == "a_b";
    AppendSegment("a", "b");
    assert "a" + "B" == "aB";
    assert "a_b" + ['_'] + "c" == "a_b_c";
    AppendSegment("a_b", "c");
    assert "aB" + "C" == "aBC";
  }

  /** A one-letter word capitalises to its capital. */
  lemma CapitalizeLetter(c: char)
    ensures Capitalize([c]) == [ToUpperChar(c)]
  {
    assert [c][1..] == [];
  }

  lemma CamelExample()
    ensures Camel2Snake("aBC") == "a_bc"
  {
    assert "aBC"[1..] == "BC" && "BC"[1..] == "C" && "C"[1..] == "";
    assert Sub1("C") == "C";
    assert Sub1("BC") == "BC";
    assert Sub1("aBC") == "aBC";
    assert Sub2("C") == "C";
    assert "aBC"[2..] == "C";
    assert Sub2("aBC") == "a_BC";
  }
}

=== FILE: chain.dfy ===
/** The `chain` decorator (in `behavioral/chain.py` and again in
    `design_pattern.py`).

    Decorating `func` with `chain(prev=p)` gives a wrapper that behaves as
    `func` and remembers its predecessors: those of `p` (none when `p` is a
    plain function without them) followed by `p` itself. `step(start, end)`
    takes the slice `prevs[start:end]` of a copy, appends the wrapper itself
    when `end` is None, and returns a function that feeds its argument
    through the slice from left to right. */
module Chain {
  import opened Wrappers

  /** A decorated function: what it computes and its recorded predecessors. */
  datatype Link<!T> = Link(fn: T -> T, prevs: seq<T -> T>)

  /** What may be passed as `prev`: a decorated function, or any other
      callable, which has no `__prevs` attribute. */
  datatype Prev<!T> = Chained(link: Link<T>) | Plain(f: T -> T)

  /** The predecessors a `prev` contributes: its own predecessors, then itself. */
  function Inherited<T>(p: Prev<T>): (r: seq<T -> T>)
    ensures p.Chained? ==> r == p.link.prevs + [p.link.fn]
    ensures p.Plain? ==> r == [p.f]
  {
    match p
    case Chained(l) => l.prevs + [l.fn]
    case Plain(f) => [f]
  }

  /** `chain(func, prev)`: the wrapper computes `func` and records the predecessors. */
  function Decorate<T>(func: T -> T, prev: Option<Prev<T>>): (r: Link<T>)
    ensures r.fn == func
    ensures prev.None? ==> r.prevs == []
    ensures prev.Some? && prev.value.Chained? ==> |r.prevs| == |prev.value.link.prevs| + 1
    ensures prev.Some? && prev.value.Chained? ==> r.prevs == Steps(prev.value.link, 0, None)
    ensures prev.Some? && prev.value.Plain? ==> r.prevs == [prev.value.f]
  {
    Link(func, if prev.Some? then Inherited(prev.value) else [])
  }

  /** Python slicing `s[start:end]` with step 1: negative bounds count from
      the end, and out-of-range bounds are clamped. */
  function PySlice<A>(s: seq<A>, start: int, end: Option<int>): (r: seq<A>)
    ensures |r| <= |s|
    ensures 0 <= start <= |s| && end.None? ==> r == s[start..]
    ensures end.Some? && 0 <= start <= end.value <= |s| ==> r == s[start..end.value]
    ensures -(|s| as int) <= start < 0 && end.None? ==> r == s[|s| + start..]
    ensures end.Some? && end.value <= start && (start >= 0) == (end.value >= 0) ==> r == []
    ensures end.Some? && -(|s| as int) <= start < 0 && 0 <= end.value <= |s| && |s| + start <= end.value
            ==> r == s[|s| + start..end.value]
    ensures end.Some? && 0 <= start <= |s| && -(|s| as int) <= end.value < 0 && start <= |s| + end.value
            ==> r == s[start..|s| + end.value]
    ensures end.Some? && end.value >= |s| ==> r == PySlice(s, start, None)
    ensures start >= |s| ==> r == []
    ensures start < 0 && start <= -(|s| as int) ==> r == PySlice(s, 0, end)
    decreases if end.Some? then 2 else 0, if start < 0 then 1 else 0
  {
    var lo := Clamp(|s|, start);
    var hi := if end.None? then |s| else Clamp(|s|, end.value);
    if hi <= lo then [] else s[lo..hi]
  }

  /** One slice bound, normalised as Python does. */
  function Clamp(n: nat, i: int): (r: nat)
    ensures r <= n
    ensures 0 <= i <= n ==> r == i
    ensures -(n as int) <= i < 0 ==> r == n + i
    ensures i < -(n as int) ==> r == 0
    ensures i > n ==> r == n
  {
    if i < 0 then (if n + i < 0 then 0 else n + i)
    else if i > n then n else i
  }

  /** The step list `step(start, end)` builds, from a copy of `prevs`. */
  function Steps<T>(l: Link<T>, start: int, end: Option<int>): (r: seq<T -> T>)
    ensures end.None? ==> |r| >= 1 && r[|r| - 1] == l.fn
    ensures end.None? ==> r[..|r| - 1] == PySlice(l.prevs, start, None)
    ensures end.None? && 0 <= start <= |l.prevs| ==> r == l.prevs[start..] + [l.fn]
    ensures end.Some? ==> r == PySlice(l.prevs, start, end)
    ensures |r| <= |l.prevs| + 1
  {
    PySlice(l.prevs, start, end) + (if end.None? then [l.fn] else [])
  }

  /** `functools.reduce(lambda param, step: step(param), steps, pack)`. */
  function Run<T>(steps: seq<T -> T>, x: T): (r: T)
    decreases |steps|
  {
    if steps == [] then x else Run(steps[1..], steps[0](x))
  }

  /** Calling the function `step(start, end)` returned. */
  function Step<T>(l: Link<T>, start: int, end: Option<int>, x: T): T {
    Run(Steps(l, start, end), x)
  }

  /** An empty step list hands the argument back. */
  lemma RunEmpty<T>(x: T)
    ensures Run([], x) == x
  {
  }

  /** Running two step lists one after the other is running their concatenation. */
  lemma {:induction false} RunAppend<T>(a: seq<T -> T>, b: seq<T -> T>, x: T)
    ensures Run(a + b, x) == Run(b, Run(a, x))
    decreases |a|
  {
    if a != [] {
      assert (a + b)[0] == a[0] && (a + b)[1..] == a[1..] + b;
      RunAppend(a[1..], b, a[0](x));
    } else {
      assert a + b == b;
    }
  }

  /** The whole pipeline of a chained wrapper is the predecessor's whole
      pipeline followed by `func`. */
  lemma FullPipeline<T>(func: T -> T, p: Link<T>, x: T)
    ensures Step(Decorate(func, Some(Chained(p))), 0, None, x) == func(Step(p, 0, None, x))
  {
    var l := Decorate(func, Some(Chained(p)));
    assert Steps(l, 0, None) == (p.prevs + [p.fn]) + [func];
    assert Steps(p, 0, None) == p.prevs + [p.fn];
    RunAppend(p.prevs + [p.fn], [func], x);
    RunSingle(func, Step(p, 0, None, x));
  }

  lemma RunSingle<T>(f: T -> T, x: T)
    ensures Run([f], x) == f(x)
  {
    assert [f][1..] == [];
  }

  /** With a plain predecessor `g`, the full pipeline is `func(g(x))`; without
      one it is `func(x)`. */
  lemma ShortPipelines<T>(func: T -> T, g: T -> T, x: T)
    ensures Step(Decorate(func, Some(Plain(g))), 0, None, x) == func(g(x))
    ensures Step(Decorate(func, None), 0, None, x) == func(x)
  {
    assert Steps(Decorate(func, Some(Plain(g))), 0, None) == [g, func];
    assert [g, func][1..] == [func];
    RunSingle(func, g(x));
    assert Steps(Decorate(func, None), 0, None) == [func];
    RunSingle(func, x);
  }

  /** Stepping from `start` to `mid` and then from `mid` on is the same as
      stepping from `start` on. */
  lemma StepSplit<T>(l: Link<T>, start: nat, mid: nat, x: T)
    requires start <= mid <= |l.prevs|
    ensures Step(l, mid, None, Step(l, start, Some(mid), x)) == Step(l, start, None, x)
  {
    var ps := l.prevs;
    assert Steps(l, start, None) == ps[start..mid] + (ps[mid..] + [l.fn]);
    RunAppend(ps[start..mid], ps[mid..] + [l.fn], x);
  }

  /** A step with an explicit end never runs the wrapper itself: an end equal
      to the start gives back the argument. */
  lemma EmptyStep<T>(l: Link<T>, start: nat, x: T)
    requires start <= |l.prevs|
    ensures Step(l, start, Some(start), x) == x
  {
  }
}

=== FILE: codec.dfy ===
/** The type-directed record codec of `types/base.py` (lescode and quiver).

    A record class is described by its fields: internal name, declared type,
    metadata (whose `property` entry, when present, is the field's external
    name) and default. `AsClass` builds a value of a declared type from
    decoded data; `AsDictInner` turns a value back into plain data keyed by
    external names. Dict keys are strings and metadata values are strings. */
module Codec {
  import opened Wrappers
  import opened Assoc
  import opened Value

  /** A declared type: no dataclass and no generic origin (`Any`), a record
      class, `List[T]`, `Tuple[T, ...]` (only the first argument is used),
      `Dict[K, V]` (keys are not converted). */
  datatype Ty =
    | Any
    | RecordT(decl: RecordDecl)
    | ListOf(elem: Ty)
    | TupleOf(elem: Ty)
    | DictOf(val: Ty)

  datatype RecordDecl = RecordDecl(cls: string, fields: seq<FieldDecl>)

  datatype FieldDecl = FieldDecl(name: string, ty: Ty, metadata: seq<Pair<string>>, default: Option<Obj>)

  /** Runtime values: primitives, datetimes (`Stamp`), containers and
      record instances holding one value per declared field. */
  datatype Obj =
    | Prim(atom: Atom)
    | Stamp(instant: int)
    | ListObj(items: seq<Obj>)
    | TupleObj(items: seq<Obj>)
    | DictObj(entries: seq<Pair<Obj>>)
    | RecordObj(decl: RecordDecl, values: seq<Obj>)

  /** `field(metadata=..., **kwargs)`: a falsy metadata dict becomes `{}`,
      then the keyword arguments are merged into it. */
  function FieldMetadata(metadata: Option<seq<Pair<string>>>, kwargs: seq<Pair<string>>): (r: seq<Pair<string>>)
    ensures UniqueKeys(kwargs) ==> forall k :: k in Keys(kwargs) ==> Lookup(r, k) == Lookup(kwargs, k)
    ensures UniqueKeys(kwargs) ==> forall k :: k !in Keys(kwargs) ==> Lookup(r, k) == Lookup(metadata.GetOr([]), k)
  {
    UpdateFromAll(metadata.GetOr([]), kwargs);
    UpdateFrom(metadata.GetOr([]), kwargs)
  }

  lemma UpdateFromAll(base: seq<Pair<string>>, kwargs: seq<Pair<string>>)
    ensures UniqueKeys(kwargs) ==> forall k ::
      Lookup(UpdateFrom(base, kwargs), k) == if k in Keys(kwargs) then Lookup(kwargs, k) else Lookup(base, k)
  {
    if UniqueKeys(kwargs) {
      forall k ensures Lookup(UpdateFrom(base, kwargs), k) == if k in Keys(kwargs) then Lookup(kwargs, k) else Lookup(base, k) {
        UpdateFromSpec(base, kwargs, k);
      }
    }
  }

  /** `field(property="x")` makes "x" the field's external name. */
  lemma PropertyKeyword(metadata: Option<seq<Pair<string>>>, name: string, ty: Ty, x: string, default: Option<Obj>)
    ensures ExternalName(FieldDecl(name, ty, FieldMetadata(metadata, [Pair("property", x)]), default)) == x
  {
    assert Keys([Pair("property", x)]) == ["property"];
  }

  /** `f.metadata.get("property", f.name)`. */
  function ExternalName(f: FieldDecl): string {
    Lookup(f.metadata, "property").GetOr(f.name)
  }

  /** `{f.metadata.get("property", f.name): f.name for f in fields(cls)}`,
      with each name standing for the field's position: a later field with
      the same external name takes the entry over. */
  function Properties(fs: seq<FieldDecl>): (r: map<string, nat>)
    ensures forall e :: e in r ==> r[e] < |fs| && ExternalName(fs[r[e]]) == e
    ensures forall i :: 0 <= i < |fs| ==> ExternalName(fs[i]) in r
  {
    if fs == [] then map[]
    else
      var init := fs[..|fs| - 1];
      assert forall i :: 0 <= i < |init| ==> init[i] == fs[i];
      Properties(init)[ExternalName(fs[|fs| - 1]) := |fs| - 1]
  }

  /** Field names and external names are each pairwise distinct. */
  predicate WellDeclared(d: RecordDecl) {
    forall i, j :: 0 <= i < j < |d.fields| ==>
      d.fields[i].name != d.fields[j].name && ExternalName(d.fields[i]) != ExternalName(d.fields[j])
  }

  /** With distinct external names each name stands for its own field. */
  lemma {:induction false} PropertiesDistinct(fs: seq<FieldDecl>, i: nat)
    requires i < |fs|
    requires forall a, b :: 0 <= a < b < |fs| ==> ExternalName(fs[a]) != ExternalName(fs[b])
    ensures Properties(fs)[ExternalName(fs[i])] == i
  {
    if i < |fs| - 1 {
      PropertiesDistinct(fs[..|fs| - 1], i);
    }
  }

  /** `for item in data`: a list or tuple yields its elements, a dict its
      keys, a string its characters; anything else is not iterable. */
  function Iterate(data: Obj): (r: Result<seq<Obj>>)
    ensures r.Ok? <==> data.ListObj? || data.TupleObj? || data.DictObj? || (data.Prim? && data.atom.Str?)
    ensures r.Err? ==> r.error == TypeError
    ensures data.ListObj? || data.TupleObj? ==> r == Ok(data.items)
    ensures data.DictObj? ==> r.Ok? && |r.value| == |data.entries|
                              && forall i :: 0 <= i < |data.entries| ==> r.value[i] == Prim(Str(data.entries[i].key))
  {
    match data
    case ListObj(xs) => Ok(xs)
    case TupleObj(xs) => Ok(xs)
    case DictObj(es) => Ok(seq(|es|, i requires 0 <= i < |es| => Prim(Str(es[i].key))))
    case Prim(Str(s)) => Ok(seq(|s|, i requires 0 <= i < |s| => Prim(Str([s[i]]))))
    case _ => Err(TypeError)
  }

  /** `asclass(cls, data)`. */
  function AsClass(ty: Ty, data: Obj): (r: Result<Obj>)
    decreases ty, 1
    ensures ty.Any? ==> r == Ok(data)
    ensures (ty.RecordT? || ty.DictOf?) && !data.DictObj? ==> r == Err(AttributeError)
    ensures (ty.ListOf? || ty.TupleOf?) && Iterate(data).Err? ==> r == Err(TypeError)
    ensures r.Ok? && ty.ListOf? ==> r.value.ListObj? && |r.value.items| == |Iterate(data).value|
    ensures r.Ok? && ty.TupleOf? ==> r.value.TupleObj? && |r.value.items| == |Iterate(data).value|
    ensures r.Ok? && ty.DictOf? ==> r.value.DictObj? && Keys(r.value.entries) == Keys(data.entries)
    ensures r.Ok? && ty.RecordT? ==> r.value.RecordObj? && r.value.decl == ty.decl && |r.value.values| == |ty.decl.fields|
  {
    match ty
    case Any => Ok(data)
    case RecordT(decl) =>
      if !data.DictObj? then Err(AttributeError)
      else
        var kw :- KwArgs(ty, data.entries);
        var values :- Construct(decl.fields, kw);
        Ok(RecordObj(decl, values))
    case ListOf(e) =>
      var xs :- Iterate(data);
      var ys :- ConvertAll(e, xs);
      Ok(ListObj(ys))
    case TupleOf(e) =>
      var xs :- Iterate(data);
      var ys :- ConvertAll(e, xs);
      Ok(TupleObj(ys))
    case DictOf(v) =>
      if !data.DictObj? then Err(AttributeError)
      else
        var es :- ConvertValues(v, data.entries);
        Ok(DictObj(es))
  }

  /** The keyword arguments a record is built from: every input key that is
      an external name, converted with its field's type and filed under the
      internal name; other keys are dropped. */
  function KwArgs(ty: Ty, es: seq<Pair<Obj>>): (r: Result<map<string, Obj>>)
    requires ty.RecordT?
    decreases ty, 0, |es|
  {
    if es == [] then Ok(map[])
    else
      var kw :- KwArgs(ty, es[..|es| - 1]);
      var p := es[|es| - 1];
      var props := Properties(ty.decl.fields);
      if p.key in props then
        var f := ty.decl.fields[props[p.key]];
        var v :- AsClass(f.ty, p.val);
        Ok(kw[f.name := v])
      else Ok(kw)
  }

  /** `cls(**kwargs)`: each field takes its keyword argument or its default;
      a field with neither is a `TypeError`. */
  function Construct(fs: seq<FieldDecl>, kw: map<string, Obj>): (r: Result<seq<Obj>>)
    ensures r.Ok? <==> forall i :: 0 <= i < |fs| ==> fs[i].name in kw || fs[i].default.Some?
    ensures r.Err? ==> r.error == TypeError
    ensures r.Ok? ==> |r.value| == |fs| && forall i :: 0 <= i < |fs| ==>
      r.value[i] == if fs[i].name in kw then kw[fs[i].name] else fs[i].default.value
  {
    if fs == [] then Ok([])
    else
      var head :- if fs[0].name in kw then Ok(kw[fs[0].name])
                  else if fs[0].default.Some? then Ok(fs[0].default.value)
                  else Err(TypeError);
      var rest :- Construct(fs[1..], kw);
      assert forall i :: 1 <= i < |fs| ==> fs[i] == fs[1..][i - 1];
      Ok([head] + rest)
  }

  /** Element-wise conversion; the first failing element decides the error. */
  function ConvertAll(e: Ty, xs: seq<Obj>): (r: Result<seq<Obj>>)
    decreases e, 2, |xs|
    ensures r.Ok? <==> forall i :: 0 <= i < |xs| ==> AsClass(e, xs[i]).Ok?
    ensures r.Ok? ==> |r.value| == |xs| && forall i :: 0 <= i < |xs| ==> r.value[i] == AsClass(e, xs[i]).value
  {
    if xs == [] then Ok([])
    else
      var head :- AsClass(e, xs[0]);
      var rest :- ConvertAll(e, xs[1..]);
      assert forall i :: 1 <= i < |xs| ==> xs[i] == xs[1..][i - 1];
      Ok([head] + rest)
  }

  /** `{key: asclass(V, value) for key, value in data.items()}`. */
  function ConvertValues(v: Ty, es: seq<Pair<Obj>>): (r: Result<seq<Pair<Obj>>>)
    decreases v, 2, |es|
    ensures r.Ok? <==> forall i :: 0 <= i < |es| ==> AsClass(v, es[i].val).Ok?
    ensures r.Ok? ==> Keys(r.value) == Keys(es)
    ensures r.Ok? ==> forall i :: 0 <= i < |es| ==> r.value[i].val == AsClass(v, es[i].val).value
  {
    if es == [] then Ok([])
    else
      var head :- AsClass(v, es[0].val);
      var rest :- ConvertValues(v, es[1..]);
      assert forall i :: 1 <= i < |es| ==> es[i] == es[1..][i - 1];
      Ok([Pair(es[0].key, head)] + rest)
  }

  /** `_asdict_inner(obj, dict)`: a record becomes the dict of its external
      names and flattened values, lists and tuples keep their kind, dicts
      keep their keys, anything else is copied. */
  function AsDictInner(o: Obj): Obj
    decreases o, 1
  {
    match o
    case RecordObj(decl, values) => DictObj(UpdateFrom([], RecordPairs(decl.fields, values)))
    case ListObj(xs) => ListObj(InnerItems(xs))
    case TupleObj(xs) => TupleObj(InnerItems(xs))
    case DictObj(es) => DictObj(InnerEntries(es))
    case _ => o
  }

  /** The `(external name, flattened value)` pairs of a record, field by field. */
  function RecordPairs(fs: seq<FieldDecl>, vs: seq<Obj>): (r: seq<Pair<Obj>>)
    decreases vs, 0
    ensures |r| == if |fs| < |vs| then |fs| else |vs|
    ensures forall i :: 0 <= i < |r| ==> r[i] == Pair(ExternalName(fs[i]), AsDictInner(vs[i]))
  {
    if fs == [] || vs == [] then []
    else [Pair(ExternalName(fs[0]), AsDictInner(vs[0]))] + RecordPairs(fs[1..], vs[1..])
  }

  function InnerItems(xs: seq<Obj>): (r: seq<Obj>)
    decreases xs, 0
    ensures |r| == |xs|
    ensures forall i :: 0 <= i < |xs| ==> r[i] == AsDictInner(xs[i])
  {
    if xs == [] then [] else [AsDictInner(xs[0])] + InnerItems(xs[1..])
  }

  function InnerEntries(es: seq<Pair<Obj>>): (r: seq<Pair<Obj>>)
    decreases es, 0
    ensures Keys(r) == Keys(es)
    ensures forall i :: 0 <= i < |es| ==> r[i].val == AsDictInner(es[i].val)
  {
    if es == [] then [] else [Pair(es[0].key, AsDictInner(es[0].val))] + InnerEntries(es[1..])
  }

  /** `asdict(obj)`: only record instances are accepted. */
  function AsDict(o: Obj): (r: Result<Obj>)
    ensures r.Ok? <==> o.RecordObj?
    ensures r.Err? ==> r.error == TypeError
    ensures r.Ok? ==> r.value.DictObj?
    ensures r.Ok? && WellDeclared(o.decl) && |o.values| == |o.decl.fields| ==>
      |r.value.entries| == |o.values|
      && forall i :: 0 <= i < |o.values| ==>
           r.value.entries[i] == Pair(ExternalName(o.decl.fields[i]), AsDictInner(o.values[i]))
  {
    if !o.RecordObj? then Err(TypeError)
    else
      FlattenWellDeclared(o.decl, o.values);
      Ok(AsDictInner(o))
  }

  /** A well-declared record flattens to exactly its field pairs, in order. */
  lemma FlattenWellDeclared(d: RecordDecl, vs: seq<Obj>)
    ensures WellDeclared(d) && |vs| == |d.fields|
            ==> UpdateFrom([], RecordPairs(d.fields, vs)) == RecordPairs(d.fields, vs)
  {
    if WellDeclared(d) && |vs| == |d.fields| {
      var ps := RecordPairs(d.fields, vs);
      assert [] + ps == ps;
      assert UniqueKeys(ps) by {
        forall i, j | 0 <= i < j < |ps| ensures ps[i].key != ps[j].key {
          assert ps[i].key == ExternalName(d.fields[i]) && ps[j].key == ExternalName(d.fields[j]);
        }
      }
      UpdateFromFresh([], ps);
    }
  }

  // ----- the round trip -----

  /** No record instance anywhere inside. */
  predicate RecordFree(o: Obj) {
    match o
    case RecordObj(_, _) => false
    case ListObj(xs) => forall i :: 0 <= i < |xs| ==> RecordFree(xs[i])
    case TupleObj(xs) => forall i :: 0 <= i < |xs| ==> RecordFree(xs[i])
    case DictObj(es) => forall i :: 0 <= i < |es| ==> RecordFree(es[i].val)
    case _ => true
  }

  /** A value of declared type `ty`, as `asclass` would build it: lists
      where `List` is declared, tuples where `Tuple` is, dicts with distinct
      keys, records of the declared class with one conforming value per field
      of a well-declared class, and record-free data where nothing is declared. */
  predicate Conforms(ty: Ty, o: Obj)
    decreases ty
  {
    match ty
    case Any => RecordFree(o)
    case ListOf(e) => o.ListObj? && forall i :: 0 <= i < |o.items| ==> Conforms(e, o.items[i])
    case TupleOf(e) => o.TupleObj? && forall i :: 0 <= i < |o.items| ==> Conforms(e, o.items[i])
    case DictOf(v) =>
      o.DictObj? && UniqueKeys(o.entries) && forall i :: 0 <= i < |o.entries| ==> Conforms(v, o.entries[i].val)
    case RecordT(d) =>
      && o.RecordObj? && o.decl == d && WellDeclared(d) && |o.values| == |d.fields|
      && forall i :: 0 <= i < |d.fields| ==> Conforms(d.fields[i].ty, o.values[i])
  }

  /** Record-free data is its own flattening. */
  lemma {:induction false} FlattenRecordFree(o: Obj)
    requires RecordFree(o)
    ensures AsDictInner(o) == o
  {
    match o
    case ListObj(xs) =>
      forall i | 0 <= i < |xs| ensures InnerItems(xs)[i] == xs[i] {
        FlattenRecordFree(xs[i]);
      }
    case TupleObj(xs) =>
      forall i | 0 <= i < |xs| ensures InnerItems(xs)[i] == xs[i] {
        FlattenRecordFree(xs[i]);
      }
    case DictObj(es) =>
      var fs := InnerEntries(es);
      forall i | 0 <= i < |es| ensures fs[i] == es[i] {
        FlattenRecordFree(es[i].val);
        assert Keys(fs)[i] == Keys(es)[i];
      }
    case _ =>
  }

  /** `asclass(T, _asdict_inner(x)) == x` for every value `x` that conforms
      to `T`: converting back what was flattened restores it exactly. */
  lemma {:induction false} RoundTrip(ty: Ty, o: Obj)
    requires Conforms(ty, o)
    ensures AsClass(ty, AsDictInner(o)) == Ok(o)
    decreases ty, 2
  {
    match ty
    case Any =>
      FlattenRecordFree(o);
    case ListOf(e) =>
      RoundTripItems(e, o.items);
    case TupleOf(e) =>
      RoundTripItems(e, o.items);
    case DictOf(v) =>
      RoundTripEntries(v, o.entries);
    case RecordT(d) =>
      RoundTripRecord(ty, o);
  }

  lemma {:induction false} RoundTripItems(e: Ty, xs: seq<Obj>)
    requires forall i :: 0 <= i < |xs| ==> Conforms(e, xs[i])
    ensures ConvertAll(e, InnerItems(xs)) == Ok(xs)
    decreases e, 3
  {
    var ys := InnerItems(xs);
    forall i | 0 <= i < |ys| ensures AsClass(e, ys[i]) == Ok(xs[i]) {
      RoundTrip(e, xs[i]);
    }
    assert ConvertAll(e, ys).value == xs;
  }

  lemma {:induction false} RoundTripEntries(v: Ty, es: seq<Pair<Obj>>)
    requires forall i :: 0 <= i < |es| ==> Conforms(v, es[i].val)
    ensures ConvertValues(v, InnerEntries(es)) == Ok(es)
    decreases v, 3
  {
    var fs := InnerEntries(es);
    forall i | 0 <= i < |fs| ensures AsClass(v, fs[i].val) == Ok(es[i].val) {
      RoundTrip(v, es[i].val);
    }
    var r := ConvertValues(v, fs).value;
    assert |r| == |Keys(r)| == |Keys(es)| == |es|;
    forall i | 0 <= i < |r| ensures r[i] == es[i] {
      assert Keys(r)[i] == Keys(es)[i];
    }
    assert r == es;
  }

  lemma {:induction false} RoundTripRecord(ty: Ty, o: Obj)
    requires ty.RecordT? && Conforms(ty, o)
    ensures AsClass(ty, AsDictInner(o)) == Ok(o)
    decreases ty, 1
  {
    var d := ty.decl;
    var ps := RecordPairs(d.fields, o.values);
    FlattenWellDeclared(d, o.values);
    assert AsDictInner(o) == DictObj(ps);
    KwArgsRoundTrip(ty, o, |ps|);
    assert ps[..|ps|] == ps;
    var kw := KwArgs(ty, ps).value;
    ConstructAll(d, kw, o.values);
    AsClassRecord(ty, ps, kw, o.values);
  }

  /** Every field present in the keyword arguments: the record is built from them. */
  lemma ConstructAll(d: RecordDecl, kw: map<string, Obj>, vs: seq<Obj>)
    requires |vs| == |d.fields|
    requires forall j :: 0 <= j < |d.fields| ==> KwHolds(kw, d, vs, j)
    ensures Construct(d.fields, kw) == Ok(vs)
  {
    var r := Construct(d.fields, kw);
    assert forall j :: 0 <= j < |d.fields| ==> d.fields[j].name in kw by {
      forall j | 0 <= j < |d.fields| ensures d.fields[j].name in kw {
        assert KwHolds(kw, d, vs, j);
      }
    }
    assert r.Ok?;
    assert |r.value| == |vs|;
    forall j | 0 <= j < |vs| ensures r.value[j] == vs[j] {
      assert KwHolds(kw, d, vs, j);
    }
    assert r.value == vs;
  }

  lemma AsClassRecord(ty: Ty, es: seq<Pair<Obj>>, kw: map<string, Obj>, vs: seq<Obj>)
    requires ty.RecordT? && KwArgs(ty, es) == Ok(kw) && Construct(ty.decl.fields, kw) == Ok(vs)
    ensures AsClass(ty, DictObj(es)) == Ok(RecordObj(ty.decl, vs))
  {
  }

  /** The keyword arguments gathered from the first `n` flattened fields
      are those fields' original values, under their internal names. */
  lemma {:induction false} KwArgsRoundTrip(ty: Ty, o: Obj, n: nat)
    requires ty.RecordT? && Conforms(ty, o) && n <= |o.values|
    ensures KwArgs(ty, RecordPairs(ty.decl.fields, o.values)[..n]).Ok?
    ensures forall j :: 0 <= j < n ==> KwHolds(KwArgs(ty, RecordPairs(ty.decl.fields, o.values)[..n]).value, ty.decl, o.values, j)
    decreases ty, 0, n
  {
    var d := ty.decl;
    var ps := RecordPairs(d.fields, o.values);
    if n > 0 {
      KwArgsRoundTrip(ty, o, n - 1);
      var prev := KwArgs(ty, ps[..n - 1]).value;
      PrefixStep(ps, n);
      var p := ps[..n][n - 1];
      assert p == Pair(ExternalName(d.fields[n - 1]), AsDictInner(o.values[n - 1]));
      PropertiesDistinct(d.fields, n - 1);
      RoundTrip(d.fields[n - 1].ty, o.values[n - 1]);
      KwStep(ty, ps[..n], prev);
      var kw := prev[d.fields[n - 1].name := o.values[n - 1]];
      assert KwArgs(ty, ps[..n]) == Ok(kw);
      KwExtend(prev, kw, d, o.values, n);
    }
  }

  lemma PrefixStep<A>(s: seq<A>, n: nat)
    requires 0 < n <= |s|
    ensures s[..n][..n - 1] == s[..n - 1] && s[..n][n - 1] == s[n - 1]
  {
  }

  lemma KwExtend(prev: map<string, Obj>, kw: map<string, Obj>, d: RecordDecl, vs: seq<Obj>, n: nat)
    requires WellDeclared(d) && 0 < n <= |d.fields| && n <= |vs|
    requires kw == prev[d.fields[n - 1].name := vs[n - 1]]
    requires forall j :: 0 <= j < n - 1 ==> KwHolds(prev, d, vs, j)
    ensures forall j :: 0 <= j < n ==> KwHolds(kw, d, vs, j)
  {
    forall j | 0 <= j < n ensures KwHolds(kw, d, vs, j) {
      if j < n - 1 {
        assert d.fields[j].name != d.fields[n - 1].name;
        assert KwHolds(prev, d, vs, j);
      }
    }
  }

  /** Field `j` sits in `kw` under its internal name with its value. */
  predicate KwHolds(kw: map<string, Obj>, d: RecordDecl, vs: seq<Obj>, j: nat)
    requires j < |d.fields| && j < |vs|
  {
    d.fields[j].name in kw && kw[d.fields[j].name] == vs[j]
  }

  /** One step of `KwArgs`: the last pair is converted and filed on top of the rest. */
  lemma KwStep(ty: Ty, es: seq<Pair<Obj>>, prev: map<string, Obj>)
    requires ty.RecordT? && es != [] && KwArgs(ty, es[..|es| - 1]) == Ok(prev)
    requires es[|es| - 1].key in Properties(ty.decl.fields)
    requires AsClass(ty.decl.fields[Properties(ty.decl.fields)[es[|es| - 1].key]].ty, es[|es| - 1].val).Ok?
    ensures var f := ty.decl.fields[Properties(ty.decl.fields)[es[|es| - 1].key]];
      KwArgs(ty, es) == Ok(prev[f.name := AsClass(f.ty, es[|es| - 1].val).value])
  {
  }

  /** Input keys that are no field's external name are ignored. */
  lemma UnknownKeyIgnored(d: RecordDecl, es: seq<Pair<Obj>>, k: string, v: Obj)
    requires forall i :: 0 <= i < |d.fields| ==> ExternalName(d.fields[i]) != k
    ensures AsClass(RecordT(d), DictObj(es + [Pair(k, v)])) == AsClass(RecordT(d), DictObj(es))
  {
    assert (es + [Pair(k, v)])[..|es|] == es;
  }
}

=== FILE: config.dfy ===
/** One configuration cell (`Config` in the three `config/pool.py` files).

    The cell holds the current detail view, or nothing before the first load.
    Reads go through `read`; `__update` replaces the detail, either with the
    wrap of new data or, for a partial update, with the wrap of the old detail
    flattened and merged with the data. The refresh loops of `watch` and
    `watch_async` are modelled by their per-call step: the first call lets a
    failure escape, every later call swallows it and keeps the detail. */
module ConfigStore {
  import opened Wrappers
  import opened Assoc
  import opened Value
  import Namespace
  import Merge
  import Reader

  /** `detail` is the table of the current view; `layered` tells whether the
      generation wraps with read-only layers (build/lib and quiver) rather than
      namespaces (lescode), so the views it stores are frozen. */
  datatype Config = Config(detail: Option<Entries>, layered: bool)

  /** `Config()`: no detail yet. */
  function NewConfig(layered: bool): Config {
    Config(None, layered)
  }

  /** What reads start from: the detail view, or `None` before any detail. */
  function Root(c: Config): Val {
    match c.detail
    case None => NoneVal
    case Some(es) => View(es, c.layered)
  }

  /** The `detail` setter: stores `asclass(params)`. */
  function SetDetail(c: Config, params: Val): (r: Result<Config>)
    ensures r.Ok? <==> Namespace.AsClass(params, c.layered).Ok?
    ensures r.Ok? ==> r.value.layered == c.layered && Root(r.value) == Namespace.AsClass(params, c.layered).value
  {
    var v :- Namespace.AsClass(params, c.layered);
    Ok(Config(Some(v.entries), c.layered))
  }

  /** `Config.get` (lescode, build/lib): `read` on the detail with the same flags. */
  function Get(c: Config, keys: seq<Reader.PathKey>, shallow: bool, default: Val): Result<Reader.Reading> {
    Reader.Read(Root(c), keys, shallow, default)
  }

  /** `Config.read` (quiver): the non-curried `read` on the detail. */
  function ReadLayer(c: Config, keys: seq<Reader.PathKey>, shallow: bool, default: Val): Result<Val> {
    Reader.Walk(Root(c), keys, shallow, default)
  }

  /** For a non-empty path the two generations' reads agree: `get` answers
      the value the non-curried `read` reaches, and fails exactly when it does. */
  lemma GetAgreesWithReadLayer(c: Config, keys: seq<Reader.PathKey>, shallow: bool, default: Val)
    requires keys != []
    ensures ReadLayer(c, keys, shallow, default).Ok?
         ==> Get(c, keys, shallow, default) == Ok(Reader.Value(ReadLayer(c, keys, shallow, default).value))
    ensures ReadLayer(c, keys, shallow, default).Err?
         ==> Get(c, keys, shallow, default) == Err(ReadLayer(c, keys, shallow, default).error)
  {
  }

  /** Before any detail is set, a read of a name answers the fallback. */
  lemma FreshConfigReadsFallback(layered: bool, k: string, rest: seq<Reader.PathKey>, shallow: bool, default: Val)
    ensures Get(NewConfig(layered), [Reader.Name(k)] + rest, shallow, default)
         == Ok(Reader.Value(Reader.Fallback(shallow, default)))
    ensures ReadLayer(NewConfig(layered), [], shallow, default) == Ok(NoneVal)
  {
    assert ([Reader.Name(k)] + rest)[0] == Reader.Name(k);
  }

  /** The detail setter stores the wrap of a dict: flattening it again gives
      the dict back (lists as tuples) when the dict is restorable. */
  lemma SetDetailRestores(c: Config, es: Entries)
    requires PlainEntries(es) && forall i :: 0 <= i < |es| ==> Namespace.Restorable(es[i].val)
    ensures SetDetail(c, Dict(es)).Ok?
    ensures SetDetail(c, Dict(es)).value.detail == Some(Namespace.ParseEntries(es, c.layered))
    ensures Namespace.AsDict(SetDetail(c, Dict(es)).value.detail.value) == Namespace.TuplifyEntries(es)
  {
    Namespace.RoundTrip(es, c.layered);
  }

  /** `Config.__update(data, partial)`. */
  function Update(c: Config, data: Val, partial: bool): (r: Result<Config>)
    ensures !partial ==> r == SetDetail(c, data)
    ensures partial && c.detail.None? ==> r == Err(TypeError)
    ensures partial && c.detail.Some? && Namespace.ItemsOf(data).None? ==> r == Err(AttributeError)
    ensures r.Ok? ==> r.value.layered == c.layered && r.value.detail.Some?
  {
    if !partial then SetDetail(c, data)
    else if c.detail.None? then Err(TypeError)
    else
      match Namespace.ItemsOf(data)
      case None => Err(AttributeError)
      case Some(d) =>
        SetDetail(c, Dict(Merge.PartialUpdate(Namespace.AsDict(c.detail.value), d)))
  }

  /** What a partial update leaves in the detail: the old keys and the
      patch's keys; a patch key with a non-dict value holds that value
      wrapped; a patch dict over an old view is merged into the flattened old
      view; a key the patch does not name holds its old value, flattened and
      wrapped again. */
  lemma PartialUpdateDetail(c: Config, d: Entries, k: string)
    requires c.detail.Some? && UniqueKeys(d)
    ensures Update(c, Dict(d), true).Ok?
    ensures var prev := c.detail.value;
      var t := Update(c, Dict(d), true).value.detail.value;
      && (k in Keys(t) <==> k in Keys(prev) || k in Keys(d))
      && (k in Keys(d) && !Lookup(d, k).value.Dict?
          ==> Lookup(t, k) == Some(Namespace.Parse(Lookup(d, k).value, c.layered)))
      && (k in Keys(d) && Lookup(d, k).value.Dict? && k in Keys(prev) && Lookup(prev, k).value.View?
          ==> Lookup(t, k) == Some(Namespace.Parse(Dict(Merge.PartialUpdate(
                Namespace.AsDict(Lookup(prev, k).value.entries), Lookup(d, k).value.entries)), c.layered)))
      && (k !in Keys(d) && k in Keys(prev)
          ==> Lookup(t, k) == Some(Namespace.Parse(Namespace.Flat(Lookup(prev, k).value), c.layered)))
  {
    PartialUpdateShape(c, d);
    MergedDetail(c.detail.value, d, c.layered, k);
  }

  lemma MergedDetail(prev: Entries, d: Entries, layered: bool, k: string)
    requires UniqueKeys(d)
    ensures var t := Namespace.ParseEntries(Merge.PartialUpdate(Namespace.AsDict(prev), d), layered);
      && (k in Keys(t) <==> k in Keys(prev) || k in Keys(d))
      && (k in Keys(d) && !Lookup(d, k).value.Dict?
          ==> Lookup(t, k) == Some(Namespace.Parse(Lookup(d, k).value, layered)))
      && (k in Keys(d) && Lookup(d, k).value.Dict? && k in Keys(prev) && Lookup(prev, k).value.View?
          ==> Lookup(t, k) == Some(Namespace.Parse(Dict(Merge.PartialUpdate(
                Namespace.AsDict(Lookup(prev, k).value.entries), Lookup(d, k).value.entries)), layered)))
      && (k !in Keys(d) && k in Keys(prev)
          ==> Lookup(t, k) == Some(Namespace.Parse(Namespace.Flat(Lookup(prev, k).value), layered)))
  {
    var flat := Namespace.AsDict(prev);
    var t := Namespace.ParseEntries(Merge.PartialUpdate(flat, d), layered);
    MergedLookup(prev, d, layered, k);
    Namespace.AsDictLookup(prev, k);
    assert k in Keys(t) <==> Lookup(t, k).Some?;
    if k in Keys(d) {
      var dv := Lookup(d, k).value;
      if !dv.Dict? {
        assert Merge.Merged(Lookup(flat, k), dv) == dv;
      } else if k in Keys(prev) && Lookup(prev, k).value.View? {
        var pv := Lookup(prev, k).value;
        assert Lookup(flat, k) == Some(Dict(Namespace.AsDict(pv.entries)));
        assert Merge.Merged(Lookup(flat, k), dv) == Dict(Merge.PartialUpdate(Namespace.AsDict(pv.entries), dv.entries));
      }
    }
  }

  /** The stored value at `k` after a partial update, in one formula. */
  lemma MergedLookup(prev: Entries, d: Entries, layered: bool, k: string)
    requires UniqueKeys(d)
    ensures var flat := Namespace.AsDict(prev);
      Lookup(Namespace.ParseEntries(Merge.PartialUpdate(flat, d), layered), k)
      == if k in Keys(d) then Some(Namespace.Parse(Merge.Merged(Lookup(flat, k), Lookup(d, k).value), layered))
         else if k in Keys(prev) then Some(Namespace.Parse(Namespace.Flat(Lookup(prev, k).value), layered))
         else None
  {
    var flat := Namespace.AsDict(prev);
    var merged := Merge.PartialUpdate(flat, d);
    Merge.UpdateLookup(flat, d, k);
    Namespace.LookupParse(merged, layered, k);
    Namespace.AsDictLookup(prev, k);
  }

  /** A partial update with a dict stores the wrap of the merged, flattened detail. */
  lemma PartialUpdateShape(c: Config, d: Entries)
    requires c.detail.Some?
    ensures Update(c, Dict(d), true)
         == Ok(Config(Some(Namespace.ParseEntries(Merge.PartialUpdate(Namespace.AsDict(c.detail.value), d), c.layered)), c.layered))
  {
  }

  // ----- the refresh step of watch / watch_async -----

  /** What one call of the producer (`emitter`) gave. */
  datatype Outcome = Produced(data: Val) | Raised

  /** One call of the observer: produce, then update; with `ignoreException`
      a failure of either is swallowed and the detail kept. */
  function Observe(c: Config, o: Outcome, partial: bool, ignoreException: bool): (r: Result<Config>)
    ensures ignoreException ==> r.Ok?
    ensures o.Raised? && !ignoreException ==> r == Err(ProducerFailed)
    ensures o.Raised? && ignoreException ==> r == Ok(c)
    ensures o.Produced? && Update(c, o.data, partial).Ok? ==> r == Update(c, o.data, partial)
    ensures o.Produced? && Update(c, o.data, partial).Err? && ignoreException ==> r == Ok(c)
    ensures o.Produced? && Update(c, o.data, partial).Err? && !ignoreException ==> r == Update(c, o.data, partial)
  {
    var attempt := if o.Raised? then Err(ProducerFailed) else Update(c, o.data, partial);
    if attempt.Err? && ignoreException then Ok(c) else attempt
  }

  /** The call `watch` and `watch_async` make before the loop starts: its
      failure reaches the caller and no loop is started. */
  function WatchStart(c: Config, first: Outcome, partial: bool): Result<Config> {
    Observe(c, first, partial, false)
  }

  /** One later tick of the loop: never fails, and a failed tick leaves the
      configuration as it was. */
  function Tick(c: Config, o: Outcome, partial: bool): (r: Config)
    ensures o.Raised? ==> r == c
    ensures o.Produced? ==> r == (if Update(c, o.data, partial).Ok? then Update(c, o.data, partial).value else c)
  {
    Observe(c, o, partial, true).value
  }

  /** The configuration after a run of ticks. */
  function Refresh(c: Config, outcomes: seq<Outcome>, partial: bool): Config
    decreases |outcomes|
  {
    if outcomes == [] then c
    else Refresh(Tick(c, outcomes[0], partial), outcomes[1..], partial)
  }

  lemma {:induction false} RefreshAppend(c: Config, outcomes: seq<Outcome>, o: Outcome, partial: bool)
    ensures Refresh(c, outcomes + [o], partial) == Tick(Refresh(c, outcomes, partial), o, partial)
    decreases |outcomes|
  {
    if outcomes != [] {
      assert (outcomes + [o])[1..] == outcomes[1..] + [o];
      RefreshAppend(Tick(c, outcomes[0], partial), outcomes[1..], o, partial);
    } else {
      assert [] + [o] == [o];
    }
  }

  /** Ticks that all fail leave the detail untouched. */
  lemma {:induction false} FailedTicksKeepDetail(c: Config, outcomes: seq<Outcome>, partial: bool)
    requires forall i :: 0 <= i < |outcomes| ==> outcomes[i].Raised?
    ensures Refresh(c, outcomes, partial) == c
    decreases |outcomes|
  {
    if outcomes != [] {
      FailedTicksKeepDetail(c, outcomes[1..], partial);
    }
  }

  /** With full replacement, the detail after a run of ticks is the wrap of
      the last dict any tick produced, whatever failed in between. */
  lemma LastGoodFullReplace(c: Config, before: seq<Outcome>, es: Entries, after: seq<Outcome>)
    requires forall i :: 0 <= i < |after| ==> after[i].Raised?
    ensures Root(Refresh(c, before + [Produced(Dict(es))] + after, false)) == Namespace.Wrap(es, c.layered)
  {
    RefreshAppend(c, before, Produced(Dict(es)), false);
    var mid := Refresh(c, before + [Produced(Dict(es))], false);
    RefreshSplit(c, before + [Produced(Dict(es))], after, false);
    FailedTicksKeepDetail(mid, after, false);
    RefreshKeepsGeneration(c, before, false);
  }

  lemma {:induction false} RefreshSplit(c: Config, a: seq<Outcome>, b: seq<Outcome>, partial: bool)
    ensures Refresh(c, a + b, partial) == Refresh(Refresh(c, a, partial), b, partial)
    decreases |a|
  {
    if a != [] {
      assert (a + b)[1..] == a[1..] + b;
      RefreshSplit(Tick(c, a[0], partial), a[1..], b, partial);
    } else {
      assert a + b == b;
    }
  }

  lemma {:induction false} RefreshKeepsGeneration(c: Config, outcomes: seq<Outcome>, partial: bool)
    ensures Refresh(c, outcomes, partial).layered == c.layered
    decreases |outcomes|
  {
    if outcomes != [] {
      RefreshKeepsGeneration(Tick(c, outcomes[0], partial), outcomes[1..], partial);
    }
  }

  /** A producer that succeeds, fails, then succeeds: no failure escapes and
      the detail is the wrap of the third output. */
  lemma SteadyStateResilience(c: Config, d1: Entries, d3: Entries)
    ensures Root(Refresh(c, [Produced(Dict(d1)), Raised, Produced(Dict(d3))], false)) == Namespace.Wrap(d3, c.layered)
  {
    assert [Produced(Dict(d1)), Raised, Produced(Dict(d3))] == [Produced(Dict(d1)), Raised] + [Produced(Dict(d3))] + [];
    LastGoodFullReplace(c, [Produced(Dict(d1)), Raised], d3, []);
  }

  /** A producer failing on the first call of `watch` makes `watch` fail, and
      the caller's configuration is the one it had. */
  lemma WatchSetupFailure(c: Config, partial: bool)
    ensures WatchStart(c, Raised, partial) == Err(ProducerFailed)
  {
  }

  /** A partial first update on a configuration that was never loaded fails:
      `asdict(None)` raises, and `watch` passes the error on. */
  lemma PartialWatchNeedsDetail(layered: bool, data: Val)
    ensures WatchStart(NewConfig(layered), Produced(data), true) == Err(TypeError)
  {
  }

  // ----- worked examples -----

  function Tags(): Val { Tuple([Scalar(Str("a")), Scalar(Str("b"))]) }
  function Svc(): Entries { [Pair("port", Scalar(Int(8080))), Pair("tags", List([Scalar(Str("a")), Scalar(Str("b"))]))] }

  lemma ServiceFlat(layered: bool)
    ensures Namespace.AsDict(Namespace.ParseEntries(Svc(), layered)) == [Pair("port", Scalar(Int(8080))), Pair("tags", Tags())]
  {
    var svc := Svc();
    assert Keys(svc) == ["port", "tags"];
    assert PlainEntries(svc);
    Namespace.RoundTrip(svc, layered);
    var xs := [Scalar(Str("a")), Scalar(Str("b"))];
    TuplifyTwo(svc[0], svc[1]);
    TuplifyItemsTwo(xs[0], xs[1]);
  }

  lemma TuplifyTwo(a: Pair<Val>, b: Pair<Val>)
    ensures Namespace.TuplifyEntries([a, b])
         == [Pair(a.key, Namespace.Tuplify(a.val)), Pair(b.key, Namespace.Tuplify(b.val))]
  {
    assert [a, b][1..] == [b];
    assert [b][1..] == [];
  }

  lemma TuplifyItemsTwo(x: Val, y: Val)
    ensures Namespace.TuplifyItems([x, y]) == [Namespace.Tuplify(x), Namespace.Tuplify(y)]
  {
    assert [x, y][1..] == [y];
    assert [y][1..] == [];
  }

  lemma ServiceMerge()
    ensures Merge.PartialUpdate([Pair("port", Scalar(Int(8080))), Pair("tags", Tags())], [Pair("port", Scalar(Int(9090)))])
         == [Pair("port", Scalar(Int(9090))), Pair("tags", Tags())]
  {
  }

  /** Load `{"service": {"port": 8080, "tags": ["a", "b"]}}`, then apply the
      partial update `{"service": {"port": 9090}}`: the port reads 9090 and the
      untouched tags read as the tuple `("a", "b")`. */
  lemma ServiceExample(layered: bool)
    ensures var c0 := SetDetail(NewConfig(layered), Dict([Pair("service", Dict(Svc()))]));
      && c0.Ok?
      && Update(c0.value, Dict([Pair("service", Dict([Pair("port", Scalar(Int(9090)))]))]), true).Ok?
      && var c1 := Update(c0.value, Dict([Pair("service", Dict([Pair("port", Scalar(Int(9090)))]))]), true).value;
         && Get(c1, [Reader.Name("service"), Reader.Name("port")], true, NoneVal) == Ok(Reader.Value(Scalar(Int(9090))))
         && Get(c1, [Reader.Name("service"), Reader.Name("tags")], true, NoneVal) == Ok(Reader.Value(Tags()))
  {
    var c0 := ServiceLoad(layered);
    ServiceUpdate(c0, layered);
  }

  lemma ServiceLoad(layered: bool) returns (c0: Config)
    ensures SetDetail(NewConfig(layered), Dict([Pair("service", Dict(Svc()))])) == Ok(c0)
    ensures c0.layered == layered && c0.detail.Some?
    ensures Lookup(c0.detail.value, "service") == Some(View(Namespace.ParseEntries(Svc(), layered), layered))
  {
    var d0 := [Pair("service", Dict(Svc()))];
    c0 := Config(Some(Namespace.ParseEntries(d0, layered)), layered);
    assert Keys(d0) == ["service"];
    assert Lookup(d0, "service") == Some(Dict(Svc()));
    Namespace.LookupParse(d0, layered, "service");
    assert Namespace.Parse(Dict(Svc()), layered) == View(Namespace.ParseEntries(Svc(), layered), layered);
    SetDetailDict(NewConfig(layered), d0);
  }

  /** Setting a dict as the detail stores its wrap. */
  lemma SetDetailDict(c: Config, es: Entries)
    ensures SetDetail(c, Dict(es)) == Ok(Config(Some(Namespace.ParseEntries(es, c.layered)), c.layered))
  {
  }

  lemma ServiceUpdate(c0: Config, layered: bool)
    requires c0.layered == layered && c0.detail.Some?
    requires Lookup(c0.detail.value, "service") == Some(View(Namespace.ParseEntries(Svc(), layered), layered))
    ensures Update(c0, Dict([Pair("service", Dict([Pair("port", Scalar(Int(9090)))]))]), true).Ok?
    ensures var c1 := Update(c0, Dict([Pair("service", Dict([Pair("port", Scalar(Int(9090)))]))]), true).value;
         && Get(c1, [Reader.Name("service"), Reader.Name("port")], true, NoneVal) == Ok(Reader.Value(Scalar(Int(9090))))
         && Get(c1, [Reader.Name("service"), Reader.Name("tags")], true, NoneVal) == Ok(Reader.Value(Tags()))
  {
    var patch := [Pair("port", Scalar(Int(9090)))];
    var d := [Pair("service", Dict(patch))];
    ServiceFlat(layered);
    ServiceMerge();
    assert Keys(d) == ["service"];
    assert Lookup(d, "service") == Some(Dict(patch));
    PartialUpdateDetail(c0, d, "service");
    var c1 := Update(c0, Dict(d), true).value;
    assert Root(c1) == View(c1.detail.value, layered);
    ServiceReads(c1.detail.value, layered);
    GetAgreesWithReadLayer(c1, [Reader.Name("service"), Reader.Name("port")], true, NoneVal);
    GetAgreesWithReadLayer(c1, [Reader.Name("service"), Reader.Name("tags")], true, NoneVal);
  }

  lemma ServiceReads(t: Entries, layered: bool)
    requires Lookup(t, "service") == Some(Namespace.Parse(Dict([Pair("port", Scalar(Int(9090))), Pair("tags", Tags())]), layered))
    ensures Reader.Walk(View(t, layered), [Reader.Name("service"), Reader.Name("port")], true, NoneVal) == Ok(Scalar(Int(9090)))
    ensures Reader.Walk(View(t, layered), [Reader.Name("service"), Reader.Name("tags")], true, NoneVal) == Ok(Tags())
  {
    var merged := [Pair("port", Scalar(Int(9090))), Pair("tags", Tags())];
    var sv := Namespace.Parse(Dict(merged), layered);
    var se := Namespace.ParseEntries(merged, layered);
    assert sv == View(se, layered);
    LookupTwo(merged[0], merged[1]);
    Namespace.LookupParse(merged, layered, "port");
    Namespace.LookupParse(merged, layered, "tags");
    assert Lookup(se, "port") == Some(Scalar(Int(9090)));
    assert Lookup(se, "tags") == Some(Tags());
    ViewStep(t, layered, "service");
    ViewStep(se, layered, "port");
    ViewStep(se, layered, "tags");
    WalkTwo(View(t, layered), Reader.Name("service"), Reader.Name("port"), true, NoneVal, sv, Scalar(Int(9090)));
    WalkTwo(View(t, layered), Reader.Name("service"), Reader.Name("tags"), true, NoneVal, sv, Tags());
  }

  /** A name a view holds is a step down to its value. */
  lemma ViewStep(es: Entries, frozen: bool, k: string)
    requires Lookup(es, k).Some?
    ensures Reader.StepInto(View(es, frozen), Reader.Name(k)) == Reader.Descend(Lookup(es, k).value)
  {
  }

  /** Both lookups in a two-pair table with distinct keys. */
  lemma LookupTwo<V>(a: Pair<V>, b: Pair<V>)
    requires a.key != b.key
    ensures Lookup([a, b], a.key) == Some(a.val) && Lookup([a, b], b.key) == Some(b.val)
  {
    assert [a, b][1..] == [b];
  }

  /** A two-step path whose both steps descend. */
  lemma WalkTwo(cur: Val, a: Reader.PathKey, b: Reader.PathKey, shallow: bool, default: Val, mid: Val, end: Val)
    requires Reader.StepInto(cur, a) == Reader.Descend(mid)
    requires Reader.StepInto(mid, b) == Reader.Descend(end)
    ensures Reader.Walk(cur, [a, b], shallow, default) == Ok(end)
  {
    assert [a, b][1..] == [b];
    assert [b][1..] == [];
  }

  function Inner(): Entries { [Pair("a", Scalar(Int(1)))] }

  lemma ItemsLoad(layered: bool) returns (c0: Config)
    ensures SetDetail(NewConfig(layered), Dict([Pair("items", List([Dict(Inner())]))])) == Ok(c0)
    ensures c0.layered == layered && c0.detail.Some?
    ensures Lookup(c0.detail.value, "items") == Some(Tuple([View(Namespace.ParseEntries(Inner(), layered), layered)]))
  {
    var d0 := [Pair("items", List([Dict(Inner())]))];
    c0 := Config(Some(Namespace.ParseEntries(d0, layered)), layered);
    Namespace.LookupParse(d0, layered, "items");
    var pi := Namespace.ParseItems([Dict(Inner())], layered);
    assert |pi| == 1 && pi[0] == View(Namespace.ParseEntries(Inner(), layered), layered);
    assert pi == [View(Namespace.ParseEntries(Inner(), layered), layered)];
    assert Keys(d0) == ["items"];
    assert Namespace.Parse(List([Dict(Inner())]), layered) == Tuple(pi);
    SetDetailDict(NewConfig(layered), d0);
  }

  /** Before the update: the list element is a view, so the missing name falls back. */
  lemma ItemsReadBefore(t: Entries, layered: bool)
    requires Lookup(t, "items") == Some(Tuple([View(Namespace.ParseEntries(Inner(), layered), layered)]))
    ensures Reader.Walk(View(t, layered), [Reader.Name("items"), Reader.Index(0), Reader.Name("b")], true, Scalar(Int(7)))
         == Ok(Scalar(Int(7)))
  {
    var iv := View(Namespace.ParseEntries(Inner(), layered), layered);
    var keys := [Reader.Name("items"), Reader.Index(0), Reader.Name("b")];
    assert Keys(Namespace.ParseEntries(Inner(), layered)) == ["a"];
    assert Reader.StepInto(View(t, layered), keys[0]) == Reader.Descend(Tuple([iv]));
    assert Reader.StepInto(Tuple([iv]), keys[1]) == Reader.Descend(iv);
    assert Reader.StepInto(iv, keys[2]) == Reader.Miss;
    assert keys[1..][1..] == [Reader.Name("b")];
  }

  /** After the update: the list element is a plain dict, so the missing name raises. */
  lemma ItemsReadAfter(t: Entries, layered: bool)
    requires Lookup(t, "items") == Some(Tuple([Dict(Inner())]))
    ensures Reader.Walk(View(t, layered), [Reader.Name("items"), Reader.Index(0), Reader.Name("b")], true, Scalar(Int(7)))
         == Err(KeyError)
  {
    var keys := [Reader.Name("items"), Reader.Index(0), Reader.Name("b")];
    assert Keys(Inner()) == ["a"];
    assert Reader.StepInto(View(t, layered), keys[0]) == Reader.Descend(Tuple([Dict(Inner())]));
    assert Reader.StepInto(Tuple([Dict(Inner())]), keys[1]) == Reader.Descend(Dict(Inner()));
    assert Reader.StepInto(Dict(Inner()), keys[2]) == Reader.Raise(KeyError);
    assert keys[1..][1..] == [Reader.Name("b")];
  }

  lemma ItemsUpdate(c0: Config, layered: bool)
    requires c0.layered == layered && c0.detail.Some?
    requires Lookup(c0.detail.value, "items") == Some(Tuple([View(Namespace.ParseEntries(Inner(), layered), layered)]))
    ensures Update(c0, Dict([]), true).Ok?
    ensures Lookup(Update(c0, Dict([]), true).value.detail.value, "items") == Some(Tuple([Dict(Inner())]))
  {
    PartialUpdateDetail(c0, [], "items");
    var view := View(Namespace.ParseEntries(Inner(), layered), layered);
    InnerRestores(layered);
    assert Namespace.FlatItem(view) == Dict(Inner());
    assert [view][1..] == [];
    assert Namespace.FlatItems([view]) == [Dict(Inner())];
    var flat := Namespace.Flat(Tuple([view]));
    assert flat == Tuple([Dict(Inner())]);
    assert Namespace.Parse(flat, layered) == flat;
  }

  /** Flattening the wrap of `{"a": 1}` gives it back. */
  lemma InnerRestores(layered: bool)
    ensures Namespace.AsDict(Namespace.ParseEntries(Inner(), layered)) == Inner()
  {
    var es := Inner();
    assert Keys(es) == ["a"];
    assert PlainEntries(es);
    Namespace.RoundTrip(es, layered);
    assert es[1..] == [];
    assert Namespace.TuplifyEntries(es) == es;
  }

  /** After any partial update a dict inside a list is left a plain dict:
      `asdict` turns the view back into a dict inside a tuple, and `asclass`
      does not look inside tuples. A name missing from it then raises
      `KeyError` where, before the update, the read fell back to the default. */
  lemma PartialUpdateUnwrapsListDicts(layered: bool)
    ensures var c0 := SetDetail(NewConfig(layered), Dict([Pair("items", List([Dict(Inner())]))]));
      && c0.Ok?
      && Get(c0.value, [Reader.Name("items"), Reader.Index(0), Reader.Name("b")], true, Scalar(Int(7)))
         == Ok(Reader.Value(Scalar(Int(7))))
      && Update(c0.value, Dict([]), true).Ok?
      && Get(Update(c0.value, Dict([]), true).value, [Reader.Name("items"), Reader.Index(0), Reader.Name("b")], true, Scalar(Int(7)))
         == Err(KeyError)
  {
    var c0 := ItemsLoad(layered);
    ItemsReadBefore(c0.detail.value, layered);
    ItemsUpdate(c0, layered);
    ItemsReadAfter(Update(c0, Dict([]), true).value.detail.value, layered);
  }
}

=== FILE: envelope.dfy ===
/** `serialize` / `deserialize` of `types/base.py`: a record is flattened,
    datetimes are tagged on the way out and untagged on the way back, and
    the result is converted to the declared class.

    `strftime`/`strptime` are a parameter (`Clock`), and so is nothing else:
    a message is the tagged value tree as `unpackb` hands it back. msgpack
    writes lists and tuples alike as arrays and `unpackb` (with its default
    `use_list=True`) reads every array as a list, so packing turns tuples
    into lists; only `asclass` with a declared `Tuple` turns one back. */
module Envelope {
  import opened Wrappers
  import opened Assoc
  import opened Value
  import opened Codec

  /** `datetime.strftime(fmt)` and `datetime.strptime(s, fmt)`; `parse`
      answers `None` where `strptime` raises `ValueError`. */
  datatype Clock = Clock(format: (string, int) -> string, parse: (string, string) -> Option<int>)

  /** Parsing what was formatted with the same format gives the instant back. */
  ghost predicate Inverse(clock: Clock) {
    forall fmt, t :: clock.parse(clock.format(fmt, t), fmt) == Some(t)
  }

  const DefaultFormat: string := "%Y-%m-%d %H:%M:%S.%f"

  const Tag: string := "__datetime__"

  /** `get_datetime_encoder(fmt)`: a datetime becomes a tagged dict, any other value is kept. */
  function EncodeDatetime(clock: Clock, fmt: string, o: Obj): (r: Obj)
    ensures !o.Stamp? ==> r == o
    ensures o.Stamp? ==> r.DictObj? && Tag in Keys(r.entries)
  {
    if o.Stamp? then
      DictObj([Pair(Tag, Prim(Bool(true))), Pair("as_str", Prim(Str(clock.format(fmt, o.instant))))])
    else o
  }

  /** `get_datetime_decoder(fmt)` on a decoded map: a tagged map is parsed
      back from its `as_str` entry; any other map is kept. */
  function DecodeDatetime(clock: Clock, fmt: string, es: seq<Pair<Obj>>): (r: Result<Obj>)
    ensures Tag !in Keys(es) ==> r == Ok(DictObj(es))
    ensures Tag in Keys(es) && "as_str" !in Keys(es) ==> r == Err(KeyError)
    ensures r.Ok? && Tag in Keys(es) ==> r.value.Stamp?
  {
    if Tag !in Keys(es) then Ok(DictObj(es))
    else
      var asStr: Option<Obj> := Lookup(es, "as_str");
      if asStr.None? then Err(KeyError)
      else if !(asStr.value.Prim? && asStr.value.atom.Str?) then Err(TypeError)
      else
        match clock.parse(asStr.value.atom.s, fmt)
        case Some(t) => Ok(Stamp(t))
        case None => Err(ValueError)
  }

  /** The decoder undoes the encoder whenever the clock's parse inverts its format. */
  lemma HookInverse(clock: Clock, fmt: string, t: int)
    requires Inverse(clock)
    ensures var e := EncodeDatetime(clock, fmt, Stamp(t));
      DecodeDatetime(clock, fmt, e.entries) == Ok(Stamp(t))
  {
    var e := EncodeDatetime(clock, fmt, Stamp(t));
    assert Keys(e.entries) == [Tag, "as_str"];
    assert Tag[0] != "as_str"[0];
    assert e.entries[1..][0].key == "as_str";
    assert Lookup(e.entries, "as_str") == Some(Prim(Str(clock.format(fmt, t))));
    assert clock.parse(clock.format(fmt, t), fmt) == Some(t);
  }

  // ----- whole trees -----

  /** Packing with `default=encoder`: every datetime in the tree is tagged
      and every tuple becomes an array, which unpacks as a list. */
  function EncodeTree(clock: Clock, fmt: string, o: Obj): Obj
    decreases o, 1
  {
    match o
    case Stamp(_) => EncodeDatetime(clock, fmt, o)
    case ListObj(xs) => ListObj(EncodeItems(clock, fmt, xs))
    case TupleObj(xs) => ListObj(EncodeItems(clock, fmt, xs))
    case DictObj(es) => DictObj(EncodeEntries(clock, fmt, es))
    case _ => o
  }

  function EncodeItems(clock: Clock, fmt: string, xs: seq<Obj>): (r: seq<Obj>)
    decreases xs, 0
    ensures |r| == |xs|
    ensures forall i :: 0 <= i < |xs| ==> r[i] == EncodeTree(clock, fmt, xs[i])
  {
    if xs == [] then [] else [EncodeTree(clock, fmt, xs[0])] + EncodeItems(clock, fmt, xs[1..])
  }

  function EncodeEntries(clock: Clock, fmt: string, es: seq<Pair<Obj>>): (r: seq<Pair<Obj>>)
    decreases es, 0
    ensures Keys(r) == Keys(es)
    ensures forall i :: 0 <= i < |es| ==> r[i].val == EncodeTree(clock, fmt, es[i].val)
  {
    if es == [] then [] else [Pair(es[0].key, EncodeTree(clock, fmt, es[0].val))] + EncodeEntries(clock, fmt, es[1..])
  }

  /** Unpacking with `object_hook=decoder`: every map is decoded after its
      contents, so the hook sees maps whose values are already decoded. */
  function DecodeTree(clock: Clock, fmt: string, o: Obj): (r: Result<Obj>)
    decreases o, 1
    ensures (o.Prim? || o.Stamp?) ==> r == Ok(o)
  {
    match o
    case ListObj(xs) =>
      var ys :- DecodeItems(clock, fmt, xs);
      Ok(ListObj(ys))
    case TupleObj(xs) =>
      var ys :- DecodeItems(clock, fmt, xs);
      Ok(TupleObj(ys))
    case DictObj(es) =>
      var ds :- DecodeEntries(clock, fmt, es);
      DecodeDatetime(clock, fmt, ds)
    case _ => Ok(o)
  }

  function DecodeItems(clock: Clock, fmt: string, xs: seq<Obj>): (r: Result<seq<Obj>>)
    decreases xs, 0
    ensures r.Ok? <==> forall i :: 0 <= i < |xs| ==> DecodeTree(clock, fmt, xs[i]).Ok?
    ensures r.Ok? ==> |r.value| == |xs| && forall i :: 0 <= i < |xs| ==> r.value[i] == DecodeTree(clock, fmt, xs[i]).value
  {
    if xs == [] then Ok([])
    else
      var head :- DecodeTree(clock, fmt, xs[0]);
      var rest :- DecodeItems(clock, fmt, xs[1..]);
      assert forall i :: 1 <= i < |xs| ==> xs[i] == xs[1..][i - 1];
      Ok([head] + rest)
  }

  function DecodeEntries(clock: Clock, fmt: string, es: seq<Pair<Obj>>): (r: Result<seq<Pair<Obj>>>)
    decreases es, 0
    ensures r.Ok? <==> forall i :: 0 <= i < |es| ==> DecodeTree(clock, fmt, es[i].val).Ok?
    ensures r.Ok? ==> Keys(r.value) == Keys(es)
    ensures r.Ok? ==> forall i :: 0 <= i < |es| ==> r.value[i].val == DecodeTree(clock, fmt, es[i].val).value
  {
    if es == [] then Ok([])
    else
      var head :- DecodeTree(clock, fmt, es[0].val);
      var rest :- DecodeEntries(clock, fmt, es[1..]);
      assert forall i :: 1 <= i < |es| ==> es[i] == es[1..][i - 1];
      Ok([Pair(es[0].key, head)] + rest)
  }

  /** Data that packs and unpacks faithfully: no record instances left and
      no map of its own carrying the datetime tag. */
  predicate TagFree(o: Obj) {
    match o
    case RecordObj(_, _) => false
    case ListObj(xs) => forall i :: 0 <= i < |xs| ==> TagFree(xs[i])
    case TupleObj(xs) => forall i :: 0 <= i < |xs| ==> TagFree(xs[i])
    case DictObj(es) => Tag !in Keys(es) && forall i :: 0 <= i < |es| ==> TagFree(es[i].val)
    case _ => true
  }

  /** No tuple anywhere inside: the data an array-only wire carries. */
  predicate TupleFree(o: Obj) {
    match o
    case TupleObj(_) => false
    case ListObj(xs) => forall i :: 0 <= i < |xs| ==> TupleFree(xs[i])
    case DictObj(es) => forall i :: 0 <= i < |es| ==> TupleFree(es[i].val)
    case _ => true
  }

  /** The tree with every tuple turned into a list, as it comes back from the wire. */
  function Listed(o: Obj): (r: Obj)
    decreases o, 1
    ensures o.ListObj? || o.TupleObj? ==> r.ListObj? && |r.items| == |o.items|
    ensures o.DictObj? ==> r.DictObj? && Keys(r.entries) == Keys(o.entries)
    ensures !(o.ListObj? || o.TupleObj? || o.DictObj?) ==> r == o
  {
    match o
    case ListObj(xs) => ListObj(ListedItems(xs))
    case TupleObj(xs) => ListObj(ListedItems(xs))
    case DictObj(es) => DictObj(ListedEntries(es))
    case _ => o
  }

  function ListedItems(xs: seq<Obj>): (r: seq<Obj>)
    decreases xs, 0
    ensures |r| == |xs|
    ensures forall i :: 0 <= i < |xs| ==> r[i] == Listed(xs[i])
  {
    if xs == [] then [] else [Listed(xs[0])] + ListedItems(xs[1..])
  }

  function ListedEntries(es: seq<Pair<Obj>>): (r: seq<Pair<Obj>>)
    decreases es, 0
    ensures Keys(r) == Keys(es)
    ensures forall i :: 0 <= i < |es| ==> r[i].val == Listed(es[i].val)
  {
    if es == [] then [] else [Pair(es[0].key, Listed(es[0].val))] + ListedEntries(es[1..])
  }

  /** Listing changes nothing in tuple-free data, and leaves no tuple behind. */
  lemma {:induction false} ListedTupleFree(o: Obj)
    ensures TupleFree(Listed(o))
    ensures TupleFree(o) ==> Listed(o) == o
    decreases o
  {
    match o
    case ListObj(xs) =>
      forall i | 0 <= i < |xs| ensures TupleFree(ListedItems(xs)[i]) && (TupleFree(xs[i]) ==> ListedItems(xs)[i] == xs[i]) {
        ListedTupleFree(xs[i]);
      }
    case TupleObj(xs) =>
      forall i | 0 <= i < |xs| ensures TupleFree(ListedItems(xs)[i]) {
        ListedTupleFree(xs[i]);
      }
    case DictObj(es) =>
      var fs := ListedEntries(es);
      forall i | 0 <= i < |es| ensures TupleFree(fs[i].val) && (TupleFree(es[i].val) ==> fs[i] == es[i]) {
        ListedTupleFree(es[i].val);
        assert Keys(fs)[i] == Keys(es)[i];
      }
    case _ =>
  }

  /** Decoding undoes encoding on tag-free data, datetimes included, except
      that every tuple comes back as a list; tuple-free data comes back as it was. */
  lemma {:induction false} TreeRoundTrip(clock: Clock, fmt: string, o: Obj)
    requires Inverse(clock) && TagFree(o)
    ensures DecodeTree(clock, fmt, EncodeTree(clock, fmt, o)) == Ok(Listed(o))
    ensures TupleFree(o) ==> DecodeTree(clock, fmt, EncodeTree(clock, fmt, o)) == Ok(o)
    decreases o, 1
  {
    ListedTupleFree(o);
    match o
    case Stamp(t) => StampRoundTrip(clock, fmt, t);
    case ListObj(xs) => ItemsRoundTrip(clock, fmt, xs);
    case TupleObj(xs) => ItemsRoundTrip(clock, fmt, xs);
    case DictObj(es) => EntriesRoundTrip(clock, fmt, es);
    case _ =>
  }

  /** A datetime comes back from its tagged map. */
  lemma StampRoundTrip(clock: Clock, fmt: string, t: int)
    requires Inverse(clock)
    ensures DecodeTree(clock, fmt, EncodeTree(clock, fmt, Stamp(t))) == Ok(Stamp(t))
  {
    var e := EncodeDatetime(clock, fmt, Stamp(t));
    assert DecodeEntries(clock, fmt, e.entries) == Ok(e.entries) by {
      assert |e.entries| == 2 && e.entries[0].val.Prim? && e.entries[1].val.Prim?;
      assert DecodeEntries(clock, fmt, e.entries).Ok?;
      var ds := DecodeEntries(clock, fmt, e.entries).value;
      assert Keys(ds) == Keys(e.entries);
      assert |ds| == 2;
      assert ds[0] == e.entries[0] && ds[1] == e.entries[1];
      assert ds == e.entries;
    }
    HookInverse(clock, fmt, t);
  }

  lemma {:induction false} ItemsRoundTrip(clock: Clock, fmt: string, xs: seq<Obj>)
    requires Inverse(clock) && forall i :: 0 <= i < |xs| ==> TagFree(xs[i])
    ensures DecodeItems(clock, fmt, EncodeItems(clock, fmt, xs)) == Ok(ListedItems(xs))
    decreases xs, 0
  {
    var ys := EncodeItems(clock, fmt, xs);
    forall i | 0 <= i < |xs| ensures DecodeTree(clock, fmt, ys[i]) == Ok(Listed(xs[i])) {
      TreeRoundTrip(clock, fmt, xs[i]);
    }
    assert DecodeItems(clock, fmt, ys).value == ListedItems(xs);
  }

  lemma {:induction false} EntriesRoundTrip(clock: Clock, fmt: string, es: seq<Pair<Obj>>)
    requires Inverse(clock) && forall i :: 0 <= i < |es| ==> TagFree(es[i].val)
    requires Tag !in Keys(es)
    ensures DecodeTree(clock, fmt, DictObj(EncodeEntries(clock, fmt, es))) == Ok(DictObj(ListedEntries(es)))
    decreases es, 0
  {
    var fs := EncodeEntries(clock, fmt, es);
    var ls := ListedEntries(es);
    forall i | 0 <= i < |es| ensures DecodeTree(clock, fmt, fs[i].val) == Ok(ls[i].val) {
      TreeRoundTrip(clock, fmt, es[i].val);
    }
    var ds := DecodeEntries(clock, fmt, fs).value;
    forall i | 0 <= i < |es| ensures ds[i] == ls[i] {
      assert Keys(ds)[i] == Keys(es)[i] == Keys(ls)[i];
    }
    assert ds == ls;
  }

  // ----- serialize / deserialize -----

  /** `serialize(obj, datetime_fmt)`: flatten the record, then pack with the encoder. */
  function Serialize(clock: Clock, fmt: string, o: Obj): (r: Result<Obj>)
    ensures r.Ok? <==> o.RecordObj?
  {
    var d :- AsDict(o);
    Ok(EncodeTree(clock, fmt, d))
  }

  /** `deserialize(cls, dump, datetime_fmt)`: unpack with the decoder, then convert. */
  function Deserialize(clock: Clock, fmt: string, ty: Ty, msg: Obj): Result<Obj> {
    var d :- DecodeTree(clock, fmt, msg);
    AsClass(ty, d)
  }

  /** A well-declared record whose flattened form is tag-free, and which
      holds tuples only where `Tuple` is declared, comes back unchanged from
      `deserialize(cls, serialize(obj))` with the same format. */
  lemma SerializeRoundTrip(clock: Clock, fmt: string, d: RecordDecl, o: Obj)
    requires Inverse(clock) && Conforms(RecordT(d), o) && NoLooseTuple(RecordT(d), o)
    requires TagFree(AsDictInner(o))
    ensures Serialize(clock, fmt, o).Ok?
    ensures Deserialize(clock, fmt, RecordT(d), Serialize(clock, fmt, o).value) == Ok(o)
  {
    var x := AsDictInner(o);
    TreeRoundTrip(clock, fmt, x);
    LooseTupleFlatten(RecordT(d), o);
    ListedAsClass(RecordT(d), x);
    RoundTrip(RecordT(d), o);
  }

  /** A tuple held where nothing is declared comes back as a list:
      `R(x=(1,))` with `x: Any` deserializes to `R(x=[1])`. */
  lemma UndeclaredTupleComesBackAsList(clock: Clock, fmt: string)
    ensures var d := RecordDecl("R", [FieldDecl("x", Any, [], None)]);
      Conforms(RecordT(d), RecordObj(d, [TupleObj([Prim(Int(1))])]))
    ensures var d := RecordDecl("R", [FieldDecl("x", Any, [], None)]);
      !NoLooseTuple(RecordT(d), RecordObj(d, [TupleObj([Prim(Int(1))])]))
    ensures var d := RecordDecl("R", [FieldDecl("x", Any, [], None)]);
      var o := RecordObj(d, [TupleObj([Prim(Int(1))])]);
      && Serialize(clock, fmt, o).Ok?
      && Deserialize(clock, fmt, RecordT(d), Serialize(clock, fmt, o).value)
         == Ok(RecordObj(d, [ListObj([Prim(Int(1))])]))
  {
    var d := RecordDecl("R", [FieldDecl("x", Any, [], None)]);
    var one := [Prim(Int(1))];
    var o := RecordObj(d, [TupleObj(one)]);
    var msg := DictObj([Pair("x", ListObj(one))]);
    assert Conforms(RecordT(d), o) by {
      assert WellDeclared(d) && RecordFree(o.values[0]);
    }
    assert !NoLooseTuple(RecordT(d), o) by {
      assert !TupleFree(o.values[0]);
    }
    SampleSerialize(clock, fmt, d, one);
    SampleDecode(clock, fmt, msg, one);
    SampleAsClass(d, one);
    assert Deserialize(clock, fmt, RecordT(d), msg) == AsClass(RecordT(d), msg);
  }

  /** `serialize(R(x=(1,)))` packs `{"x": [1]}`. */
  lemma SampleSerialize(clock: Clock, fmt: string, d: RecordDecl, one: seq<Obj>)
    requires d == RecordDecl("R", [FieldDecl("x", Any, [], None)]) && one == [Prim(Int(1))]
    ensures Serialize(clock, fmt, RecordObj(d, [TupleObj(one)])) == Ok(DictObj([Pair("x", ListObj(one))]))
  {
    var o := RecordObj(d, [TupleObj(one)]);
    assert ExternalName(d.fields[0]) == "x" by {
      assert Lookup(d.fields[0].metadata, "property") == None;
    }
    assert AsDictInner(TupleObj(one)) == TupleObj(one) by {
      assert InnerItems(one) == one;
    }
    FlattenWellDeclared(d, o.values);
    var x := DictObj([Pair("x", TupleObj(one))]);
    assert AsDictInner(o) == x;
    assert EncodeItems(clock, fmt, one) == one;
    assert EncodeEntries(clock, fmt, x.entries) == [Pair("x", ListObj(one))];
  }

  /** Unpacking `{"x": [1]}` leaves it as it is. */
  lemma SampleDecode(clock: Clock, fmt: string, msg: Obj, one: seq<Obj>)
    requires one == [Prim(Int(1))] && msg == DictObj([Pair("x", ListObj(one))])
    ensures DecodeTree(clock, fmt, msg) == Ok(msg)
  {
    assert DecodeItems(clock, fmt, one) == Ok(one) by {
      assert DecodeTree(clock, fmt, one[0]) == Ok(one[0]);
      var r := DecodeItems(clock, fmt, one).value;
      assert |r| == 1 && r[0] == one[0];
      assert r == one;
    }
    assert DecodeTree(clock, fmt, ListObj(one)) == Ok(ListObj(one));
    assert DecodeEntries(clock, fmt, msg.entries) == Ok(msg.entries) by {
      var r := DecodeEntries(clock, fmt, msg.entries).value;
      assert |r| == |Keys(r)| == 1 && r[0].key == Keys(r)[0] == "x" && r[0].val == ListObj(one);
      assert r == msg.entries;
    }
    assert Keys(msg.entries) == ["x"];
  }

  /** `asclass(R, {"x": [1]})` is `R(x=[1])`. */
  lemma SampleAsClass(d: RecordDecl, one: seq<Obj>)
    requires d == RecordDecl("R", [FieldDecl("x", Any, [], None)]) && one == [Prim(Int(1))]
    ensures AsClass(RecordT(d), DictObj([Pair("x", ListObj(one))])) == Ok(RecordObj(d, [ListObj(one)]))
  {
    var es := [Pair("x", ListObj(one))];
    assert ExternalName(d.fields[0]) == "x" by {
      assert Lookup(d.fields[0].metadata, "property") == None;
    }
    PropertiesDistinct(d.fields, 0);
    var kw := map["x" := ListObj(one)];
    assert KwArgs(RecordT(d), es) == Ok(kw) by {
      assert es[..0] == [];
    }
    assert Construct(d.fields, kw) == Ok([ListObj(one)]) by {
      assert d.fields[0].name in kw;
      assert Construct(d.fields, kw).Ok?;
      var r := Construct(d.fields, kw).value;
      assert |r| == 1 && r[0] == ListObj(one);
      assert r == [ListObj(one)];
    }
  }

  // ----- tuples on the wire -----

  /** Tuples only where `Tuple` is declared: where nothing is declared
      (`Any`) the value is tuple-free. */
  predicate NoLooseTuple(ty: Ty, o: Obj)
    decreases ty
  {
    match ty
    case Any => TupleFree(o)
    case ListOf(e) => (o.ListObj? || o.TupleObj?) ==> forall i :: 0 <= i < |o.items| ==> NoLooseTuple(e, o.items[i])
    case TupleOf(e) => (o.ListObj? || o.TupleObj?) ==> forall i :: 0 <= i < |o.items| ==> NoLooseTuple(e, o.items[i])
    case DictOf(v) => o.DictObj? ==> forall i :: 0 <= i < |o.entries| ==> NoLooseTuple(v, o.entries[i].val)
    case RecordT(d) =>
      o.RecordObj? ==> forall i :: 0 <= i < |d.fields| && i < |o.values| ==> NoLooseTuple(d.fields[i].ty, o.values[i])
  }

  /** The same on flattened data: each value is judged by the type
      `asclass` will convert it with, and keys that name no field are free. */
  predicate WireFits(ty: Ty, x: Obj)
    decreases ty
  {
    match ty
    case Any => TupleFree(x)
    case ListOf(e) => (x.ListObj? || x.TupleObj?) ==> forall i :: 0 <= i < |x.items| ==> WireFits(e, x.items[i])
    case TupleOf(e) => (x.ListObj? || x.TupleObj?) ==> forall i :: 0 <= i < |x.items| ==> WireFits(e, x.items[i])
    case DictOf(v) => x.DictObj? ==> forall i :: 0 <= i < |x.entries| ==> WireFits(v, x.entries[i].val)
    case RecordT(d) =>
      x.DictObj? ==> forall i :: 0 <= i < |x.entries| && x.entries[i].key in Properties(d.fields) ==>
        WireFits(d.fields[Properties(d.fields)[x.entries[i].key]].ty, x.entries[i].val)
  }

  /** Flattening a conforming value without loose tuples gives fitting data. */
  lemma {:induction false} LooseTupleFlatten(ty: Ty, o: Obj)
    requires Conforms(ty, o) && NoLooseTuple(ty, o)
    ensures WireFits(ty, AsDictInner(o))
    decreases ty
  {
    match ty
    case Any =>
      FlattenRecordFree(o);
    case ListOf(e) =>
      forall i | 0 <= i < |o.items| ensures WireFits(e, InnerItems(o.items)[i]) {
        LooseTupleFlatten(e, o.items[i]);
      }
    case TupleOf(e) =>
      forall i | 0 <= i < |o.items| ensures WireFits(e, InnerItems(o.items)[i]) {
        LooseTupleFlatten(e, o.items[i]);
      }
    case DictOf(v) =>
      forall i | 0 <= i < |o.entries| ensures WireFits(v, InnerEntries(o.entries)[i].val) {
        LooseTupleFlatten(v, o.entries[i].val);
      }
    case RecordT(d) =>
      var ps := RecordPairs(d.fields, o.values);
      FlattenWellDeclared(d, o.values);
      assert AsDictInner(o) == DictObj(ps);
      forall i | 0 <= i < |ps| && ps[i].key in Properties(d.fields)
        ensures WireFits(d.fields[Properties(d.fields)[ps[i].key]].ty, ps[i].val)
      {
        PropertiesDistinct(d.fields, i);
        LooseTupleFlatten(d.fields[i].ty, o.values[i]);
      }
  }

  /** On fitting data, converting what came back from the wire is
      converting what was sent. */
  lemma {:induction false} ListedAsClass(ty: Ty, x: Obj)
    requires WireFits(ty, x)
    ensures AsClass(ty, Listed(x)) == AsClass(ty, x)
    decreases ty, 2
  {
    match ty
    case Any =>
      ListedTupleFree(x);
    case ListOf(e) =>
      ListedIterate(e, x);
    case TupleOf(e) =>
      ListedIterate(e, x);
    case DictOf(v) =>
      ListedDict(ty, x);
    case RecordT(d) =>
      ListedRecord(ty, x);
  }

  /** The dict case of `ListedAsClass`. */
  lemma {:induction false} ListedDict(ty: Ty, x: Obj)
    requires ty.DictOf? && WireFits(ty, x)
    ensures AsClass(ty, Listed(x)) == AsClass(ty, x)
    decreases ty, 1
  {
    if x.DictObj? {
      var es := x.entries;
      forall i | 0 <= i < |es| ensures AsClass(ty.val, ListedEntries(es)[i].val) == AsClass(ty.val, es[i].val) {
        ListedAsClass(ty.val, es[i].val);
      }
      ConvertValuesSame(ty.val, ListedEntries(es), es);
    }
  }

  /** The record case of `ListedAsClass`. */
  lemma {:induction false} ListedRecord(ty: Ty, x: Obj)
    requires ty.RecordT? && WireFits(ty, x)
    ensures AsClass(ty, Listed(x)) == AsClass(ty, x)
    decreases ty, 1
  {
    if x.DictObj? {
      ListedFields(ty, x.entries);
      KwArgsSame(ty, ListedEntries(x.entries), x.entries);
    }
  }

  /** Entry by entry, listing keeps the key and, for a key that names a
      field, the field's conversion. */
  lemma {:induction false} ListedFields(ty: Ty, es: seq<Pair<Obj>>)
    requires ty.RecordT? && WireFits(ty, DictObj(es))
    ensures var ls := ListedEntries(es);
      forall i :: 0 <= i < |es| ==> ls[i].key == es[i].key
    ensures var ls := ListedEntries(es); var props := Properties(ty.decl.fields);
      forall i :: 0 <= i < |es| && es[i].key in props ==>
        AsClass(ty.decl.fields[props[es[i].key]].ty, ls[i].val) == AsClass(ty.decl.fields[props[es[i].key]].ty, es[i].val)
    decreases ty, 0
  {
    var ls := ListedEntries(es);
    var props := Properties(ty.decl.fields);
    forall i | 0 <= i < |es| && es[i].key in props
      ensures AsClass(ty.decl.fields[props[es[i].key]].ty, ls[i].val) == AsClass(ty.decl.fields[props[es[i].key]].ty, es[i].val)
    {
      ListedAsClass(ty.decl.fields[props[es[i].key]].ty, es[i].val);
    }
    forall i | 0 <= i < |es| ensures ls[i].key == es[i].key {
      assert Keys(ls)[i] == Keys(es)[i];
    }
  }

  /** The list and tuple cases of `ListedAsClass`: iteration sees the same
      elements up to listing, or the same keys of a dict. */
  lemma {:induction false} ListedIterate(e: Ty, x: Obj)
    requires WireFits(ListOf(e), x)
    ensures AsClass(ListOf(e), Listed(x)) == AsClass(ListOf(e), x)
    ensures AsClass(TupleOf(e), Listed(x)) == AsClass(TupleOf(e), x)
    decreases e, 3
  {
    if x.ListObj? || x.TupleObj? {
      var xs := x.items;
      forall i | 0 <= i < |xs| ensures AsClass(e, ListedItems(xs)[i]) == AsClass(e, xs[i]) {
        ListedAsClass(e, xs[i]);
      }
      ConvertAllSame(e, ListedItems(xs), xs);
    } else if x.DictObj? {
      var es := x.entries;
      var ls := ListedEntries(es);
      forall i | 0 <= i < |es| ensures ls[i].key == es[i].key {
        assert Keys(ls)[i] == Keys(es)[i];
      }
      var a := Iterate(DictObj(ls)).value;
      var b := Iterate(x).value;
      assert |a| == |b|;
      forall i | 0 <= i < |a| ensures a[i] == b[i] {
      }
      assert a == b;
    }
  }

  /** Element-wise equal conversions convert the sequences equally. */
  lemma {:induction false} ConvertAllSame(e: Ty, xs: seq<Obj>, ys: seq<Obj>)
    requires |xs| == |ys| && forall i :: 0 <= i < |xs| ==> AsClass(e, xs[i]) == AsClass(e, ys[i])
    ensures ConvertAll(e, xs) == ConvertAll(e, ys)
  {
    if xs != [] {
      ConvertAllSame(e, xs[1..], ys[1..]);
    }
  }

  lemma {:induction false} ConvertValuesSame(v: Ty, es: seq<Pair<Obj>>, fs: seq<Pair<Obj>>)
    requires Keys(es) == Keys(fs) && forall i :: 0 <= i < |es| ==> AsClass(v, es[i].val) == AsClass(v, fs[i].val)
    ensures ConvertValues(v, es) == ConvertValues(v, fs)
  {
    if es != [] {
      assert es[0].key == Keys(es)[0] == Keys(fs)[0] == fs[0].key;
      ConvertValuesSame(v, es[1..], fs[1..]);
    }
  }

  /** Keyword arguments agree when keys agree and every field's conversion does. */
  lemma {:induction false} KwArgsSame(ty: Ty, es: seq<Pair<Obj>>, fs: seq<Pair<Obj>>)
    requires ty.RecordT? && |es| == |fs|
    requires forall i :: 0 <= i < |es| ==> es[i].key == fs[i].key
    requires forall i :: 0 <= i < |es| && es[i].key in Properties(ty.decl.fields) ==>
      var f := ty.decl.fields[Properties(ty.decl.fields)[es[i].key]];
      AsClass(f.ty, es[i].val) == AsClass(f.ty, fs[i].val)
    ensures KwArgs(ty, es) == KwArgs(ty, fs)
    decreases |es|
  {
    if es != [] {
      KwArgsSame(ty, es[..|es| - 1], fs[..|fs| - 1]);
    }
  }

  // ----- the deferred deserialize of the layer generation -----

  /** What `deserialize` answers: a value, or a decoder still waiting for its payload. */
  datatype Decoding = Decoded(value: Obj) | Deferred(ty: Ty)

  /** `deserialize(cls, dump=None, accept_none=False, datetime_fmt=...)` of
      quiver: without a payload it hands back `partial(deserialize, cls,
      accept_none=True)`; a missing payload that is accepted reaches
      `unpackb(None)`, which raises. */
  function DeserializeLayer(clock: Clock, ty: Ty, dump: Option<Obj>, acceptNone: bool, fmt: string): (r: Result<Decoding>)
    ensures dump.None? && !acceptNone ==> r == Ok(Deferred(ty))
    ensures dump.None? && acceptNone ==> r == Err(TypeError)
    ensures dump.Some? ==> (r.Ok? <==> Deserialize(clock, fmt, ty, dump.value).Ok?)
    ensures dump.Some? && r.Ok? ==> r.value == Decoded(Deserialize(clock, fmt, ty, dump.value).value)
  {
    if dump.None? && !acceptNone then Ok(Deferred(ty))
    else if dump.None? then Err(TypeError)
    else
      var v :- Deserialize(clock, fmt, ty, dump.value);
      Ok(Decoded(v))
  }

  /** Calling the deferred decoder: the partial carries the class and
      `accept_none=True` only, so the datetime format is the default one. */
  function Resume(clock: Clock, waiting: Decoding, dump: Option<Obj>): Result<Decoding>
    requires waiting.Deferred?
  {
    DeserializeLayer(clock, waiting.ty, dump, true, DefaultFormat)
  }

  /** Deferring and then supplying the payload decodes it as a direct call
      with the default format would; supplying nothing raises. */
  lemma DeferredDecode(clock: Clock, ty: Ty, fmt: string, msg: Obj)
    ensures var w := DeserializeLayer(clock, ty, None, false, fmt);
      && w.Ok? && w.value.Deferred?
      && Resume(clock, w.value, Some(msg)) == DeserializeLayer(clock, ty, Some(msg), false, DefaultFormat)
      && Resume(clock, w.value, None) == Err(TypeError)
  {
  }
}

=== FILE: merge.dfy ===
/** The deep partial merge behind `Config.__update(data, partial=True)`
    (`partial_update` in `build/lib/lescode/config/pool.py`).

    The merge walks the patch in order. A key whose old and new values are
    both dicts is merged recursively; any other key takes the patch value
    wholesale, so lists and tuples are replaced, never merged element-wise.
    Keys only in the origin keep their values; new keys are appended. The
    origin is a value and is never changed. */
module Merge {
  import opened Wrappers
  import opened Assoc
  import opened Value

  /** The value key `k` ends up with when the patch holds `v` for it and the
      table being updated holds `cur`. */
  function Merged(cur: Option<Val>, v: Val): Val
    decreases v, 1
  {
    if cur.Some? && cur.value.Dict? && v.Dict? then Dict(PartialUpdate(cur.value.entries, v.entries))
    else v
  }

  function PartialUpdate(origin: Entries, data: Entries): (r: Entries)
    decreases data, 0
    ensures forall k :: k in Keys(r) <==> k in Keys(origin) || k in Keys(data)
    ensures forall k :: k !in Keys(data) ==> Lookup(r, k) == Lookup(origin, k)
    ensures UniqueKeys(origin) ==> UniqueKeys(r)
  {
    if data == [] then origin
    else
      var k := data[0].key;
      PartialUpdate(Put(origin, k, Merged(Lookup(origin, k), data[0].val)), data[1..])
  }

  /** The key order of a merge result: the origin's keys, then the patch's new
      keys in patch order. */
  function AppendNew(ks: seq<string>, ds: seq<string>): seq<string>
    decreases ds
  {
    if ds == [] then ks
    else AppendNew(if ds[0] in ks then ks else ks + [ds[0]], ds[1..])
  }

  lemma {:induction false} AppendNewCovered(ks: seq<string>, ds: seq<string>)
    requires forall j :: 0 <= j < |ds| ==> ds[j] in ks
    ensures AppendNew(ks, ds) == ks
  {
    if ds != [] {
      AppendNewCovered(ks, ds[1..]);
    }
  }

  lemma {:induction false} AppendNewMembers(ks: seq<string>, ds: seq<string>)
    ensures forall x :: x in AppendNew(ks, ds) <==> x in ks || x in ds
    decreases ds
  {
    if ds != [] {
      AppendNewMembers(if ds[0] in ks then ks else ks + [ds[0]], ds[1..]);
      assert ds == [ds[0]] + ds[1..];
    }
  }

  lemma {:induction false} UpdateKeyOrder(origin: Entries, data: Entries)
    ensures Keys(PartialUpdate(origin, data)) == AppendNew(Keys(origin), Keys(data))
    decreases data
  {
    if data != [] {
      var k := data[0].key;
      UpdateKeyOrder(Put(origin, k, Merged(Lookup(origin, k), data[0].val)), data[1..]);
      assert Keys(data) == [k] + Keys(data[1..]);
    }
  }

  /** Key by key: a patch key takes the patch value unless both sides hold
      dicts, in which case it holds their merge; other keys are untouched. */
  lemma {:induction false} UpdateLookup(origin: Entries, data: Entries, k: string)
    requires UniqueKeys(data)
    ensures Lookup(PartialUpdate(origin, data), k)
         == if k in Keys(data) then Some(Merged(Lookup(origin, k), Lookup(data, k).value))
            else Lookup(origin, k)
    decreases data
  {
    if data != [] {
      var k0 := data[0].key;
      var o' := Put(origin, k0, Merged(Lookup(origin, k0), data[0].val));
      assert UniqueKeys(data[1..]);
      assert k0 !in Keys(data[1..]) by {
        forall j | 0 <= j < |data[1..]| ensures Keys(data[1..])[j] != k0 {
          assert data[1..][j] == data[j + 1];
        }
      }
      assert Keys(data) == [k0] + Keys(data[1..]);
      UpdateLookup(o', data[1..], k);
    }
  }

  /** The keys of `partial_update(o, d)` are exactly those of `o` and `d`, in
      the order the dict assignments produce. */
  lemma UpdateKeys(origin: Entries, data: Entries)
    ensures forall k :: k in Keys(PartialUpdate(origin, data)) <==> k in Keys(origin) || k in Keys(data)
    ensures Keys(PartialUpdate(origin, data)) == AppendNew(Keys(origin), Keys(data))
  {
    UpdateKeyOrder(origin, data);
  }

  /** The per-key outcome, stated case by case. */
  lemma UpdateValues(origin: Entries, data: Entries, k: string)
    requires UniqueKeys(data)
    ensures k !in Keys(data) ==> Lookup(PartialUpdate(origin, data), k) == Lookup(origin, k)
    ensures k in Keys(data) && !(Lookup(origin, k).Some? && Lookup(origin, k).value.Dict? && Lookup(data, k).value.Dict?)
            ==> Lookup(PartialUpdate(origin, data), k) == Lookup(data, k)
    ensures k in Keys(data) && Lookup(origin, k).Some? && Lookup(origin, k).value.Dict? && Lookup(data, k).value.Dict?
            ==> Lookup(PartialUpdate(origin, data), k)
                == Some(Dict(PartialUpdate(Lookup(origin, k).value.entries, Lookup(data, k).value.entries)))
  {
    UpdateLookup(origin, data, k);
  }

  /** When two patches are applied in turn, a key both set to a non-dict value
      ends with the second patch's value. */
  lemma LastWriteWins(origin: Entries, a: Entries, b: Entries, k: string)
    requires UniqueKeys(a) && UniqueKeys(b)
    requires k in Keys(a) && k in Keys(b) && !Lookup(b, k).value.Dict?
    ensures Lookup(PartialUpdate(PartialUpdate(origin, a), b), k) == Lookup(b, k)
  {
    UpdateLookup(PartialUpdate(origin, a), b, k);
  }

  /** An empty patch changes nothing. */
  lemma EmptyPatch(origin: Entries)
    ensures PartialUpdate(origin, []) == origin
  {
  }

  /** Merging a table into itself gives the table back. */
  lemma {:induction false} SelfMerge(b: Entries)
    requires DeepUniqueEntries(b)
    ensures PartialUpdate(b, b) == b
    decreases b, 1
  {
    var r := PartialUpdate(b, b);
    UpdateKeyOrder(b, b);
    AppendNewCovered(Keys(b), Keys(b));
    forall k ensures Lookup(r, k) == Lookup(b, k) {
      SelfMergeAt(b, k);
    }
    Extensionality(r, b);
  }

  lemma {:induction false} SelfMergeAt(b: Entries, k: string)
    requires DeepUniqueEntries(b)
    ensures Lookup(PartialUpdate(b, b), k) == Lookup(b, k)
    decreases b, 0
  {
    UpdateLookup(b, b, k);
    if k in Keys(b) {
      var i := IndexOf(b, k);
      LookupFirst(b, k);
      SelfMergedValue(b[i].val);
    }
  }

  /** A value merged into itself is unchanged. */
  lemma {:induction false} SelfMergedValue(v: Val)
    requires DeepUnique(v)
    ensures Merged(Some(v), v) == v
    decreases v, 2
  {
    if v.Dict? {
      SelfMerge(v.entries);
    }
  }

  lemma {:induction false} MergedIdempotent(cur: Option<Val>, v: Val)
    requires DeepUnique(v)
    requires cur.Some? ==> DeepUnique(cur.value)
    ensures Merged(Some(Merged(cur, v)), v) == Merged(cur, v)
    decreases v, 1
  {
    if v.Dict? {
      if cur.Some? && cur.value.Dict? {
        Idempotent(cur.value.entries, v.entries);
      } else {
        SelfMerge(v.entries);
      }
    }
  }

  /** Applying the same patch twice is the same as applying it once. */
  lemma {:induction false} Idempotent(origin: Entries, data: Entries)
    requires DeepUniqueEntries(origin) && DeepUniqueEntries(data)
    ensures PartialUpdate(PartialUpdate(origin, data), data) == PartialUpdate(origin, data)
    decreases data, 0
  {
    var once := PartialUpdate(origin, data);
    var twice := PartialUpdate(once, data);
    UpdateKeyOrder(once, data);
    UpdateKeyOrder(origin, data);
    AppendNewMembers(Keys(origin), Keys(data));
    AppendNewCovered(Keys(once), Keys(data));
    forall k ensures Lookup(twice, k) == Lookup(once, k) {
      UpdateLookup(once, data, k);
      UpdateLookup(origin, data, k);
      if k in Keys(data) {
        var i := IndexOf(data, k);
        LookupFirst(data, k);
        var cur := Lookup(origin, k);
        if cur.Some? {
          var j := IndexOf(origin, k);
          LookupFirst(origin, k);
        }
        MergedIdempotent(cur, data[i].val);
      }
    }
    Extensionality(twice, once);
  }
}

=== FILE: namespace.dfy ===
/** The attribute-style view over nested data (`lescode/namespace/namespace.py`)
    and its read-only predecessor, the layer (`quiver/config/layer.py`).

    `asclass` wraps a dict into a view, wrapping nested dicts and turning lists
    into tuples; `asdict` flattens a view back into a dict. Views are values
    here: an assignment yields a new view instead of changing the old one. */
module Namespace {
  import opened Wrappers
  import opened Assoc
  import opened Value

  /** How `asclass` treats one value: a dict is wrapped (handing `frozen` down),
      a list becomes a tuple of treated elements, anything else is kept. */
  function Parse(v: Val, frozen: bool): Val
    decreases v, 0
  {
    match v
    case Dict(es) => View(ParseEntries(es, frozen), frozen)
    case List(xs) => Tuple(ParseItems(xs, frozen))
    case _ => v
  }

  function ParseItems(xs: seq<Val>, frozen: bool): (r: seq<Val>)
    decreases xs, 0
    ensures |r| == |xs|
    ensures forall i :: 0 <= i < |xs| ==> r[i] == Parse(xs[i], frozen)
  {
    if xs == [] then [] else [Parse(xs[0], frozen)] + ParseItems(xs[1..], frozen)
  }

  function ParseEntries(es: Entries, frozen: bool): (r: Entries)
    decreases es, 0
    ensures Keys(r) == Keys(es)
    ensures forall i :: 0 <= i < |es| ==> r[i].val == Parse(es[i].val, frozen)
  {
    if es == [] then []
    else [Pair(es[0].key, Parse(es[0].val, frozen))] + ParseEntries(es[1..], frozen)
  }

  /** Looking a key up in a treated table finds the treated value. */
  lemma {:induction false} LookupParse(es: Entries, frozen: bool, k: string)
    ensures Lookup(ParseEntries(es, frozen), k)
         == if k in Keys(es) then Some(Parse(Lookup(es, k).value, frozen)) else None
  {
    if es != [] {
      var r := ParseEntries(es, frozen);
      assert r[1..] == ParseEntries(es[1..], frozen);
      LookupParse(es[1..], frozen, k);
    }
  }

  /** `asclass(data, frozen=...)` on a dict. */
  function Wrap(es: Entries, frozen: bool): Val {
    View(ParseEntries(es, frozen), frozen)
  }

  /** `data.items()`: a dict's pairs, or a view's keys each with the value its
      first-occurrence lookup finds; other values have no `items()`. */
  function ItemsOf(data: Val): (r: Option<Entries>)
    ensures r.Some? <==> data.Dict? || data.View?
    ensures r.Some? ==> forall k :: Lookup(r.value, k) == Lookup(data.entries, k)
  {
    match data
    case Dict(es) => Some(es)
    case View(es, _) => Some(Dedup(es))
    case _ => None
  }

  /** `asclass` on whatever it is handed: a falsy argument (`None`, `{}`, ...)
      gives an empty view; a truthy mapping is wrapped; any other truthy value
      has no `items()`. */
  function AsClass(data: Val, frozen: bool): (r: Result<Val>)
    ensures r.Ok? ==> r.value.View? && r.value.frozen == frozen
    ensures !Truthy(data) ==> r.Ok? && Len(r.value) == 0
    ensures data.Dict? ==> r == Ok(Wrap(data.entries, frozen))
    ensures r.Err? <==> Truthy(data) && !data.Dict? && !data.View?
    ensures r.Err? ==> r.error == AttributeError
  {
    if !Truthy(data) then Ok(View([], frozen))
    else
      match ItemsOf(data)
      case Some(es) => Ok(Wrap(es, frozen))
      case None => Err(AttributeError)
  }

  /** How `asdict` treats one value of a view: nested views are flattened and
      the elements of a tuple are treated by `FlatItem`; the rest is kept. */
  function Flat(v: Val): Val
    decreases v, 0
  {
    match v
    case View(es, _) => Dict(AsDict(es))
    case Tuple(xs) => Tuple(FlatItems(xs))
    case _ => v
  }

  /** A tuple element is flattened only when it is itself a view: tuples nested
      in tuples are left as they are. */
  function FlatItem(v: Val): Val
    decreases v, 0
  {
    if v.View? then Dict(AsDict(v.entries)) else v
  }

  function FlatItems(xs: seq<Val>): (r: seq<Val>)
    decreases xs, 0
    ensures |r| == |xs|
    ensures forall i :: 0 <= i < |xs| ==> r[i] == FlatItem(xs[i])
  {
    if xs == [] then [] else [FlatItem(xs[0])] + FlatItems(xs[1..])
  }

  function FlatEntries(es: Entries): (r: Entries)
    decreases es, 0
    ensures Keys(r) == Keys(es)
    ensures forall i :: 0 <= i < |es| ==> r[i].val == Flat(es[i].val)
  {
    if es == [] then []
    else [Pair(es[0].key, Flat(es[0].val))] + FlatEntries(es[1..])
  }

  /** `asdict` of a view whose table is `es`: a dict comprehension over the
      view's keys, so a repeated layer key appears once, with its first value. */
  function AsDict(es: Entries): (r: Entries)
    decreases es, 1
    ensures UniqueKeys(r)
    ensures forall k :: k in Keys(r) <==> k in Keys(es)
  {
    Dedup(FlatEntries(es))
  }

  lemma {:induction false} FlatLookup(es: Entries, k: string)
    ensures Lookup(FlatEntries(es), k)
         == if k in Keys(es) then Some(Flat(Lookup(es, k).value)) else None
  {
    if es != [] && es[0].key != k {
      FlatLookup(es[1..], k);
    }
  }

  /** Every key of the flattened view holds its first value, flattened. */
  lemma AsDictLookup(es: Entries, k: string)
    ensures Lookup(AsDict(es), k)
         == if k in Keys(es) then Some(Flat(Lookup(es, k).value)) else None
  {
    FlatLookup(es, k);
  }

  /** `view[k]` (and `getattr(view, k)` for a data key): the first pair with
      the key, or `AttributeError`. */
  function GetItem(view: Val, k: string): (r: Result<Val>)
    requires view.View?
    ensures r.Ok? <==> Contains(view, k)
    ensures r.Ok? ==> r.value == view.entries[IndexOf(view.entries, k)].val
    ensures r.Err? ==> r.error == AttributeError
  {
    if k in Keys(view.entries) then
      LookupFirst(view.entries, k);
      Ok(Lookup(view.entries, k).value)
    else Err(AttributeError)
  }

  /** `k in view` */
  predicate Contains(view: Val, k: string)
    requires view.View?
  {
    k in Keys(view.entries)
  }

  /** `len(view)` */
  function Len(view: Val): nat
    requires view.View?
  {
    |view.entries|
  }

  /** `list(view)`: the keys in table order. */
  function Iter(view: Val): seq<string>
    requires view.View?
  {
    Keys(view.entries)
  }

  /** The class a view was built by: the read-only quiver `Layer`, or the
      lescode `Namespace`. */
  datatype Builder = LayerClass | NamespaceClass

  /** `view[k] = x`. A quiver layer defines no `__setitem__`, so the
      assignment raises `TypeError`. A namespace (where `view.k = x` goes
      through `__setitem__` too) refuses when frozen; otherwise the key is
      bound to `x`, in place when present and appended when new. */
  function SetItem(builder: Builder, view: Val, k: string, x: Val): (r: Result<Val>)
    requires view.View?
    ensures builder.LayerClass? ==> r == Err(TypeError)
    ensures builder.NamespaceClass? && view.frozen ==> r == Err(Frozen)
    ensures builder.NamespaceClass? && !view.frozen ==> r.Ok? && r.value.View? && !r.value.frozen
    ensures r.Ok? ==> GetItem(r.value, k) == Ok(x)
    ensures r.Ok? ==> forall k' :: k' != k ==> Lookup(r.value.entries, k') == Lookup(view.entries, k')
    ensures r.Ok? ==> Iter(r.value) == if Contains(view, k) then Iter(view) else Iter(view) + [k]
  {
    if builder.LayerClass? then Err(TypeError)
    else if view.frozen then Err(Frozen)
    else
      var t := Put(view.entries, k, x);
      LookupFirst(t, k);
      Ok(View(t, false))
  }

  // ----- properties of asclass -----

  /** The view `asclass` builds keeps the dict's keys in order: `len`, `in`
      and iteration agree with the dict, and each key holds its treated value. */
  lemma WrapShape(es: Entries, frozen: bool)
    requires UniqueKeys(es)
    ensures var v := Wrap(es, frozen);
      && Len(v) == |es| && Iter(v) == Keys(es)
      && (forall k :: Contains(v, k) <==> k in Keys(es))
      && forall i :: 0 <= i < |es| ==> GetItem(v, es[i].key) == Ok(Parse(es[i].val, frozen))
  {
    var v := Wrap(es, frozen);
    UniqueFromKeys(v.entries, Keys(es));
    UniqueFromKeys(es, Keys(es));
    forall i | 0 <= i < |es| ensures GetItem(v, es[i].key) == Ok(Parse(es[i].val, frozen)) {
      assert v.entries[i].key == es[i].key by { assert Keys(v.entries)[i] == Keys(es)[i]; }
      LookupUnique(v.entries, i);
      LookupFirst(v.entries, es[i].key);
    }
  }

  /** The shape of a wrapped value: no dict and no list is left, and every view
      carries the given `frozen` flag. */
  predicate Wrapped(v: Val, frozen: bool) {
    match v
    case Scalar(_) => true
    case Tuple(xs) => forall i :: 0 <= i < |xs| ==> Wrapped(xs[i], frozen)
    case View(es, f) => f == frozen && forall i :: 0 <= i < |es| ==> Wrapped(es[i].val, frozen)
    case _ => false
  }

  /** `asclass` wraps every dict at every depth, including dicts inside lists,
      turns every list into a tuple, and passes `frozen` down to nested views. */
  lemma {:induction false} ParseWraps(v: Val, frozen: bool)
    requires Plain(v)
    ensures Wrapped(Parse(v, frozen), frozen)
  {
    match v
    case Scalar(_) =>
    case List(xs) =>
      forall i | 0 <= i < |xs| ensures Wrapped(ParseItems(xs, frozen)[i], frozen) {
        ParseWraps(xs[i], frozen);
      }
    case Dict(es) =>
      forall i | 0 <= i < |es| ensures Wrapped(ParseEntries(es, frozen)[i].val, frozen) {
        ParseWraps(es[i].val, frozen);
      }
  }

  lemma WrapWraps(es: Entries, frozen: bool)
    requires PlainEntries(es)
    ensures Wrapped(Wrap(es, frozen), frozen)
  {
    ParseWraps(Dict(es), frozen);
  }

  // ----- asdict after asclass -----

  /** The plain value with every list replaced by a tuple. */
  function Tuplify(v: Val): Val
    decreases v, 0
  {
    match v
    case List(xs) => Tuple(TuplifyItems(xs))
    case Dict(es) => Dict(TuplifyEntries(es))
    case _ => v
  }

  function TuplifyItems(xs: seq<Val>): (r: seq<Val>)
    decreases xs, 0
    ensures |r| == |xs|
    ensures forall i :: 0 <= i < |xs| ==> r[i] == Tuplify(xs[i])
  {
    if xs == [] then [] else [Tuplify(xs[0])] + TuplifyItems(xs[1..])
  }

  function TuplifyEntries(es: Entries): (r: Entries)
    decreases es, 0
    ensures Keys(r) == Keys(es)
    ensures forall i :: 0 <= i < |es| ==> r[i].val == Tuplify(es[i].val)
  {
    if es == [] then []
    else [Pair(es[0].key, Tuplify(es[0].val))] + TuplifyEntries(es[1..])
  }

  /** The data `asdict` restores: no dict sits inside a list that is itself an
      element of a list (`asdict` does not descend into nested tuples). */
  predicate Restorable(v: Val) {
    match v
    case List(xs) => forall i :: 0 <= i < |xs| ==> Restorable(xs[i]) && (xs[i].List? ==> DictFree(xs[i]))
    case Dict(es) => forall i :: 0 <= i < |es| ==> Restorable(es[i].val)
    case _ => true
  }

  lemma {:induction false} ParseDictFree(v: Val, frozen: bool)
    requires Plain(v) && DictFree(v)
    ensures Parse(v, frozen) == Tuplify(v)
  {
    match v
    case Scalar(_) =>
    case List(xs) =>
      forall i | 0 <= i < |xs| ensures ParseItems(xs, frozen)[i] == TuplifyItems(xs)[i] {
        ParseDictFree(xs[i], frozen);
      }
  }

  lemma {:induction false} FlatParse(v: Val, frozen: bool)
    requires Plain(v) && Restorable(v)
    ensures Flat(Parse(v, frozen)) == Tuplify(v)
    ensures FlatItem(Parse(v, frozen)) == Tuplify(v) || v.List?
  {
    match v
    case Scalar(_) =>
    case List(xs) =>
      var ps := ParseItems(xs, frozen);
      forall i | 0 <= i < |xs| ensures FlatItems(ps)[i] == TuplifyItems(xs)[i] {
        if xs[i].List? {
          ParseDictFree(xs[i], frozen);
        } else {
          FlatParse(xs[i], frozen);
        }
      }
    case Dict(es) =>
      FlatParseEntries(es, frozen);
  }

  lemma {:induction false} FlatParseEntries(es: Entries, frozen: bool)
    requires PlainEntries(es) && forall i :: 0 <= i < |es| ==> Restorable(es[i].val)
    ensures AsDict(ParseEntries(es, frozen)) == TuplifyEntries(es)
  {
    var ps := ParseEntries(es, frozen);
    var fs := FlatEntries(ps);
    var ts := TuplifyEntries(es);
    forall i | 0 <= i < |es| ensures fs[i] == ts[i] {
      FlatParse(es[i].val, frozen);
      assert fs[i].key == ts[i].key by {
        assert Keys(fs)[i] == Keys(ts)[i];
      }
    }
    assert fs == ts;
    UniqueFromKeys(es, Keys(es));
    UniqueFromKeys(fs, Keys(es));
  }

  /** Flattening a wrapped dict gives the dict back, with tuples where it had
      lists, whenever no dict hides inside a list nested in a list. */
  lemma RoundTrip(es: Entries, frozen: bool)
    requires PlainEntries(es) && forall i :: 0 <= i < |es| ==> Restorable(es[i].val)
    ensures AsDict(Wrap(es, frozen).entries) == TuplifyEntries(es)
  {
    FlatParseEntries(es, frozen);
  }

  /** Without that condition the round trip fails: `{"a": [[{}]]}` flattens to
      `{"a": ((view,),)}` with the inner view left unflattened. */
  lemma NestedListKeepsView()
    ensures var d := [Pair("a", List([List([Dict([])])]))];
      AsDict(Wrap(d, false).entries) != TuplifyEntries(d)
  {
    var d := [Pair("a", List([List([Dict([])])]))];
    var inner := Tuple([View([], false)]);
    assert ParseEntries([], false) == [];
    assert Parse(Dict([]), false) == View([], false);
    assert ParseItems([Dict([])], false) == [View([], false)];
    assert Parse(List([Dict([])]), false) == inner;
    assert ParseItems([List([Dict([])])], false) == [inner];
    assert Wrap(d, false).entries == [Pair("a", Tuple([inner]))];
    assert FlatItems([inner]) == [inner];
    assert FlatEntries([Pair("a", Tuple([inner]))]) == [Pair("a", Tuple([inner]))];
    assert UniqueKeys([Pair("a", Tuple([inner]))]);
    assert TuplifyItems([Dict([])]) == [Dict([])];
    assert Tuplify(List([Dict([])])) == Tuple([Dict([])]);
    assert TuplifyItems([List([Dict([])])]) == [Tuple([Dict([])])];
    assert TuplifyEntries(d) == [Pair("a", Tuple([Tuple([Dict([])])]))];
  }
}

=== FILE: object_pool.dfy ===
/** The bounded named-object pool of `object_pool` (in `object_pool.py` and
    again in `design_pattern.py`).

    The pool is an insertion-ordered table from names to objects. A get of a
    stored name returns the stored object and changes nothing, so lookups do
    not refresh the order; a get of a new name stores a freshly constructed
    object, first evicting the earliest entry when the pool is full. A
    `max_size` of 0 (or any size the pool can never reach) means no bound. */
module ObjectPool {
  import opened Wrappers
  import opened Assoc

  datatype Pool<T> = Pool(entries: seq<Pair<T>>, maxSize: int, defaultKey: string)

  /** The class-level state right after `object_pool(max_size=..., default_key=...)`. */
  function NewPool<T>(maxSize: int, defaultKey: string): Pool<T> {
    Pool([], maxSize, defaultKey)
  }

  /** A subclass starts with its own empty pool and the same settings. */
  function Subclass<T>(p: Pool<T>): (r: Pool<T>)
    ensures r.entries == [] && r.maxSize == p.maxSize && r.defaultKey == p.defaultKey
  {
    p.(entries := [])
  }

  /** What every reachable pool satisfies: distinct names, and no more than
      `max_size` of them when that is positive. */
  predicate Valid<T>(p: Pool<T>) {
    UniqueKeys(p.entries) && (p.maxSize > 0 ==> |p.entries| <= p.maxSize)
  }

  /** The pool is full: `max_size` is set and reached. */
  predicate Full<T>(p: Pool<T>) {
    p.maxSize != 0 && |p.entries| == p.maxSize
  }

  /** `Pool.get(name, overwrite, **kwargs)`: the pool afterwards, and what the
      call returned or raised. `made` is what the class constructor gives for
      the keyword arguments: the object, or the exception it raised. The
      constructor runs only for a name not yet stored, and only after the
      oldest entry of a full pool has been evicted. */
  function Get<T>(p: Pool<T>, name: Option<string>, overwrite: bool, made: Result<T>): (r: (Pool<T>, Result<T>))
    ensures r.0.maxSize == p.maxSize && r.0.defaultKey == p.defaultKey
    ensures var key := name.GetOr(p.defaultKey);
      && (key in Keys(p.entries) ==> r == (p, Ok(Lookup(p.entries, key).value)))
      && (key !in Keys(p.entries) && Full(p) && !overwrite ==> r == (p, Err(PoolOverflowed)))
      && (key !in Keys(p.entries) && (Full(p) ==> overwrite) ==> r.1 == made)
      && (r.1.Ok? ==> Lookup(r.0.entries, key) == Some(r.1.value))
      && (key !in Keys(p.entries) && (Full(p) ==> overwrite) ==>
            r.0.entries == (if Full(p) then p.entries[1..] else p.entries)
                           + (if made.Ok? then [Pair(key, made.value)] else []))
    ensures r.1.Err? ==> r.1.error == PoolOverflowed || made == Err(r.1.error)
  {
    var key := name.GetOr(p.defaultKey);
    if key in Keys(p.entries) then (p, Ok(Lookup(p.entries, key).value))
    else if Full(p) && !overwrite then (p, Err(PoolOverflowed))
    else
      var kept := if Full(p) then p.entries[1..] else p.entries;
      match made
      case Err(e) => (p.(entries := kept), Err(e))
      case Ok(x) =>
        LookupAppend(kept, Pair(key, x), key);
        (p.(entries := kept + [Pair(key, x)]), Ok(x))
  }

  /** Every get keeps the pool valid, whether it returns or raises: names stay
      distinct and the bound holds. */
  lemma GetKeepsValid<T>(p: Pool<T>, name: Option<string>, overwrite: bool, made: Result<T>)
    requires Valid(p)
    ensures Valid(Get(p, name, overwrite, made).0)
  {
    var key := name.GetOr(p.defaultKey);
    var r := Get(p, name, overwrite, made);
    if key !in Keys(p.entries) && (Full(p) ==> overwrite) {
      var kept := if Full(p) then p.entries[1..] else p.entries;
      if Full(p) {
        UniqueTail(p.entries, key);
      }
      if made.Ok? {
        UniqueAppend(kept, Pair(key, made.value));
        assert r.0.entries == kept + [Pair(key, made.value)];
      } else {
        assert r.0.entries == kept;
      }
    }
  }

  /** Every name other than the requested one and the evicted one keeps its
      object, whether the get returns or raises. */
  lemma GetKeepsOthers<T>(p: Pool<T>, name: Option<string>, overwrite: bool, made: Result<T>, other: string)
    requires Valid(p)
    requires other != name.GetOr(p.defaultKey)
    requires p.entries != [] && Full(p) ==> other != p.entries[0].key
    ensures Lookup(Get(p, name, overwrite, made).0.entries, other) == Lookup(p.entries, other)
  {
    var key := name.GetOr(p.defaultKey);
    if key !in Keys(p.entries) && (Full(p) ==> overwrite) {
      var kept := if Full(p) then p.entries[1..] else p.entries;
      if made.Ok? {
        assert Get(p, name, overwrite, made).0.entries == kept + [Pair(key, made.value)];
        LookupAppend(kept, Pair(key, made.value), other);
      } else {
        assert Get(p, name, overwrite, made).0.entries == kept;
      }
      if Full(p) {
        LookupPastFirst(p.entries, other);
      }
    }
  }

  /** A constructor that raises on a full pool still costs the oldest entry:
      the eviction happens before the constructor runs. */
  lemma FailedConstructionEvicts<T>(p: Pool<T>, name: Option<string>, e: Error)
    requires Valid(p) && Full(p) && p.entries != []
    requires name.GetOr(p.defaultKey) !in Keys(p.entries)
    ensures Get(p, name, true, Err(e)) == (p.(entries := p.entries[1..]), Err(e))
    ensures p.entries[0].key !in Keys(Get(p, name, true, Err(e)).0.entries)
  {
    var q := p.entries[1..];
    forall j | 0 <= j < |q| ensures Keys(q)[j] != p.entries[0].key {
      assert q[j] == p.entries[j + 1];
    }
  }

  /** A lookup of a key other than the first pair's skips that pair. */
  lemma LookupPastFirst<T>(ps: seq<Pair<T>>, k: string)
    requires ps != [] && ps[0].key != k
    ensures Lookup(ps, k) == Lookup(ps[1..], k)
    ensures k in Keys(ps) <==> k in Keys(ps[1..])
  {
    assert Keys(ps) == [ps[0].key] + Keys(ps[1..]);
  }

  /** With `max_size` 0 a get never overflows and a new name is simply
      appended (or nothing changes when the constructor raises). */
  lemma UnboundedNeverEvicts<T>(p: Pool<T>, name: Option<string>, overwrite: bool, made: Result<T>)
    requires p.maxSize == 0
    ensures var key := name.GetOr(p.defaultKey);
      var r := Get(p, name, overwrite, made);
      && (r.1.Err? ==> r == (p, made))
      && (key !in Keys(p.entries) && made.Ok? ==> r.0.entries == p.entries + [Pair(key, made.value)])
  {
  }

  /** A second get of the same name returns the object the first one gave
      and changes nothing, whatever it is asked to construct. */
  lemma GetTwice<T>(p: Pool<T>, name: Option<string>, overwrite: bool, made: Result<T>,
                    overwrite2: bool, made2: Result<T>)
    requires Get(p, name, overwrite, made).1.Ok?
    ensures var (q, x) := Get(p, name, overwrite, made);
      Get(q, name, overwrite2, made2) == (q, x)
  {
    var key := name.GetOr(p.defaultKey);
    var q := Get(p, name, overwrite, made).0;
    assert Lookup(q.entries, key).Some?;
  }

  // ----- FIFO eviction -----

  /** Gets of a run of names, each constructing `made`, with overwrite on. */
  function Fill<T>(p: Pool<T>, names: seq<string>, made: T): Pool<T>
    decreases |names|
  {
    if names == [] then p
    else
      Fill(Get(p, Some(names[0]), true, Ok(made)).0, names[1..], made)
  }

  /** Filling an empty pool of bound `m > 0` with distinct new names keeps
      exactly the last `m` of them, oldest first. */
  lemma {:induction false} FifoEviction<T>(m: nat, key: string, names: seq<string>, made: T)
    requires m > 0
    requires Distinct(names)
    ensures Keys(Fill(NewPool(m, key), names, made).entries) == LastOf(names, m)
  {
    FillKeys(NewPool(m, key), [], names, made);
    assert [] + names == names;
  }

  /** The invariant behind `FifoEviction`: a pool holding the last `m` of
      `done` that then takes `todo` holds the last `m` of `done + todo`. */
  lemma {:induction false} FillKeys<T>(p: Pool<T>, done: seq<string>, todo: seq<string>, made: T)
    requires p.maxSize > 0
    requires Distinct(done + todo)
    requires Keys(p.entries) == LastOf(done, p.maxSize)
    ensures Keys(Fill(p, todo, made).entries) == LastOf(done + todo, p.maxSize)
    decreases |todo|
  {
    var all := done + todo;
    if todo == [] {
      assert all == done;
    } else {
      var k := todo[0];
      var last := LastOf(done, p.maxSize);
      assert k !in last by {
        DistinctSplit(done, todo);
      }
      assert |p.entries| == |last|;
      GetNewKeys(p, k, made);
      var q := Get(p, Some(k), true, Ok(made)).0;
      FillStep(p, todo, made);
      LastOfStep(done, k, p.maxSize);
      assert Keys(q.entries) == LastOf(done + [k], p.maxSize);
      ShiftFirst(done, todo);
      FillKeys(q, done + [k], todo[1..], made);
    }
  }

  lemma FillStep<T>(p: Pool<T>, names: seq<string>, made: T)
    requires names != []
    ensures Fill(p, names, made) == Fill(Get(p, Some(names[0]), true, Ok(made)).0, names[1..], made)
  {
  }

  lemma ShiftFirst(done: seq<string>, todo: seq<string>)
    requires todo != []
    ensures (done + [todo[0]]) + todo[1..] == done + todo
  {
    assert todo == [todo[0]] + todo[1..];
  }

  /** No name occurs twice. */
  predicate Distinct(s: seq<string>) {
    forall i, j :: 0 <= i < j < |s| ==> s[i] != s[j]
  }

  lemma DistinctSplit(done: seq<string>, todo: seq<string>)
    requires Distinct(done + todo) && todo != []
    ensures todo[0] !in done
  {
    var all := done + todo;
    forall j | 0 <= j < |done| ensures done[j] != todo[0] {
      assert all[j] == done[j] && all[|done|] == todo[0];
    }
  }

  /** The last `m` elements of `s` (all of them when there are fewer). */
  function LastOf(s: seq<string>, m: nat): (r: seq<string>)
    ensures |r| <= m && |r| <= |s|
    ensures forall x :: x in r ==> x in s
  {
    if |s| < m then s else s[|s| - m..]
  }

  lemma LastOfStep(s: seq<string>, k: string, m: nat)
    requires m > 0
    ensures LastOf(s + [k], m) == (if |LastOf(s, m)| == m then LastOf(s, m)[1..] else LastOf(s, m)) + [k]
  {
  }

  /** A get of a new name, with overwrite on, in a bounded pool. */
  lemma GetNewKeys<T>(p: Pool<T>, k: string, made: T)
    requires p.maxSize > 0 && |p.entries| <= p.maxSize && k !in Keys(p.entries)
    ensures Get(p, Some(k), true, Ok(made)).1 == Ok(made)
    ensures var q := Get(p, Some(k), true, Ok(made)).0;
      && q.maxSize == p.maxSize
      && Keys(q.entries) == (if |p.entries| == p.maxSize then Keys(p.entries)[1..] else Keys(p.entries)) + [k]
  {
    var kept := if |p.entries| == p.maxSize then p.entries[1..] else p.entries;
    KeysAppend(kept, [Pair(k, made)]);
  }
}

=== FILE: reader.dfy ===
/** Path reads: `read(layer, *keys, shallow_search=True, default=None)`.

    Lists, tuples and dicts are indexed (a bad index or key raises); a view
    yields the value bound to a data key; anything else (a missing name on a
    view, any name on a scalar) ends the read with `default` under
    `shallow_search` and with `None` otherwise. Only data keys are path keys:
    Python attributes such as `keys` or `real` are not modelled. */
module Reader {
  import opened Wrappers
  import opened Assoc
  import opened Value
  import Namespace

  datatype PathKey = Name(name: string) | Index(index: int)

  /** The outcome of one path step. */
  datatype Step = Descend(next: Val) | Miss | Raise(error: Error)

  /** Python sequence indexing: `-n <= i < n`, negative indices count from the end. */
  function SeqIndex(n: nat, i: int): (r: Option<nat>)
    ensures r.Some? <==> -(n as int) <= i < n
    ensures r.Some? ==> r.value < n && r.value as int == (if i < 0 then n + i else i)
  {
    if 0 <= i < n then Some(i)
    else if -(n as int) <= i < 0 then Some(n + i)
    else None
  }

  /** One iteration of the loop in `read`. */
  function StepInto(cur: Val, key: PathKey): (s: Step)
    ensures s.Raise? ==> s.error == TypeError || s.error == KeyError || s.error == IndexError
    ensures s.Miss? <==> (cur.View? || cur.Scalar?) && key.Name? && (cur.View? ==> key.name !in Keys(cur.entries))
  {
    if cur.List? || cur.Tuple? then
      match key
      case Index(i) =>
        var j := SeqIndex(|cur.items|, i);
        if j.Some? then Descend(cur.items[j.value]) else Raise(IndexError)
      case Name(_) => Raise(TypeError)
    else if cur.Dict? then
      match key
      case Name(k) => if k in Keys(cur.entries) then Descend(Lookup(cur.entries, k).value) else Raise(KeyError)
      case Index(_) => Raise(KeyError)
    else
      match key
      case Index(_) => Raise(TypeError)
      case Name(k) =>
        if cur.View? && k in Keys(cur.entries) then Descend(Lookup(cur.entries, k).value) else Miss
  }

  /** The value a path read yields when it stops early. */
  function Fallback(shallow: bool, default: Val): Val {
    if shallow then default else NoneVal
  }

  /** The path loop of `read`; with no keys it answers `cur` itself, which is
      what the layer generation's `read` returns for an empty path. */
  function Walk(cur: Val, keys: seq<PathKey>, shallow: bool, default: Val): (r: Result<Val>)
    decreases keys
    ensures keys == [] ==> r == Ok(cur)
    ensures keys != [] && StepInto(cur, keys[0]).Miss? ==> r == Ok(Fallback(shallow, default))
    ensures keys != [] && StepInto(cur, keys[0]).Raise? ==> r == Err(StepInto(cur, keys[0]).error)
    ensures r.Err? ==> r.error == TypeError || r.error == KeyError || r.error == IndexError
  {
    if keys == [] then Ok(cur)
    else
      match StepInto(cur, keys[0])
      case Descend(next) => Walk(next, keys[1..], shallow, default)
      case Miss => Ok(Fallback(shallow, default))
      case Raise(e) => Err(e)
  }

  /** What the curried `read` answers: a value, or (for an empty path) a
      reader bound to the layer and the flags. */
  datatype Reading = Value(v: Val) | Reader(bound: Val, shallow: bool, default: Val)

  /** `read` of the namespace generation. */
  function Read(layer: Val, keys: seq<PathKey>, shallow: bool, default: Val): (r: Result<Reading>)
    ensures keys == [] ==> r == Ok(Reader(layer, shallow, default))
    ensures keys != [] ==> (r.Ok? <==> Walk(layer, keys, shallow, default).Ok?)
    ensures keys != [] && r.Ok? ==> r.value == Value(Walk(layer, keys, shallow, default).value)
  {
    if keys == [] then Ok(Reader(layer, shallow, default))
    else
      var v :- Walk(layer, keys, shallow, default);
      Ok(Value(v))
  }

  /** Calling the reader returned for an empty path. */
  function Apply(reader: Reading, keys: seq<PathKey>): Result<Reading>
    requires reader.Reader?
  {
    Read(reader.bound, keys, reader.shallow, reader.default)
  }

  /** The reader handed back for an empty path answers every later path
      exactly as a direct read of the same layer under the same flags. */
  lemma CurriedRead(layer: Val, shallow: bool, default: Val, keys: seq<PathKey>)
    ensures Read(layer, [], shallow, default).Ok?
    ensures Apply(Read(layer, [], shallow, default).value, keys) == Read(layer, keys, shallow, default)
  {
  }

  // ----- reads of wrapped data -----

  /** A path into plain data: dicts by name, lists by (Python) index. */
  function PlainAt(d: Val, keys: seq<PathKey>): Option<Val>
    decreases keys
  {
    if keys == [] then Some(d)
    else match (d, keys[0])
      case (Dict(es), Name(k)) =>
        if k in Keys(es) then PlainAt(Lookup(es, k).value, keys[1..]) else None
      case (List(xs), Index(i)) =>
        var j := SeqIndex(|xs|, i);
        if j.Some? then PlainAt(xs[j.value], keys[1..]) else None
      case _ => None
  }

  lemma {:induction false} PlainAtPlain(d: Val, keys: seq<PathKey>)
    requires Plain(d) && PlainAt(d, keys).Some?
    ensures Plain(PlainAt(d, keys).value)
    decreases keys
  {
    if keys != [] {
      match (d, keys[0])
      case (Dict(es), Name(k)) =>
        var i := IndexOf(es, k);
        LookupFirst(es, k);
        PlainAtPlain(es[i].val, keys[1..]);
      case (List(xs), Index(i)) =>
        var j := SeqIndex(|xs|, i);
        PlainAtPlain(xs[j.value], keys[1..]);
    }
  }

  /** Walking a path that exists in the plain data leads, in the wrapped
      data, to the wrapped value found there; the walk then goes on from it. */
  lemma {:induction false} WalkWrappedPrefix(d: Val, prefix: seq<PathKey>, tail: seq<PathKey>,
                                             frozen: bool, shallow: bool, default: Val)
    requires PlainAt(d, prefix).Some?
    ensures Walk(Namespace.Parse(d, frozen), prefix + tail, shallow, default)
         == Walk(Namespace.Parse(PlainAt(d, prefix).value, frozen), tail, shallow, default)
    decreases prefix
  {
    if prefix == [] {
      assert prefix + tail == tail;
    } else {
      var keys := prefix + tail;
      AppendTail(prefix, tail);
      var next := WrappedStep(d, prefix, frozen);
      assert Walk(Namespace.Parse(d, frozen), keys, shallow, default)
          == Walk(Namespace.Parse(next, frozen), keys[1..], shallow, default);
      WalkWrappedPrefix(next, prefix[1..], tail, frozen, shallow, default);
    }
  }

  /** The first step of a path into plain data, taken in the wrap: it
      descends to the wrap of the value the plain step reaches. */
  lemma WrappedStep(d: Val, prefix: seq<PathKey>, frozen: bool) returns (next: Val)
    requires prefix != [] && PlainAt(d, prefix).Some?
    ensures PlainAt(d, prefix) == PlainAt(next, prefix[1..])
    ensures StepInto(Namespace.Parse(d, frozen), prefix[0]) == Descend(Namespace.Parse(next, frozen))
  {
    if d.Dict? {
      next := WrappedNameStep(d.entries, prefix, frozen);
    } else {
      next := WrappedIndexStep(d.items, prefix, frozen);
    }
  }

  lemma WrappedNameStep(es: Entries, prefix: seq<PathKey>, frozen: bool) returns (next: Val)
    requires prefix != [] && PlainAt(Dict(es), prefix).Some?
    ensures PlainAt(Dict(es), prefix) == PlainAt(next, prefix[1..])
    ensures StepInto(Namespace.Parse(Dict(es), frozen), prefix[0]) == Descend(Namespace.Parse(next, frozen))
  {
    var k := prefix[0].name;
    next := Lookup(es, k).value;
    Namespace.LookupParse(es, frozen, k);
  }

  lemma WrappedIndexStep(xs: seq<Val>, prefix: seq<PathKey>, frozen: bool) returns (next: Val)
    requires prefix != [] && PlainAt(List(xs), prefix).Some?
    ensures PlainAt(List(xs), prefix) == PlainAt(next, prefix[1..])
    ensures StepInto(Namespace.Parse(List(xs), frozen), prefix[0]) == Descend(Namespace.Parse(next, frozen))
  {
    var j := SeqIndex(|xs|, prefix[0].index);
    next := xs[j.value];
  }

  lemma AppendTail<A>(a: seq<A>, b: seq<A>)
    requires a != []
    ensures (a + b)[0] == a[0] && (a + b)[1..] == a[1..] + b
  {
  }

  /** Reading a path from wrapped data gives the wrapped value found at that
      path in the plain data: names select dict keys, indices list elements. */
  lemma ReadThroughWrap(d: Val, keys: seq<PathKey>, frozen: bool, shallow: bool, default: Val)
    requires PlainAt(d, keys).Some?
    ensures Walk(Namespace.Parse(d, frozen), keys, shallow, default)
         == Ok(Namespace.Parse(PlainAt(d, keys).value, frozen))
  {
    WalkWrappedPrefix(d, keys, [], frozen, shallow, default);
    assert keys + [] == keys;
  }

  /** A name missing from a wrapped dict ends the read with the fallback,
      whatever keys follow: a missing intermediate key is not an error. */
  lemma MissingNameFallsBack(d: Val, prefix: seq<PathKey>, k: string, rest: seq<PathKey>,
                             frozen: bool, shallow: bool, default: Val)
    requires PlainAt(d, prefix).Some? && PlainAt(d, prefix).value.Dict?
    requires k !in Keys(PlainAt(d, prefix).value.entries)
    ensures Walk(Namespace.Parse(d, frozen), prefix + [Name(k)] + rest, shallow, default)
         == Ok(Fallback(shallow, default))
  {
    WalkWrappedPrefix(d, prefix, [Name(k)] + rest, frozen, shallow, default);
    assert prefix + [Name(k)] + rest == prefix + ([Name(k)] + rest);
  }

  /** `read(asclass({"a": {"b": 1}}), "a", "c", default=99)` is 99 under
      `shallow_search` and `None` without it. */
  lemma ShallowSearchExample(shallow: bool)
    ensures var layer := Namespace.Wrap([Pair("a", Dict([Pair("b", Scalar(Int(1)))]))], false);
      Walk(layer, [Name("a"), Name("c")], shallow, Scalar(Int(99)))
        == Ok(if shallow then Scalar(Int(99)) else NoneVal)
  {
    var d := Dict([Pair("a", Dict([Pair("b", Scalar(Int(1)))]))]);
    assert PlainAt(d, []) == Some(d);
    assert Keys([Pair("b", Scalar(Int(1)))]) == ["b"];
    assert Keys(d.entries) == ["a"];
    assert [Name("a"), Name("c")] == [Name("a")] + [Name("c")] + [];
    assert PlainAt(d, [Name("a")]) == Some(Dict([Pair("b", Scalar(Int(1)))]));
    MissingNameFallsBack(d, [Name("a")], "c", [], false, shallow, Scalar(Int(99)));
  }
}

=== FILE: registry.dfy ===
/** Where configurations are kept and loaded.

    The layer generations keep a class-level table of configurations by name
    (`ConfigPool.load` / `ConfigPool.get`); the namespace generation memoises
    `get_config` on its arguments and loads through `load_config`. Opening
    and parsing the file is outside the model: a load is given the file's
    suffix and the document its loader produced. */
module Registry {
  import opened Wrappers
  import opened Value
  import Namespace
  import opened ConfigStore

  datatype Loader = Json | Yaml

  /** `LOADER.get(path.suffix)`. */
  function LoaderFor(suffix: string): (r: Option<Loader>)
    ensures r.Some? <==> suffix == ".json" || suffix == ".yaml" || suffix == ".yml"
    ensures r == Some(Json) <==> suffix == ".json"
  {
    if suffix == ".json" then Some(Json)
    else if suffix == ".yaml" || suffix == ".yml" then Some(Yaml)
    else None
  }

  /** What the loader hands back for a parsed document: the YAML loader
      turns an empty (falsy) document into `{}`. */
  function LoadedParams(loader: Loader, doc: Val): (r: Val)
    ensures Truthy(doc) ==> r == doc
    ensures loader.Yaml? ==> Truthy(r) || r == Dict([])
  {
    if loader.Yaml? && !Truthy(doc) then Dict([]) else doc
  }

  /** Whatever document a supported file holds, the detail it gives is a view. */
  lemma LoadedParamsWrap(loader: Loader, doc: Val, layered: bool)
    requires doc.Dict? || !Truthy(doc)
    ensures Namespace.AsClass(LoadedParams(loader, doc), layered).Ok?
  {
  }

  /** Fetch-or-create (`ConfigPool.get`, and `get_config` behind its cache):
      an absent key gets a new configuration; nothing is ever removed. */
  function Fetch<K(==)>(pool: map<K, Config>, key: K, layered: bool): (r: (map<K, Config>, Config))
    ensures key in r.0 && r.1 == r.0[key]
    ensures key in pool ==> r.0 == pool
    ensures key !in pool ==> r.0 == pool[key := NewConfig(layered)]
  {
    if key in pool then (pool, pool[key])
    else (pool[key := NewConfig(layered)], NewConfig(layered))
  }

  /** A second fetch of the same key hands back the same configuration and
      leaves the table as the first fetch left it. */
  lemma FetchIdempotent<K>(pool: map<K, Config>, key: K, layered: bool)
    ensures Fetch(Fetch(pool, key, layered).0, key, layered) == Fetch(pool, key, layered)
  {
  }

  /** `ConfigPool.load(path, name)`: check the suffix, parse, fetch the named
      configuration (creating it if needed), then set its detail. */
  function Load(pool: map<string, Config>, suffix: string, name: string, doc: Val, layered: bool)
    : (r: (map<string, Config>, Result<Config>))
    ensures LoaderFor(suffix).None? ==> r == (pool, Err(UnsupportedFormat(suffix)))
    ensures LoaderFor(suffix).Some? ==> name in r.0
    ensures forall n :: n != name ==> (n in r.0 <==> n in pool) && (n in pool ==> r.0[n] == pool[n])
    ensures r.1.Ok? ==> r.0[name] == r.1.value
    ensures r.1.Ok? ==> Namespace.AsClass(LoadedParams(LoaderFor(suffix).value, doc), r.1.value.layered) == Ok(Root(r.1.value))
    ensures r.1.Ok? && name !in pool ==> r.1.value.layered == layered
    ensures r.1.Err? && LoaderFor(suffix).Some? ==> r.1.error == AttributeError
  {
    match LoaderFor(suffix)
    case None => (pool, Err(UnsupportedFormat(suffix)))
    case Some(loader) =>
      var params := LoadedParams(loader, doc);
      var (fetched, config) := Fetch(pool, name, layered);
      match SetDetail(config, params)
      case Ok(c) => (fetched[name := c], Ok(c))
      case Err(e) => (fetched, Err(e))
  }

  /** After a successful load, `ConfigPool.get(name)` returns the loaded configuration. */
  lemma LoadThenGet(pool: map<string, Config>, suffix: string, name: string, doc: Val, layered: bool)
    requires Load(pool, suffix, name, doc, layered).1.Ok?
    ensures var (p, c) := Load(pool, suffix, name, doc, layered);
      Fetch(p, name, layered) == (p, c.value)
  {
  }

  /** Loading the same document twice gives the same configuration and the
      same table as loading it once. */
  lemma LoadTwice(pool: map<string, Config>, suffix: string, name: string, doc: Val, layered: bool)
    requires Load(pool, suffix, name, doc, layered).1.Ok?
    ensures var (p, c) := Load(pool, suffix, name, doc, layered);
      Load(p, suffix, name, doc, layered) == (p, c)
  {
    var (p, c) := Load(pool, suffix, name, doc, layered);
    var params := LoadedParams(LoaderFor(suffix).value, doc);
    var (fetched, config) := Fetch(pool, name, layered);
    assert (p, c) == (fetched[name := c.value], SetDetail(config, params));
    SetDetailTwice(config, params);
    var (fetched2, config2) := Fetch(p, name, layered);
    assert fetched2 == p && config2 == c.value;
    LoadUnfold(p, suffix, name, doc, layered);
    assert p[name := c.value] == p;
  }

  lemma LoadUnfold(pool: map<string, Config>, suffix: string, name: string, doc: Val, layered: bool)
    requires LoaderFor(suffix).Some?
    requires SetDetail(Fetch(pool, name, layered).1, LoadedParams(LoaderFor(suffix).value, doc)).Ok?
    ensures var stored := SetDetail(Fetch(pool, name, layered).1, LoadedParams(LoaderFor(suffix).value, doc));
      Load(pool, suffix, name, doc, layered) == (Fetch(pool, name, layered).0[name := stored.value], stored)
  {
  }

  /** Setting the same detail twice is setting it once. */
  lemma SetDetailTwice(c: Config, params: Val)
    requires SetDetail(c, params).Ok?
    ensures SetDetail(SetDetail(c, params).value, params) == SetDetail(c, params)
  {
  }

  /** A load whose document is not a mapping still leaves the (new, empty)
      configuration in the table: the fetch happens before the detail fails. */
  lemma FailedLoadKeepsFetched(pool: map<string, Config>, suffix: string, name: string, doc: Val, layered: bool)
    requires LoaderFor(suffix).Some? && name !in pool
    requires Truthy(doc) && !doc.Dict? && !doc.View?
    ensures Load(pool, suffix, name, doc, layered) == (pool[name := NewConfig(layered)], Err(AttributeError))
  {
  }

  // ----- the namespace generation: get_config / load_config -----

  /** A file handed to `load_config`: its suffix and the parsed document. */
  datatype File = File(suffix: string, doc: Val)

  /** Every configuration `get_config` hands out wraps with namespaces. */
  predicate NamespaceTable<K>(memo: map<K, Config>) {
    forall a :: a in memo ==> !memo[a].layered
  }

  /** `load_config(*args, path=...)`: without a path the detail is an empty
      namespace; with one, an unsupported suffix fails before `get_config`
      runs, so the cache is untouched; a supported one stores the wrap of
      what the loader produced in the cached configuration. */
  function LoadConfig<K(==,!new)>(memo: map<K, Config>, args: K, file: Option<File>)
    : (r: (map<K, Config>, Result<Config>))
    requires NamespaceTable(memo)
    ensures file.Some? && LoaderFor(file.value.suffix).None?
            ==> r == (memo, Err(UnsupportedFormat(file.value.suffix)))
    ensures file.Some? && LoaderFor(file.value.suffix).Some?
            ==> r.1 == SetDetail(Fetch(memo, args, false).1,
                                 LoadedParams(LoaderFor(file.value.suffix).value, file.value.doc))
    ensures NamespaceTable(r.0)
    ensures file.None? ==> r.1.Ok? && Root(r.1.value) == View([], false)
    ensures r.1.Ok? ==> args in r.0 && r.0[args] == r.1.value
    ensures r.1.Err? && (file.None? || LoaderFor(file.value.suffix).Some?)
            ==> r.0 == Fetch(memo, args, false).0
    ensures forall a :: a != args ==> (a in r.0 <==> a in memo) && (a in memo ==> r.0[a] == memo[a])
  {
    match ParamsOf(file)
    case Err(e) => (memo, Err(e))
    case Ok(params) =>
      var (fetched, config) := Fetch(memo, args, false);
      match SetDetail(config, params)
      case Ok(c) => (fetched[args := c], Ok(c))
      case Err(e) => (fetched, Err(e))
  }

  /** For a supported file, `load_config` with a name as its argument does
      what the layer generation's `ConfigPool.load` does for a namespace
      configuration: same table, same outcome. */
  lemma LoadConfigIsLoad(memo: map<string, Config>, name: string, suffix: string, doc: Val)
    requires NamespaceTable(memo)
    requires LoaderFor(suffix).Some?
    ensures LoadConfig(memo, name, Some(File(suffix, doc))) == Load(memo, suffix, name, doc, false)
  {
  }

  /** The `params` `load_config` hands to the detail setter. */
  function ParamsOf(file: Option<File>): Result<Val> {
    match file
    case None => Ok(Dict([]))
    case Some(File(suffix, doc)) =>
      match LoaderFor(suffix)
      case None => Err(UnsupportedFormat(suffix))
      case Some(loader) => Ok(LoadedParams(loader, doc))
  }
}

=== FILE: singleton.dfy ===
/** The `singleton` class decorator (in `design_pattern.py` and again in
    `creational/singleton.py`).

    The decorated class keeps one optional instance. `get` answers it without
    constructing anything, and `set(*args)` replaces it with a freshly built
    object; the object the class builds from the arguments is a parameter
    `made`. Defining a subclass runs `__init_subclass__`, which builds the
    subclass's object class with `type(cls, (_cls,), ...)`: it hands the class
    object where `type` needs a `str` name, so `type` raises `TypeError` and
    no subclass can be defined. `SubclassAsWritten` models that;
    `Subclass` models the evidently intended `type(cls.__name__, ...)`, the
    call the object pool makes, which gives a subclass its own empty slot. */
module Singleton {
  import opened Wrappers

  /** The class-level state: the name of the class `set` constructs, and the
      instance, if any. */
  datatype Holder<T> = Holder(objectClass: string, instance: Option<T>)

  /** The class right after decorating the class named `cls`: no instance yet. */
  function NewHolder<T>(cls: string): (h: Holder<T>)
    ensures Get(h) == None
    ensures h.objectClass == cls
  {
    Holder(cls, None)
  }

  /** `get()`: the stored instance, or `None` before the first `set`. */
  function Get<T>(h: Holder<T>): Option<T> {
    h.instance
  }

  /** `set(*args, **kwargs)`, where `made` is what the class constructor gives
      for the arguments: the object, or the exception it raised. A raising
      constructor propagates and the class keeps its instance. */
  function Set<T>(h: Holder<T>, made: Result<T>): (r: Result<Holder<T>>)
    ensures r.Ok? <==> made.Ok?
    ensures made.Err? ==> r == Err(made.error)
    ensures r.Ok? ==> Get(r.value) == Some(made.value) && r.value.objectClass == h.objectClass
  {
    var x :- made;
    Ok(h.(instance := Some(x)))
  }

  /** The class after a `set` call, whether it returned or raised. */
  function AfterSet<T>(h: Holder<T>, made: Result<T>): Holder<T> {
    match Set(h, made)
    case Ok(h') => h'
    case Err(_) => h
  }

  /** The first argument handed to `type(name, bases, namespace)`. */
  datatype TypeName = Str(name: string) | ClassObject(className: string)

  /** The three-argument `type(...)`: a new class with the given name; a name
      that is not a `str` raises `TypeError`. */
  function NewType(name: TypeName): (r: Result<string>)
    ensures r.Ok? <==> name.Str?
    ensures r.Ok? ==> r.value == name.name
    ensures r.Err? ==> r.error == TypeError
  {
    match name
    case Str(n) => Ok(n)
    case ClassObject(_) => Err(TypeError)
  }

  /** `__init_subclass__` as written, for a subclass named `sub`: `type` is
      given the class object itself, so defining the subclass raises. */
  function SubclassAsWritten<T>(h: Holder<T>, sub: string): (r: Result<Holder<T>>)
    ensures r == Err(TypeError)
  {
    match NewType(ClassObject(sub))
    case Err(e) => Err(e)
    case Ok(n) => Ok(Holder(n, None))
  }

  /** `__init_subclass__` with the class's name passed to `type`: the subclass
      constructs its own class, named after it, and starts with no instance. */
  function Subclass<T>(h: Holder<T>, sub: string): (r: Result<Holder<T>>)
    ensures r.Ok?
    ensures Get(r.value) == None && r.value.objectClass == sub
  {
    match NewType(Str(sub))
    case Err(e) => Err(e)
    case Ok(n) => Ok(Holder(n, None))
  }

  /** A subclass `Sub` of a decorated class that already holds an instance:
      as written its definition raises `TypeError`; as intended it exists, and
      its `get` answers `None` until its own `set`, whatever the parent holds. */
  lemma SubclassRaises(parent: int)
    ensures var p := AfterSet(NewHolder("Config"), Ok(parent));
      && Get(p) == Some(parent)
      && SubclassAsWritten(p, "Sub") == Err(TypeError)
      && var sub := Subclass(p, "Sub");
      && sub.Ok? && Get(sub.value) == None
      && Get(AfterSet(sub.value, Ok(parent + 1))) == Some(parent + 1)
  {
  }

  /** A later successful `set` replaces the earlier instance entirely; a
      later `set` whose constructor raises leaves it in place. */
  lemma SetReplaces<T>(h: Holder<T>, a: T, b: T, e: Error)
    ensures Set(AfterSet(h, Ok(a)), Ok(b)) == Set(h, Ok(b))
    ensures Get(AfterSet(AfterSet(h, Ok(a)), Ok(b))) == Some(b)
    ensures Get(AfterSet(AfterSet(h, Ok(a)), Err(e))) == Some(a)
  {
  }

  // ----- a run of calls against one class -----

  datatype Call<T> = GetCall | SetCall(made: Result<T>) {
    /** A `set` whose constructor returned. */
    predicate Sets() {
      SetCall? && made.Ok?
    }
  }

  /** Replays the calls in order and collects what each `get` answered. */
  function Replay<T>(h: Holder<T>, calls: seq<Call<T>>): (r: (Holder<T>, seq<Option<T>>))
    decreases |calls|
  {
    if calls == [] then (h, [])
    else
      var h' := if calls[0].SetCall? then AfterSet(h, calls[0].made) else h;
      var rest := Replay(h', calls[1..]);
      (rest.0, (if calls[0].GetCall? then [Get(h)] else []) + rest.1)
  }

  /** The instance of the most recent successful `set` among `calls`, else `start`. */
  function LatestSet<T>(start: Option<T>, calls: seq<Call<T>>): (r: Option<T>)
    decreases |calls|
  {
    if calls == [] then start
    else if calls[|calls| - 1].Sets() then Some(calls[|calls| - 1].made.value)
    else LatestSet(start, calls[..|calls| - 1])
  }

  /** A `get` appended to a run answers the most recent successful `set`
      before it (or the starting instance, `None` for a fresh class): gets
      and raising sets never change the instance. */
  lemma {:induction false} ReplayGet<T>(h: Holder<T>, calls: seq<Call<T>>)
    ensures Replay(h, calls).0.instance == LatestSet(h.instance, calls)
    ensures var r := Replay(h, calls + [GetCall]).1;
      |r| > 0 && r[|r| - 1] == LatestSet(h.instance, calls)
    decreases |calls|
  {
    if calls == [] {
      assert calls + [GetCall] == [GetCall];
    } else {
      var h' := if calls[0].SetCall? then AfterSet(h, calls[0].made) else h;
      ReplayGet(h', calls[1..]);
      assert (calls + [GetCall])[1..] == calls[1..] + [GetCall];
      LatestSetCons(h.instance, calls);
    }
  }

  /** `LatestSet` seen from the front: the first call only matters when no
      later call sets successfully. */
  lemma {:induction false} LatestSetCons<T>(start: Option<T>, calls: seq<Call<T>>)
    requires calls != []
    ensures LatestSet(start, calls)
         == LatestSet(if calls[0].Sets() then Some(calls[0].made.value) else start, calls[1..])
    decreases |calls|
  {
    if |calls| > 1 {
      var init := calls[..|calls| - 1];
      assert init[0] == calls[0];
      assert init[1..] == calls[1..][..|calls[1..]| - 1];
      if !calls[|calls| - 1].Sets() {
        LatestSetCons(start, init);
      }
    }
  }
}

=== FILE: value.dfy ===
/** The nested data a configuration holds.

    `List` and `Tuple` are kept apart because wrapping turns every list into a
    tuple and flattening does not turn it back. `Dict` is a plain Python dict;
    `View` is a namespace or layer built by `asclass`, whose `frozen` flag
    refuses item assignment (a read-only layer is a view with the flag set). */
module Value {
  import opened Assoc

  datatype Atom = Null | Bool(b: bool) | Int(i: int) | Str(s: string)

  datatype Val =
    | Scalar(atom: Atom)
    | List(items: seq<Val>)
    | Tuple(items: seq<Val>)
    | Dict(entries: seq<Pair<Val>>)
    | View(entries: seq<Pair<Val>>, frozen: bool)

  type Entries = seq<Pair<Val>>

  /** Python's `None`. */
  const NoneVal: Val := Scalar(Null)

  /** Python truthiness: `None`, `False`, `0`, `""` and empty containers are false. */
  predicate Truthy(v: Val) {
    match v
    case Scalar(a) =>
      (match a
       case Null => false
       case Bool(b) => b
       case Int(i) => i != 0
       case Str(s) => s != "")
    case List(xs) => xs != []
    case Tuple(xs) => xs != []
    case Dict(es) => es != []
    case View(es, _) => es != []
  }

  /** Data as a JSON or YAML loader produces it: scalars, lists and dicts. */
  predicate Plain(v: Val) {
    match v
    case Scalar(_) => true
    case List(xs) => forall i :: 0 <= i < |xs| ==> Plain(xs[i])
    case Dict(es) => PlainEntries(es)
    case _ => false
  }

  predicate PlainEntries(es: Entries) {
    UniqueKeys(es) && forall i :: 0 <= i < |es| ==> Plain(es[i].val)
  }

  /** No dict appears anywhere inside `v`. */
  predicate DictFree(v: Val) {
    match v
    case Scalar(_) => true
    case List(xs) => forall i :: 0 <= i < |xs| ==> DictFree(xs[i])
    case Tuple(xs) => forall i :: 0 <= i < |xs| ==> DictFree(xs[i])
    case Dict(_) => false
    case View(es, _) => forall i :: 0 <= i < |es| ==> DictFree(es[i].val)
  }

  /** Every mapping inside `v`, at any depth, has distinct keys. */
  predicate DeepUnique(v: Val) {
    match v
    case Scalar(_) => true
    case List(xs) => forall i :: 0 <= i < |xs| ==> DeepUnique(xs[i])
    case Tuple(xs) => forall i :: 0 <= i < |xs| ==> DeepUnique(xs[i])
    case Dict(es) => DeepUniqueEntries(es)
    case View(es, _) => DeepUniqueEntries(es)
  }

  predicate DeepUniqueEntries(es: Entries) {
    UniqueKeys(es) && forall i :: 0 <= i < |es| ==> DeepUnique(es[i].val)
  }
}

=== FILE: wrappers.dfy ===
/** Failure-carrying results shared by every module of the model.

    `Error` names the Python exceptions the modelled code raises; the ones the
    library raises itself carry the message it uses, the others are the
    built-in exception classes the interpreter would raise. */
module Wrappers {

  datatype Option<+T> = None | Some(value: T) {
    function GetOr(default: T): T {
      match this
      case Some(v) => v
      case None => default
    }
  }

  datatype Error =
    | TypeError
    | KeyError
    | IndexError
    | AttributeError
    | ValueError
      /** `Exception("Namespace is frozen")` */
    | Frozen
      /** `Exception("pool overflowed")` */
    | PoolOverflowed
      /** `Exception(f"file format {suffix} is not supported")` */
    | UnsupportedFormat(suffix: string)
      /** whatever exception a user-supplied producer raised */
    | ProducerFailed

  datatype Result<+T> = Ok(value: T) | Err(error: Error) {
    predicate IsFailure() {
      Err?
    }

    function PropagateFailure<U>(): Result<U>
      requires Err?
    {
      Err(error)
    }

    function Extract(): T
      requires Ok?
    {
      value
    }
  }
}
